=== FILE: README.md ===
# ChatBot real-time chat core, modelled in Dafny

This project models the real-time chat pipeline of the ChatBot repository.

On the server side (`BackEnd/chat_service`) it covers:

- the moderation ledger: keyword check, strike counter, tier table and ban flag;
- the connection registry with its broadcast and buffered fan-out;
- the two iterations of the per-message handler, which are the mounted websocket endpoint in `routers/chat.py` and the helper functions in `sockets/ws_helpers.py`;
- the shared flush rule that both instantiate;
- the session, message and image store.

Next to these sit two small server cores:

- the identity service's Redis rate limiter;
- the email service's template substitution.

On the React client it covers:

- the socket hook that parses server frames, gates on bans and throttles typing (`useChatSocket.js`);
- the chat page hook that classifies, deduplicates and records incoming messages (`useChatDetail.js`);
- the Redux chat reducer (`chatSlice.js`);
- the password-strength rules;
- the translation lookup.

Modules follow the source files one to one:

| module | source |
|---|---|
| `Violation` | `violation_handler.py` |
| `FastStore` | the Redis operations used, as a map from key to value and expiry time |
| `Registry` | `connection_manager.py` |
| `Flush` | the flush loop shared by `broadcast_stream`, the endpoint and `stream_ai_response` |
| `Wire` | the frames the server sends |
| `ChatRouter` | `routers/chat.py` |
| `WsHelpers` | `ws_helpers.py` |
| `ChatStore` | `crud.py` |
| `RateLimiter` | `rate_limiter.py` |
| `EmailTemplates` | `emali_templates.py` |
| `ChatSocket` | `useChatSocket.js` |
| `ChatDetail` | `useChatDetail.js` |
| `ChatSlice` | `chatSlice.js` |
| `PasswordStrength` | `PasswordStrength.jsx` |
| `Translation` | `useTranslation.js` |

`Wrappers` (`Option`) and `Text` (substring search, Python `strip`, JavaScript `trim`, lowercasing, split/join, `replace` with both languages' semantics) are support modules.

Time is an integer everywhere, in the unit each side uses:

- the fast store, the strike ledger and the rate limiter count whole seconds;
- the stream flush counts microseconds, so the 1.0 s and 1.5 s thresholds are exact;
- the client counts milliseconds.

The AI provider is an abstract finite sequence of chunks, each with optional content and an arrival time, possibly ending in a failure. The title generator is an abstract string. Random ids (`crypto.randomUUID`) and clock readings are parameters.

The client model is connected to the server model: server messages are encoded into the frames the browser receives (`ChatSocket.Encode`). So, for example, the notices that `process_violation` sends are parsed by the client's own heuristics inside the proofs.

Five client defects are listed under Findings. The members they touch take an `asWritten` flag: `ChatSocket.OnFrame`, `ChatSocket.ViolationNotice`, `ChatSocket.OnOpen`, `ChatDetail.OnMessage`, `ChatDetail.SendMessage` and `ChatDetail.LoadAll`. With the flag set they behave as the code is written. With it clear they use the corrected definition. `ChatSocket.Hook`, and every lemma about the hook reading a stream, is the code as written.

## Model

| member | source | states |
|---|---|---|
| Violation.ContainsViolation | BackEnd/chat_service/service/violation_handler.py:13-16 | A message is flagged exactly when some keyword is a substring of the lowercased message. |
| Violation.KeywordEdgeCases | BackEnd/chat_service/service/violation_handler.py:16 | An empty keyword list flags nothing; an empty keyword flags every message. |
| Violation.NoWordBoundary | BackEnd/chat_service/service/violation_handler.py:16 | There is no word-boundary test: "ass" flags "class". |
| Violation.OnlyMessageIsLowered | BackEnd/chat_service/service/violation_handler.py:15-16 | The message is lowercased but the keywords are not: "ASS" is flagged by "ass", while "ass" is not flagged by "ASS". |
| Violation.Tier | BackEnd/chat_service/service/violation_handler.py:59-72 | The tier is min(strikes, 4). For at least one strike it lies in 1..4 and names a row of the level table. |
| Violation.BanSeconds | BackEnd/chat_service/service/violation_handler.py:59-73 | Strikes map to ban seconds 1→0, 2→300, 3→3600, ≥4→86400; a ban exists exactly from the second strike on. |
| Violation.ProcessViolation | BackEnd/chat_service/service/violation_handler.py:54-88 | The counter rises by exactly one and lives one more day. The log row carries the unclamped count. A ban flag with the tier's lifetime is written iff its ban time is positive, and again for a day from four strikes on. The tier notice goes first, then the lock and email notices. The call raises exactly when a durable write or the lock email fails, or the counter is not positive. No other ledger key changes. |
| Violation.SyncStrikeFromDb | BackEnd/chat_service/service/violation_handler.py:46-53 | The persisted count is copied, with a one-day lifetime, only when the counter is absent; an existing counter is never overwritten. |
| Violation.StrikesCountCalls | BackEnd/chat_service/service/violation_handler.py:66-67 | Calls within a day of each other each add exactly one strike. |
| Violation.SecondStrikeBansFiveMinutes | BackEnd/chat_service/service/violation_handler.py:59-76 | A second strike bans the user for exactly 300 seconds. |
| Violation.DurableWrites | BackEnd/chat_service/schemas.py:81-84 | The strike record and the store succeed iff the record is built with both required fields, `user_id` and `strike_count`, and the store does not fail. |
| Violation.EveryViolationRaisesAsWritten | BackEnd/chat_service/service/violation_handler.py:66-70 | As written the strike record lacks `strike_count`, so every violation raises after the counter rises: no notice is sent, no violation is logged, and whether the user is banned is unchanged. |
| Violation.SecondStrikeBansOnceRecordBuilds | BackEnd/chat_service/service/violation_handler.py:66-76 | With the record built with its `strike_count`, a second strike does not raise, sends the five-minute notice and bans for exactly 300 seconds. |
| Violation.FirstStrikeOnlyWarns | BackEnd/chat_service/service/violation_handler.py:59-78 | A first strike writes no ban flag and sends only the warning. |
| FastStore.Get | BackEnd/chat_service/service/violation_handler.py:48 | A key reads as present exactly while its expiry lies in the future. |
| FastStore.Incr | BackEnd/chat_service/service/violation_handler.py:66 | INCR returns the old count plus one, keeps a live key's expiry, and creates an expired or absent key without one. |
| FastStore.Expire | BackEnd/chat_service/service/violation_handler.py:67 | EXPIRE resets the lifetime of a live key and leaves everything else alone. |
| FastStore.SetExLifetime | BackEnd/chat_service/service/violation_handler.py:76 | A value written with SETEX is visible exactly until its lifetime ends. |
| Registry.Connect | BackEnd/chat_service/sockets/connection_manager.py:14-16 | The socket is appended to the user's list under the chat, so a socket connected twice is stored twice. No other user's list changes. |
| Registry.RemoveFirst | BackEnd/chat_service/sockets/connection_manager.py:21 | `list.remove` drops exactly one occurrence, the multiset loses one copy, and an absent socket leaves the list as it was. |
| Registry.Disconnect | BackEnd/chat_service/sockets/connection_manager.py:18-27 | The user's list loses one occurrence of the socket, and other users and chats keep theirs. Disconnecting a socket missing from a known user's list changes nothing. |
| Registry.DisconnectPrunes | BackEnd/chat_service/sockets/connection_manager.py:21-25 | A list emptied by a disconnect is deleted, and so is a chat entry left without users. |
| Registry.DisconnectUnknownLeavesEmptyEntry | BackEnd/chat_service/sockets/connection_manager.py:11-27 | Disconnecting from an unknown user leaves an empty list behind, created by the defaultdict lookup. |
| Registry.ConnectThenDisconnect | BackEnd/chat_service/sockets/connection_manager.py:14-25 | On a pruned registry, connecting a new socket and disconnecting it restores the registry exactly. |
| Registry.Broadcast | BackEnd/chat_service/sockets/connection_manager.py:29-39 | A socket receives the message iff it is registered under the chat, for a user other than the skipped one, is connected, and its send does not fail. An unknown chat sends nothing. |
| Registry.BroadcastCounts | BackEnd/chat_service/sockets/connection_manager.py:29-39 | A connected socket whose sends succeed is sent the message once per registration under a user other than the skipped one. Any other socket is never sent it. |
| Registry.ConnectedTwiceReceivesTwice | BackEnd/chat_service/sockets/connection_manager.py:14-39 | A socket connected twice for the same user receives each broadcast twice. |
| Registry.BroadcastSkipsUser | BackEnd/chat_service/sockets/connection_manager.py:31-33 | A socket registered only under the skipped user never receives the broadcast. |
| Flush.FanoutPolicy | BackEnd/chat_service/sockets/connection_manager.py:41-57 | `broadcast_stream` flushes at 20 characters or after the given interval, and does not skip empty chunks. |
| Flush.EndsWithMarkIsEndswith | BackEnd/chat_service/routers/chat.py:308-317 | The mark test holds exactly when the buffer ends with one of the seven terminal marks. |
| Flush.Step | BackEnd/chat_service/sockets/ws_helpers.py:62-84 | One chunk extends the reply by its text and keeps the sent frames plus buffer spelling the reply. At most one frame is added. A buffer that is kept has not waited past the idle threshold. |
| Flush.RunReply | BackEnd/chat_service/sockets/ws_helpers.py:65-67 | After any chunks the reply is the concatenation of their non-empty contents. |
| Flush.RunPreservesText | BackEnd/chat_service/routers/chat.py:302-317 | Sent frames followed by the buffer always spell the reply: flushing loses and duplicates nothing. |
| Flush.RunSettles | BackEnd/chat_service/sockets/ws_helpers.py:70-84 | A buffer left unsent is empty, or shorter than the threshold and not ending in a mark: the content conditions always flush. |
| Flush.RunFramesNonEmpty | BackEnd/chat_service/sockets/ws_helpers.py:62-63 | When empty chunks are skipped, no frame is empty. |
| Flush.FanoutMaySendEmptyFrame | BackEnd/chat_service/sockets/connection_manager.py:47-57 | `broadcast_stream` sends an empty frame for an empty chunk that arrives after the interval. |
| Flush.Streamed | BackEnd/chat_service/routers/chat.py:295-327 | Frames plus the unsent tail spell the reply, and the unsent tail is blank. The frames begin with those of the flush loop. |
| Flush.BlankTailIsSavedNotSent | BackEnd/chat_service/routers/chat.py:318-334 | A whitespace tail is part of the saved reply but is never sent. |
| Wire.SenderFramesSpell | BackEnd/chat_service/routers/chat.py:308-317 | The frames sent to the originating socket spell the flushed text. |
| Wire.SharedFramesSpell | BackEnd/chat_service/sockets/ws_helpers.py:70-84 | Each flush reaches both the sender and the others, and either side reads the flushed text. |
| ChatRouter.Open | BackEnd/chat_service/routers/chat.py:207-231 | A missing token, or a session the token's user does not own, closes with 1008 before anything is registered. Otherwise the socket is registered. The context is the system prompt followed by the session's messages, oldest first. |
| ChatRouter.Classify | BackEnd/chat_service/routers/chat.py:242-255 | A frame that is not an object is unreadable. "typing" is a typing action, "sendMessage" with non-empty content is a send, and everything else is ignored. |
| ChatRouter.Stream | BackEnd/chat_service/routers/chat.py:295-327 | Frames go only to the sender. A completed stream ends with DONE and its frames spell the reply up to a blank tail. A failed stream yields no reply and no DONE. |
| ChatRouter.SenderReadsReply | BackEnd/chat_service/routers/chat.py:308-327 | Frames, tail and DONE read back as the reply, up to a blank tail. |
| ChatRouter.Retitle | BackEnd/chat_service/routers/chat.py:338-346 | A default title triggers TITLE_UPDATED with whatever was generated; the stored title changes only when that is non-empty. A custom title changes nothing. |
| ChatRouter.CustomTitleIsKept | BackEnd/chat_service/routers/chat.py:338-339 | A session that already has a custom title is neither renamed nor announced. |
| ChatRouter.GeneratedTitleIsSentVerbatim | BackEnd/chat_service/routers/chat.py:340-346 | An empty or default generated title is still announced. |
| ChatRouter.Answer | BackEnd/chat_service/routers/chat.py:271-293 | A message in a missing session fails and ends the loop with nothing changed. Otherwise the user message is saved under a fresh id, echoed first to the sender and then to the chat's other members, and only then comes the answer; the ledger and the registry are untouched. |
| ChatRouter.Respond | BackEnd/chat_service/routers/chat.py:295-346 | A failed stream ends the connection with nothing saved. A completed one saves the reply, appends it to the context and then retitles. |
| ChatRouter.Moderate | BackEnd/chat_service/routers/chat.py:268-270 | A flagged message adds one strike and is neither saved nor broadcast. |
| ChatRouter.HandleFrame | BackEnd/chat_service/routers/chat.py:242-358 | A non-object frame gets the error notice and ends the loop. Typing is broadcast to the others. Ignored frames do nothing. A banned sender gets the ban notice and nothing else, with strikes unchanged. A flagged message is moderated. Anything else is answered. |
| ChatRouter.Serve | BackEnd/chat_service/routers/chat.py:233-359 | Whichever way the loop ends, the socket is deregistered from the manager. A first frame that is not an object ends the connection with only the error notice, leaving the world unchanged apart from the deregistration. |
| ChatRouter.Connection | BackEnd/chat_service/routers/chat.py:207-359 | A refused connection changes nothing. An accepted one on a pruned registry leaves the registry as it found it. |
| WsHelpers.HandleTyping | BackEnd/chat_service/sockets/ws_helpers.py:27-31 | Typing produces exactly one TYPING event for the others. |
| WsHelpers.StreamReply | BackEnd/chat_service/sockets/ws_helpers.py:34-108 | The reply is every non-empty delta. Sender and others read the same text. DONE ends a completed stream. A failed stream sends an error notice after the flushed frames and returns no reply. |
| WsHelpers.BothSidesReadReply | BackEnd/chat_service/sockets/ws_helpers.py:70-106 | Shared frames, tail and DONE read back as the reply on both sides. |
| WsHelpers.TitleStep | BackEnd/chat_service/sockets/ws_helpers.py:188-227 | Only a blank or default title is replaced. A cached title is preferred over generation. Only a non-empty, non-default title is cached, stored and announced. |
| WsHelpers.AnnouncedTitlesAreUsable | BackEnd/chat_service/sockets/ws_helpers.py:205-221 | At most one title is announced. It is non-empty and non-default, it is the title cached for the chat afterwards, and it is the title stored on the session. |
| WsHelpers.CachedTitleWins | BackEnd/chat_service/sockets/ws_helpers.py:195-199 | With a cached title, what the generator would return makes no difference. |
| WsHelpers.BlankTitleIsReplaced | BackEnd/chat_service/sockets/ws_helpers.py:191-221 | A whitespace-only title counts as missing and is replaced by a usable generated one. |
| WsHelpers.Reply | BackEnd/chat_service/sockets/ws_helpers.py:168-227 | A failed stream returns with nothing saved. A completed one saves the reply and extends the context. |
| WsHelpers.Deliver | BackEnd/chat_service/sockets/ws_helpers.py:152-186 | The user message is saved and echoed to both sides, then the reply follows. A failed save is skipped but the echo still goes out. |
| WsHelpers.HandleSendMessage | BackEnd/chat_service/sockets/ws_helpers.py:111-227 | A banned sender gets the notice and nothing is saved. A flagged message is moderated, then — unless `process_violation` raises, which ends the handler with nothing saved — still saved and broadcast. |
| ChatStore.CreateChatSession | BackEnd/chat_service/crud.py:11-16 | A new session is stored under the fresh id; without a user the insert fails with 500. |
| ChatStore.AddMessageToChat | BackEnd/chat_service/crud.py:18-29 | A message for a known session is stored under the fresh id and nothing else changes; an unknown session fails on the foreign key. |
| ChatStore.GetChatSessions | BackEnd/chat_service/crud.py:31-33 | Exactly the user's sessions, each once, newest first. |
| ChatStore.GetChatHistory | BackEnd/chat_service/crud.py:35-46 | An unknown session gives None. Otherwise the result is the session and all its messages, each once, oldest first. |
| ChatStore.UpdateChatSession | BackEnd/chat_service/crud.py:49-57 | An unknown session gives None. A truthy title overwrites; an empty or missing one leaves the store as it was. |
| ChatStore.DeleteChatSession | BackEnd/chat_service/crud.py:59-65 | Returns whether the session existed. Deletion removes it and, by cascade, exactly its messages. |
| ChatStore.DeleteMessage | BackEnd/chat_service/crud.py:67-73 | Returns whether the message existed, and removes exactly it. |
| ChatStore.DeleteAllMessages | BackEnd/chat_service/crud.py:75-82 | Returns false when the session has no messages. Otherwise it removes exactly that session's messages. |
| ChatStore.CreateImage | BackEnd/chat_service/crud.py:95-107 | The image is stored under the fresh id, unless the commit fails with 500. |
| ChatStore.UpdateImageDescription | BackEnd/chat_service/crud.py:118-128 | Acts only when both the id and the owner match; otherwise it answers 404 and changes nothing. |
| ChatStore.DeleteImage | BackEnd/chat_service/crud.py:130-139 | Acts only when both the id and the owner match, and removes exactly that image; otherwise it answers 404. |
| ChatStore.GetImagesByUser | BackEnd/chat_service/crud.py:109-116 | Exactly the user's images, newest first. |
| ChatStore.GetAllImages | BackEnd/chat_service/crud.py:141-143 | Every image, newest first. |
| ChatStore.AddedMessageIsListed | BackEnd/chat_service/crud.py:18-46 | A message added to a session appears in its history. |
| ChatStore.DeletedSessionHasNoMessages | BackEnd/chat_service/crud.py:59-65 | After a session is deleted, no message refers to it. |
| ChatStore.DeleteAllMessagesTwice | BackEnd/chat_service/crud.py:75-82 | Deleting all messages a second time reports false and changes nothing. |
| ChatStore.UpdateChatSessionIdempotent | BackEnd/chat_service/crud.py:49-57 | Applying the same update twice is applying it once. |
| ChatStore.ImageWritesNeedOwner | BackEnd/chat_service/crud.py:118-139 | Another user's update or delete answers 404, while the owner's succeeds. |
| RateLimiter.IdentityOf | BackEnd/identity_service/rate_limiter.py:12-13 | The scope user's "user" field identifies the caller; without a scope user, the client host does. |
| RateLimiter.BucketKeySeparatesIdentities | BackEnd/identity_service/rate_limiter.py:14 | Under one prefix, different identities get different bucket keys. |
| RateLimiter.LimitAsWritten | BackEnd/identity_service/rate_limiter.py:15-29 | A live count of at least five rejects the request, and the caller sees status 500. |
| RateLimiter.Limit | BackEnd/identity_service/rate_limiter.py:15-27 | A live count of at least five rejects with 429 and changes nothing. |
| RateLimiter.OverLimitSurfacesAs500 | BackEnd/identity_service/rate_limiter.py:17-29 | The same over-limit request: 500 as written, 429 as intended. |
| RateLimiter.WindowFills | BackEnd/identity_service/rate_limiter.py:23-26 | Within a live window holding count c, exactly min(n, 5 − c) of n further requests are admitted, and the expiry never moves. |
| RateLimiter.AtMostFivePerWindow | BackEnd/identity_service/rate_limiter.py:6-27 | From an absent key, exactly min(n, 5) of n requests within 60 seconds are admitted. |
| EmailTemplates.Render | BackEnd/email_service/service/emali_templates.py:10-13 | With no keyword arguments the template is returned unchanged. |
| EmailTemplates.RenderOne | BackEnd/email_service/service/emali_templates.py:11-12 | One argument replaces every occurrence of its placeholder: split on the placeholder, joined with the value. |
| EmailTemplates.RenderWithoutPlaceholders | BackEnd/email_service/service/emali_templates.py:11-12 | Arguments whose placeholders do not occur leave the template verbatim. |
| EmailTemplates.UnusedArgumentIsIgnored | BackEnd/email_service/service/emali_templates.py:11-12 | An argument whose placeholder is absent can be dropped. |
| EmailTemplates.LaterArgumentFillsEarlierValue | BackEnd/email_service/service/emali_templates.py:11-12 | A value holding a later key's placeholder is itself substituted. |
| EmailTemplates.ArgumentOrderMatters | BackEnd/email_service/service/emali_templates.py:11-12 | The same arguments in the other order leave that placeholder in place. |
| ChatSocket.Hook | FrontEnd/chat-ai-master/src/hooks/chatBotAI/useChatSocket.js:82-174 | The written message handler never changes the connection flag or the typing throttle; it bans a client only on a violation object or a marked text frame, and turns the typing indicator on only on a typing object. |
| ChatSocket.KindAsWritten | FrontEnd/chat-ai-master/src/hooks/chatBotAI/useChatSocket.js:82-172 | Non-JSON text is a violation only if it carries a marker, and is dropped otherwise. Violation and typing objects are classified by `type`. An assistant delta is recognised by its role or its payload's role. |
| ChatSocket.Kind | FrontEnd/chat-ai-master/src/hooks/chatBotAI/useChatSocket.js:100-105 | The corrected classification also shows `event: "TYPING"`, and differs from the written one only there. |
| ChatSocket.BanTimeAsWritten | FrontEnd/chat-ai-master/src/hooks/chatBotAI/useChatSocket.js:44-59 | The ban time is 0 exactly when none of "5 phút", "1 giờ", "1 ngày" occurs, and "5 phút" takes precedence. |
| ChatSocket.BanTime | FrontEnd/chat-ai-master/src/hooks/chatBotAI/useChatSocket.js:44-59 | The corrected parser also reads the account-lock notice as a one-day ban. |
| ChatSocket.ViolationNotice | FrontEnd/chat-ai-master/src/hooks/chatBotAI/useChatSocket.js:155-172 | A marked text frame becomes a violation object with level 1 and no content, role or time. Its ban time is the written parser's when `asWritten` holds and the corrected parser's otherwise. |
| ChatSocket.Ban | FrontEnd/chat-ai-master/src/hooks/chatBotAI/useChatSocket.js:89-97 | A positive ban time sets banned until now + ban·1000; otherwise nothing changes. |
| ChatSocket.Finish | FrontEnd/chat-ai-master/src/hooks/chatBotAI/useChatSocket.js:114-127 | On DONE a non-blank buffer is delivered once, trimmed, and cleared. A blank buffer is left untouched. |
| ChatSocket.OnFrame | FrontEnd/chat-ai-master/src/hooks/chatBotAI/useChatSocket.js:82-174 | With the written dispatch (`asWritten`) or the corrected one, a frame never changes the connection or the typing throttle. Only a violation can ban. Only a non-empty TITLE_UPDATED renames. Only a typing frame turns the indicator on. |
| ChatSocket.FixChangesOnly | FrontEnd/chat-ai-master/src/hooks/chatBotAI/useChatSocket.js:44-172 | The corrected step differs from the written one exactly on two kinds of frame: the server's TYPING event, and a marked text whose ban time only the corrected parser reads. |
| ChatSocket.TextFrameStep | FrontEnd/chat-ai-master/src/hooks/chatBotAI/useChatSocket.js:155-172 | As written, marked text is delivered as a violation notice. It bans the client iff the written parser's time is positive or the client was already banned. Other text is dropped. |
| ChatSocket.DoneStep | FrontEnd/chat-ai-master/src/hooks/chatBotAI/useChatSocket.js:114-127 | A DONE frame is handled as Finish, under either dispatch. |
| ChatSocket.OnIdle | FrontEnd/chat-ai-master/src/hooks/chatBotAI/useChatSocket.js:134-151 | The idle timer delivers a non-blank buffer once and disarms. |
| ChatSocket.OnTypingTimer | FrontEnd/chat-ai-master/src/hooks/chatBotAI/useChatSocket.js:100-105 | The typing indicator clears when its timer fires. |
| ChatSocket.CleanUp | FrontEnd/chat-ai-master/src/hooks/chatBotAI/useChatSocket.js:28-41 | The clean-up disconnects, clears the ban, the buffer and the timers, and closes the socket with code 1000 iff its readyState is OPEN; the connection flag is kept. |
| ChatSocket.OnOpen | FrontEnd/chat-ai-master/src/hooks/chatBotAI/useChatSocket.js:28-80 | A reopen connects and clears the ban, the buffer and the timers. As written, the old socket's handlers stay attached: an OPEN socket's code-1000 close will reach the hook, a CONNECTING socket will still open and reach it, a CLOSING one will still deliver its close, and only a CLOSED one leaves nothing behind. Corrected, nothing is left behind in any state. |
| ChatSocket.StaleRound | FrontEnd/chat-ai-master/src/hooks/chatBotAI/useChatSocket.js:28-185 | A reopen over an open socket followed by the old socket's close ends disconnected, unbanned, with an empty buffer and a reconnect scheduled. |
| ChatSocket.StaleCloseReconnects | FrontEnd/chat-ai-master/src/hooks/chatBotAI/useChatSocket.js:176-185 | As written, the old socket's close schedules a reconnect whether it fires before or after the new `onopen`; fired after, the hook refuses to send; the next round schedules another. |
| ChatSocket.StaleRoundLiftsBan | FrontEnd/chat-ai-master/src/hooks/chatBotAI/useChatSocket.js:28-41 | As written, a ban announced between two rounds is lifted by the next round, which is already scheduled. |
| ChatSocket.DetachedCloseStaysConnected | FrontEnd/chat-ai-master/src/hooks/chatBotAI/useChatSocket.js:28-80 | Corrected, a reopen leaves no handler behind whatever the old socket's readyState, so the hook stays connected and a later ban holds; both versions reach the same client and their leftovers differ iff the old socket was not CLOSED. |
| ChatSocket.ConnectingSocketLiftsBan | FrontEnd/chat-ai-master/src/hooks/chatBotAI/useChatSocket.js:28-80 | As written, a socket still CONNECTING when the chat switches stays attached; if it connects after a marked ban notice, its `onopen` lifts the ban, the hook sends again, and a close not 1008 schedules a reconnect. |
| ChatSocket.OnClose | FrontEnd/chat-ai-master/src/hooks/chatBotAI/useChatSocket.js:176-185 | Closing disconnects but keeps the ban. A reconnect is scheduled iff the close code is not 1008. |
| ChatSocket.SendMessage | FrontEnd/chat-ai-master/src/hooks/chatBotAI/useChatSocket.js:199-211 | A frame goes out iff the client is not banned, is connected and the socket is open. The server reads it as that send, or ignores it when empty. |
| ChatSocket.SendTyping | FrontEnd/chat-ai-master/src/hooks/chatBotAI/useChatSocket.js:214-224 | A typing frame goes out iff the socket is connected and open and more than 1000 ms have passed since the last one. |
| ChatSocket.TypingIsThrottled | FrontEnd/chat-ai-master/src/hooks/chatBotAI/useChatSocket.js:214-224 | Over any run of attempts, the typing frames that go out are more than 1000 ms apart. |
| ChatSocket.ServerTypingIsShown | FrontEnd/chat-ai-master/src/hooks/chatBotAI/useChatSocket.js:100-105 | With the corrected dispatch, the server's TYPING event shows the indicator. |
| ChatSocket.ServerTypingIsMissedAsWritten | FrontEnd/chat-ai-master/src/hooks/chatBotAI/useChatSocket.js:100-105 | As written, the server's TYPING event is handed on as a message with no role and empty text, and the client state is unchanged, so no indicator shows. |
| ChatSocket.DoneDeliversBuffer | FrontEnd/chat-ai-master/src/hooks/chatBotAI/useChatSocket.js:114-151 | Assistant deltas followed by DONE deliver their trimmed concatenation once. |
| ChatSocket.SenderGetsOneReply | FrontEnd/chat-ai-master/src/hooks/chatBotAI/useChatSocket.js:114-151 | The sender of a message reads the streamed reply of the endpoint as one delivered answer. |
| ChatSocket.OthersWaitForIdleTimer | FrontEnd/chat-ai-master/src/hooks/chatBotAI/useChatSocket.js:134-151 | Other participants of the helper stream get no DONE. Their buffer is delivered only by the idle timer. |
| ChatSocket.NoticeBansAsServerDoes | FrontEnd/chat-ai-master/src/hooks/chatBotAI/useChatSocket.js:44-59 | For every strike count, the corrected parser recovers the server's ban time from the server's notice. |
| ChatSocket.NoticeBansAsWritten | FrontEnd/chat-ai-master/src/hooks/chatBotAI/useChatSocket.js:44-59 | As written, the parser recovers the server's ban time from the server's notice iff the strike count is at most 3. |
| ChatSocket.LockNoticeParsesAsNoBan | FrontEnd/chat-ai-master/src/hooks/chatBotAI/useChatSocket.js:44-59 | As written, the lock notice and the email notice are marked but parse to ban time 0, while the server bans for 86400 s. |
| ChatSocket.BanNoticeBansClient | FrontEnd/chat-ai-master/src/hooks/chatBotAI/useChatSocket.js:155-172 | As written, the second- and third-strike notices ban the client for the server's ban time, after which it sends nothing. From the fourth strike on, the lock notice leaves the ban as it was. |
| ChatSocket.BanNoticeBansClientFixed | FrontEnd/chat-ai-master/src/hooks/chatBotAI/useChatSocket.js:44-172 | With the corrected parser, every notice for a strike from the second on bans the client for the server's ban time. |
| ChatSocket.BanLastsUntilReconnect | FrontEnd/chat-ai-master/src/hooks/chatBotAI/useChatSocket.js:176-201 | A banned client sends nothing whatever the time; closing keeps the ban, and only reopening lifts it. As written a reopen also follows every stale close (`StaleRoundLiftsBan`). |
| ChatDetail.Derive | FrontEnd/chat-ai-master/src/hooks/chatBotAI/useChatDetail.js:144-161 | The ban time derived from text agrees with the socket's parser, and the level is 1 exactly when no ban is found. |
| ChatDetail.Recorded | FrontEnd/chat-ai-master/src/hooks/chatBotAI/useChatDetail.js:105-161 | Text mentioning "bị cấm chat" is recorded as level 1 with ban time 0. Otherwise the payload's level and ban time are used when both are present. |
| ChatDetail.OnMessage | FrontEnd/chat-ai-master/src/hooks/chatBotAI/useChatDetail.js:80-268 | A violation touches only the violation list, and any other frame leaves it alone. Every dispatched message carries the chat id. It carries no role iff the payload is the written one (`asWritten`). |
| ChatDetail.SendMessage | FrontEnd/chat-ai-master/src/hooks/chatBotAI/useChatDetail.js:302-354 | When disconnected it returns false and changes nothing. It returns true iff the socket sends, which adds the pending key. As written it dispatches the text under `userMess`, and corrected it dispatches it with role "user". |
| ChatDetail.ExpirePending | FrontEnd/chat-ai-master/src/hooks/chatBotAI/useChatDetail.js:312-317 | After ten seconds the pending key is gone and nothing else changes. |
| ChatDetail.EchoReachesHook | FrontEnd/chat-ai-master/src/hooks/chatBotAI/useChatSocket.js:130-154 | The server's echo of a user message reaches the page hook unchanged, under either dispatch. |
| ChatDetail.OwnEchoIsConsumed | FrontEnd/chat-ai-master/src/hooks/chatBotAI/useChatDetail.js:225-232 | The echo of one's own message, while pending, consumes the key and adds no bubble. |
| ChatDetail.UserMessageDedup | FrontEnd/chat-ai-master/src/hooks/chatBotAI/useChatDetail.js:245-265 | A user message that is not pending is appended unless the same text was shown within 5000 ms. It is dispatched either way: under `userMess` as written, with role and content corrected. Pending keys and the partial answer are unchanged. |
| ChatDetail.EchoAfterExpiry | FrontEnd/chat-ai-master/src/hooks/chatBotAI/useChatDetail.js:245-255 | An echo arriving after the pending key expired is dispatched but not shown twice, because the sent copy lies within five seconds. |
| ChatDetail.SendWhileDisconnected | FrontEnd/chat-ai-master/src/hooks/chatBotAI/useChatDetail.js:304 | Sending while disconnected returns false with no state change. |
| ChatDetail.NoticeRecord | FrontEnd/chat-ai-master/src/hooks/chatBotAI/useChatDetail.js:105-161 | A marked text notice built by the written socket hook is recorded at level 1. Its ban time is 0 if it mentions "bị cấm chat", and the written parser's time otherwise. No message is added. |
| ChatDetail.BanNoticesRecordedWithoutTime | FrontEnd/chat-ai-master/src/hooks/chatBotAI/useChatDetail.js:114-134 | The server's 5-minute and 1-hour notices are recorded with ban time 0, while the socket bans the client for the full time. |
| ChatDetail.PayloadAsWritten | FrontEnd/chat-ai-master/src/hooks/chatBotAI/useChatDetail.js:211-218 | As written, the dispatched payload carries neither a role nor a content; the same keys are used at lines 257-264 and 319-326. |
| ChatDetail.Payload | FrontEnd/chat-ai-master/src/hooks/chatBotAI/useChatDetail.js:211-218 | The corrected payload carries the role and the content. |
| ChatDetail.PayloadKeepsMessage | FrontEnd/chat-ai-master/src/store/chatSlice.js:19-42 | A corrected payload stores its role and content in the chat. |
| ChatDetail.AnswerDroppedAsWritten | FrontEnd/chat-ai-master/src/hooks/chatBotAI/useChatDetail.js:211-264 | As written, an answer within a second of its question is taken for a duplicate and never stored. |
| ChatDetail.AnswerShownAndDispatched | FrontEnd/chat-ai-master/src/hooks/chatBotAI/useChatDetail.js:193-219 | A finished answer is shown as a bot bubble, clears the partial answer, and is dispatched once: under `botMess` as written, with role "assistant" and its content corrected. |
| ChatDetail.AnswerKeptWithRoles | FrontEnd/chat-ai-master/src/hooks/chatBotAI/useChatDetail.js:211-264 | With roles and contents, both the question and the answer are stored. |
| ChatDetail.SwitchChat | FrontEnd/chat-ai-master/src/hooks/chatBotAI/useChatDetail.js:31-36 | Switching chats clears messages, partial text, violations and pending keys. |
| ChatDetail.Shown | FrontEnd/chat-ai-master/src/hooks/chatBotAI/useChatDetail.js:51-63 | A loaded message is shown with its content, or "", and is a bot bubble iff its role is assistant. |
| ChatDetail.LoadedAsWritten | FrontEnd/chat-ai-master/src/hooks/chatBotAI/useChatDetail.js:51-67 | As written, the entry handed to the reducer carries its text under a key the reducer does not read. |
| ChatDetail.Loaded | FrontEnd/chat-ai-master/src/hooks/chatBotAI/useChatDetail.js:51-67 | The corrected entry carries the shown text as its content. |
| ChatDetail.LoadLosesTextAsWritten | FrontEnd/chat-ai-master/src/hooks/chatBotAI/useChatDetail.js:51-67 | As written, every loaded message is stored in the chat with empty content. |
| ChatDetail.LoadKeepsText | FrontEnd/chat-ai-master/src/hooks/chatBotAI/useChatDetail.js:51-67 | With the corrected key, every loaded message is stored with the text shown for it. |
| ChatDetail.LoadAll | FrontEnd/chat-ai-master/src/hooks/chatBotAI/useChatDetail.js:51-67 | One entry per server message, in order, keeping its id (or the `i`-th random id), role and time; the corrected entry carries the message's text (empty when absent) where the reducer reads it, the written one carries none there. |
| ChatSlice.Find | FrontEnd/chat-ai-master/src/store/chatSlice.js:21 | `find` gives the first chat with the id, or none iff no chat has it. |
| ChatSlice.AddChat | FrontEnd/chat-ai-master/src/store/chatSlice.js:15-17 | The new chat is prepended and the rest follow unchanged. |
| ChatSlice.RemoveChat | FrontEnd/chat-ai-master/src/store/chatSlice.js:52-54 | No chat with the id remains. |
| ChatSlice.RemoveChatKeeps | FrontEnd/chat-ai-master/src/store/chatSlice.js:52-54 | Every other chat keeps its multiplicity. |
| ChatSlice.RemoveChatAppend | FrontEnd/chat-ai-master/src/store/chatSlice.js:52-54 | Removal distributes over concatenation, so the order of the rest is kept. |
| ChatSlice.RemoveChatTwice | FrontEnd/chat-ai-master/src/store/chatSlice.js:52-54 | Removing twice is removing once. |
| ChatSlice.AddThenRemove | FrontEnd/chat-ai-master/src/store/chatSlice.js:15-54 | An added chat is found first, and removing its id undoes the addition along with any older chat of that id. |
| ChatSlice.AddMessage | FrontEnd/chat-ai-master/src/store/chatSlice.js:19-42 | An unknown chat leaves the state unchanged. Otherwise the message is appended unless one with the same role and content lies within 1000 ms, and no other chat changes. |
| ChatSlice.AddMessageTwice | FrontEnd/chat-ai-master/src/store/chatSlice.js:27-41 | With a numeric timestamp, the same action twice equals it once. |
| ChatSlice.AddMessageUntimedRepeats | FrontEnd/chat-ai-master/src/store/chatSlice.js:27-41 | Without a timestamp the comparison is NaN, so the same action is stored twice. |
| ChatSlice.SetNameChat | FrontEnd/chat-ai-master/src/store/chatSlice.js:44-50 | Only the first matching chat's title changes. |
| ChatSlice.SetNameChatFirstOnly | FrontEnd/chat-ai-master/src/store/chatSlice.js:46-48 | A later chat with the same id keeps its title. |
| ChatSlice.ContentOf | FrontEnd/chat-ai-master/src/store/chatSlice.js:63 | Content is userMess, else botMess, else content, else "", skipping empty strings. |
| ChatSlice.TimeOr | FrontEnd/chat-ai-master/src/store/chatSlice.js:64 | A missing or zero timestamp defaults to now. |
| ChatSlice.UpdateMessagesInChat | FrontEnd/chat-ai-master/src/store/chatSlice.js:56-67 | The chat's messages are replaced one for one by their normalised forms, keeping the count. Other chats are unchanged. |
| ChatSlice.NormaliseStable | FrontEnd/chat-ai-master/src/store/chatSlice.js:60-65 | Normalising a normalised message again changes nothing. |
| PasswordStrength.Utf16Length | FrontEnd/chat-ai-master/src/components/common/PasswordStrength.jsx:7 | The length is counted in UTF-16 code units: between one and two per character. |
| PasswordStrength.Results | FrontEnd/chat-ai-master/src/components/common/PasswordStrength.jsx:4-26 | The four verdicts, in order: length ≥ 8, an A–Z letter, a digit, a listed special character. |
| PasswordStrength.ValidIff | FrontEnd/chat-ai-master/src/components/common/PasswordStrength.jsx:28 | A password is valid iff all four rules hold. |
| PasswordStrength.ValidExtends | FrontEnd/chat-ai-master/src/components/common/PasswordStrength.jsx:4-21 | Appending never turns a tick off, so a valid password stays valid. |
| PasswordStrength.Check | FrontEnd/chat-ai-master/src/components/common/PasswordStrength.jsx:4-28 | A single pass computes the same length, classes and verdict as the rules. |
| PasswordStrength.AcceptedExample | FrontEnd/chat-ai-master/src/components/common/PasswordStrength.jsx:4-28 | "Abcdefg1!" is accepted. |
| PasswordStrength.LowerCaseNotRequired | FrontEnd/chat-ai-master/src/components/common/PasswordStrength.jsx:4-21 | "ABCDEFG1!" is accepted: lower case is not required. |
| PasswordStrength.AccentedCapitalIsNotUpper | FrontEnd/chat-ai-master/src/components/common/PasswordStrength.jsx:11 | 'Á' is not upper case, so "Ábcdefg1!" is refused. |
| PasswordStrength.PlainIsRefused | FrontEnd/chat-ai-master/src/components/common/PasswordStrength.jsx:19 | Letters, digits, '-' and '_' are not special, so a password made only of them is refused. |
| PasswordStrength.DashIsNotSpecial | FrontEnd/chat-ai-master/src/components/common/PasswordStrength.jsx:19 | '-' and '_' are not special characters. |
| PasswordStrength.LengthCountsCodeUnits | FrontEnd/chat-ai-master/src/components/common/PasswordStrength.jsx:7 | Four emoji already meet the length rule. |
| Translation.Lookup | FrontEnd/chat-ai-master/src/hooks/useTranslation.js:14-27 | The value at the path in the current language, or, if that is undefined, the value at the whole path in "vi". |
| Translation.Step | FrontEnd/chat-ai-master/src/hooks/useTranslation.js:18 | `value?.[k]`: undefined stays undefined; an object gives its own field; a string gives the code unit at a canonical index below its UTF-16 length, and a number for `length`. |
| Translation.StringIndexIsFound | FrontEnd/chat-ai-master/src/hooks/useTranslation.js:17-27 | An index key one step past a string found in the current language gives that character, so "vi" is not asked. |
| Translation.StringLengthIsFound | FrontEnd/chat-ai-master/src/hooks/useTranslation.js:17-27 | `length` past a string found in the current language is found (a number), so "vi" is not asked. |
| Translation.IndexedStringExample | FrontEnd/chat-ai-master/src/hooks/useTranslation.js:13-36 | With English `a: "Hi"`, `t("a.0")` is "H". |
| Translation.StringLengthExample | FrontEnd/chat-ai-master/src/hooks/useTranslation.js:13-31 | With English `a: "Hi"`, `t("a.length")` is the key, even though "vi" holds a string at `a.length`. |
| Text.SplitAtSeparator | FrontEnd/chat-ai-master/src/hooks/useTranslation.js:14 | `key.split(".")`: the text before the first dot is the first key, and the rest is split on. |
| Translation.Walk | FrontEnd/chat-ai-master/src/hooks/useTranslation.js:21-24 | The fallback loop follows every key from the "vi" root. |
| Translation.Resolve | FrontEnd/chat-ai-master/src/hooks/useTranslation.js:14-27 | The loop, with its break at the first undefined step, computes the lookup. |
| Translation.PrefixMissing | FrontEnd/chat-ai-master/src/hooks/useTranslation.js:18-19 | Once a step is undefined, the whole path is. |
| Translation.Translate | FrontEnd/chat-ai-master/src/hooks/useTranslation.js:13-37 | A string found is interpolated; anything else gives the key back. |
| Translation.OwnLanguageFirst | FrontEnd/chat-ai-master/src/hooks/useTranslation.js:14-36 | A string in the current language is returned as is when there are no parameters. |
| Translation.MissingFallsBack | FrontEnd/chat-ai-master/src/hooks/useTranslation.js:19-25 | A key missing in the current language takes the Vietnamese string. |
| Translation.NonStringGivesKey | FrontEnd/chat-ai-master/src/hooks/useTranslation.js:29-31 | A section or another non-string found in the current language gives the key, without asking "vi". |
| Translation.AbsentPlaceholders | FrontEnd/chat-ai-master/src/hooks/useTranslation.js:34-36 | Parameters whose placeholders do not occur change nothing. |
| Translation.FirstOccurrenceOnly | FrontEnd/chat-ai-master/src/hooks/useTranslation.js:35 | A parameter fills only the first occurrence of its placeholder. |
| Translation.Interpolate | FrontEnd/chat-ai-master/src/hooks/useTranslation.js:33-36 | A string holding none of the parameters' `{name}` placeholders comes back unchanged. |

## Left out

- Network, sockets and databases: sockets, the AI provider, the title generator, SMTP and Redis/SQL connections are abstract inputs or maps. Only the registry's broadcast takes socket states and send failures as parameters (`connected`, `failing`). The router's and the helpers' sends to the sender's own socket are outputs that always succeed in the model; in the router, a socket that fails is approximated by the frame sequence ending.
- The asyncio lock of the connection manager: each registry method is one atomic step. The get/incr race of the rate limiter is not modelled.
- Wall clocks (`datetime.now()` in UTC+7, `Date.now()`) and `crypto.randomUUID`: these are integer and string parameters.
- Durable-store writes and the lock email inside `process_violation` are opaque. They are a success flag and an optional error, and the model does not assert that they succeed.
- Violation.ProcessViolation: the body of `update_strike_to_db` is not modelled; its failure is the `durableOk` flag. As written, `ViolationStrikeCreate(user_id=…)` omits the required `strike_count` (BackEnd/chat_service/schemas.py:81-84), so `durableOk` is false on every call (see Findings). The rest of the model keeps `durableOk` a parameter, and its true path is the corrected behaviour.
- `routes/chat.py` is an older, unmounted iteration of the endpoint and is not part of this model. The same holds for `FrontEnd/chatbot_ai`.
- The endpoint's `except` branch that logs and closes is folded into the ending of `ChatRouter.Serve`. Closing the database session has no state in the model.
- React rendering, effects and refs: `useChatDetail`'s scroll and effect plumbing and the `pendingTitle` effect of `useChatSocket` are folded into the frame steps.
- The reconnect timer (3000 ms) is modelled as the boolean that `ChatSocket.OnClose` returns.
- The typing indicator's timers are boolean flags. Only their firing is modelled.
- The HTTP fetch of `useChatDetail`'s load: only the mapping of the returned messages and the dispatch are modelled.
- A frame that throws inside the socket's `onmessage` handler after parsing is not modelled.
- JSON values other than objects, strings and their absence: the translation tables' arrays, numbers, booleans and `null` are the single value `Other`, and every step into `Other` is undefined. That is right for `null` and numbers' own properties, but JavaScript indexes an array where the model does not.
- Translation.Step: properties inherited from `Object.prototype` and `String.prototype` (`toString`, `constructor`, `__proto__`, `charAt`, …) are treated as undefined, since which names exist depends on the JavaScript engine. A key that indexes half of a surrogate pair gives `Other`, so `t` returns the key where JavaScript returns the lone half: a Dafny string cannot hold it.
- Ids of bubbles and violation records (`Date.now()` + random suffix) are not kept.
- Violation.ContainsViolation: lowercasing covers only ASCII, Latin-1 and the Vietnamese letters (Ă Đ Ĩ Ũ Ơ Ư and U+1EA0..U+1EF9). Other cased characters are left as they are, for example Greek, Cyrillic, 'İ' and the Kelvin sign U+212A, whereas Python's `str.lower` maps them.
- ChatRouter.Classify: a `content` that is not a string is not modelled. A truthy one in a `sendMessage` frame passes the emptiness test. `message.lower()` then raises unless the user is banned or the keyword list is empty. With an empty list, the outcome rests on the validation of the `AddMessage` schema, which is not part of this model. A frame that is not an object is modelled, as `NotObject`.
- ChatSlice.SetChats: carries no contract of its own, since replacing the list is its whole body.
- ChatStore.CreateChatSession: the fresh id is an input that must be unused. Autoincrement is not modelled.
- ChatStore.AddMessageToChat: when no timestamp is given, the column default is the `now` parameter.
- ChatDetail.OnMessage: its contract states the split between violations and other frames. The per-branch effects are stated by the lemmas that use it.
- ChatRouter.Serve: states deregistration and fresh ids only. The per-frame effects are stated by `ChatRouter.HandleFrame`.
- Flush.Step: time is in microseconds. `datetime` arithmetic across days is not modelled.
- FastStore: keys never expire between operations except through the time comparison. There is no eviction.

## Findings

| source | as written | input that shows it | evidently intended | confidence | as-written member | corrected member |
|---|---|---|---|---|---|---|
| BackEnd/chat_service/service/violation_handler.py:69 | the strike record is built as `ViolationStrikeCreate(user_id=user_id)`, but the schema requires `strike_count`, so validation raises right after INCR/EXPIRE | any flagged message | the strike is persisted, then the tier notice and ban follow | high, not executed | Violation.EveryViolationRaisesAsWritten | Violation.SecondStrikeBansOnceRecordBuilds |
| BackEnd/identity_service/rate_limiter.py:17-29 | the 429 is raised inside `try` and re-wrapped by `except Exception` as a 500 | a sixth request within 60 s | the caller sees 429 with Retry-After | high, not executed | RateLimiter.LimitAsWritten, RateLimiter.OverLimitSurfacesAs500 | RateLimiter.Limit |
| FrontEnd/chat-ai-master/src/hooks/chatBotAI/useChatSocket.js:44-59 | the lock notice "Tài khoản của bạn đã bị khóa…" is marked but parses to ban time 0 | a fourth strike (server bans 86400 s) | a one-day ban, as the server applies | medium, not executed | ChatSocket.BanTimeAsWritten, ChatSocket.BanNoticeBansClient | ChatSocket.BanTime, ChatSocket.BanNoticeBansClientFixed |
| FrontEnd/chat-ai-master/src/hooks/chatBotAI/useChatSocket.js:99-105 | typing is recognised only by `type === "typing"` while the server sends `event: "TYPING"` | any TYPING broadcast | the indicator shows while another user types | high, not executed | ChatSocket.KindAsWritten, ChatSocket.ServerTypingIsMissedAsWritten | ChatSocket.Kind, ChatSocket.ServerTypingIsShown |
| FrontEnd/chat-ai-master/src/hooks/chatBotAI/useChatSocket.js:28-41 | the clean-up never detaches the old socket's handlers: a CONNECTING socket later opens and lifts a ban, and an OPEN one is closed with code 1000 but keeps its `onclose`, and that handler, seeing 1000 ≠ 1008, schedules a reconnect; the reconnect closes the new, open socket the same way | switching chats, or a new token, while connected | the old socket's close is ignored and the hook stays connected to the new chat | high, not executed | ChatSocket.StaleCloseReconnects, ChatSocket.StaleRoundLiftsBan, ChatSocket.ConnectingSocketLiftsBan | ChatSocket.DetachedCloseStaysConnected |
| FrontEnd/chat-ai-master/src/hooks/chatBotAI/useChatDetail.js:211-218 | `addMessage` is dispatched with `userMess`/`botMess`; the reducer reads `role`/`content`, so both are undefined and an answer within 1 s of its question is a "duplicate" | a question at t and its answer at t + 500 | both messages stored with role and content | high, not executed | ChatDetail.PayloadAsWritten, ChatDetail.AnswerDroppedAsWritten | ChatDetail.Payload, ChatDetail.AnswerKeptWithRoles |
| FrontEnd/chat-ai-master/src/hooks/chatBotAI/useChatDetail.js:51-67 | loaded messages hand their text to the reducer under `text`, which `updateMessagesInChat` does not read | any non-empty history | stored messages keep their text | high, not executed | ChatDetail.LoadedAsWritten, ChatDetail.LoadLosesTextAsWritten | ChatDetail.Loaded, ChatDetail.LoadKeepsText |

=== FILE: chat_detail.dfy ===
/**
 The chat page's hook (`useChatDetail.js`): what it makes of each object the
 socket hook hands on (violation records, renames, the streamed partial
 answer, assistant and user messages), the suppression of the user's own
 echo, the duplicate checks, and sending. The actions it dispatches to the
 chat list store are returned as values. Client time is in milliseconds.
 */
module ChatDetail {
  import opened Wrappers
  import opened Text
  import V = Violation
  import W = Wire
  import CS = ChatSocket
  import Slice = ChatSlice

  /** A message in the page's list; `text` is whatever `content` was, perhaps undefined. */
  datatype Bubble = Bubble(text: Option<string>, isBot: bool, role: Option<string>, timestamp: int)

  /** A recorded violation: its text (perhaps undefined), level, ban time and time. */
  datatype Record = Record(message: Option<string>, level: int, banTime: int, timestamp: int)

  /**
   The hook's state: the message list, the streamed partial answer, the
   violations, and the keys `user-{text}` of messages sent and not yet
   echoed back.
   */
  datatype Detail = Detail(messages: seq<Bubble>, partial: string, violations: seq<Record>, pending: set<string>)

  /** An action handed to the store. */
  datatype Dispatch = Add(payload: Slice.MessagePayload) | Rename(chatId: Slice.ChatId, title: string)

  /** What handling one object leaves: the new state and the actions dispatched, in order. */
  datatype Outcome = Outcome(detail: Detail, dispatched: seq<Dispatch>)

  // ---------------------------------------------------------------------
  // Reading an object

  /** `isoTimestamp ? new Date(isoTimestamp).getTime() : Date.now()`. */
  function Stamp(t: Option<int>, now: int): int {
    if t.Some? then t.value else now
  }

  /** `x?.includes(p)`: false when `x` is undefined. */
  predicate Mentions(x: Option<string>, p: string) {
    x.Some? && Contains(x.value, p)
  }

  /**
   A violation: typed "violation", or a system message whose content (or,
   when that is empty, message) mentions a warning or a chat ban.
   */
  predicate IsViolation(o: CS.Obj) {
    || o.kind == Some("violation")
    || (o.role == Some("system") && Mentions(CS.Or(o.content, o.message), "Cảnh báo"))
    || (o.role == Some("system") && Mentions(CS.Or(o.content, o.message), "bị cấm chat"))
  }

  /** The fallback reading of a violation text: level and ban time by the first duration named. */
  function Derive(text: string): (r: (int, int))
    ensures r.1 == CS.BanTimeAsWritten(text)
    ensures r.0 == 1 <==> r.1 == 0
    ensures 1 <= r.0 <= 4
  {
    if Contains(text, "5 phút") then (2, 300)
    else if Contains(text, "1 giờ") then (3, 3600)
    else if Contains(text, "1 ngày") then (4, 86400)
    else (1, 0)
  }

  /**
   The violation branch. A text mentioning a chat ban is recorded at level 1
   with no ban time, whatever the object says; otherwise the object's level
   and ban time are used when both are present, and derived from the text
   when either is missing, which throws (`None`) when there is no text.
   */
  function Recorded(o: CS.Obj, now: int): (r: Option<Record>)
    ensures r.None? <==> !Mentions(CS.Or(o.message, o.content), "bị cấm chat")
                         && (o.level.None? || o.banTime.None?) && CS.Or(o.message, o.content).None?
    ensures r.Some? ==> r.value.message == CS.Or(o.message, o.content) && r.value.timestamp == Stamp(o.timestamp, now)
    ensures Mentions(CS.Or(o.message, o.content), "bị cấm chat") ==> r.Some? && r.value.level == 1 && r.value.banTime == 0
    ensures !Mentions(CS.Or(o.message, o.content), "bị cấm chat") && o.level.Some? && o.banTime.Some? ==>
      r.Some? && r.value.level == o.level.value && r.value.banTime == o.banTime.value
  {
    var text := CS.Or(o.message, o.content);
    var t := Stamp(o.timestamp, now);
    if Mentions(text, "bị cấm chat") then Some(Record(text, 1, 0, t))
    else if o.level.Some? && o.banTime.Some? then Some(Record(text, o.level.value, o.banTime.value, t))
    else if text.None? then None
    else
      var d := Derive(text.value);
      Some(Record(text, d.0, d.1, t))
  }

  /** The key a user message is pending under: `user-${content}`. */
  function UserKey(content: Option<string>): string {
    "user-" + if content.Some? then content.value else "undefined"
  }

  /** Some user message in `msgs` has this text and lies less than `window` ms from `t`. */
  predicate SeenWithin(msgs: seq<Bubble>, text: Option<string>, t: int, window: int) {
    exists i :: 0 <= i < |msgs| && msgs[i].text == text && msgs[i].role == Some("user") && -window < msgs[i].timestamp - t < window
  }

  /** `msgs` with `b` appended, unless a user message with its text lies within `window` ms. */
  function AppendUnlessSeen(msgs: seq<Bubble>, b: Bubble, window: int): (r: seq<Bubble>)
    ensures SeenWithin(msgs, b.text, b.timestamp, window) ==> r == msgs
    ensures !SeenWithin(msgs, b.text, b.timestamp, window) ==> r == msgs + [b]
  {
    if SeenWithin(msgs, b.text, b.timestamp, window) then msgs else msgs + [b]
  }

  /**
   What the hook dispatches for a message, as written: the keys `userMess`
   and `botMess`, neither of which the store's `addMessage` reads, so the
   store sees no role and no content.
   */
  function PayloadAsWritten(chatId: Slice.ChatId, userMess: Option<string>, botMess: Option<string>, t: int): (p: Slice.MessagePayload)
    ensures p.role.None? && p.content.None? && p.id.None?
    ensures p.idChat == chatId && p.timestamp == Some(t)
  {
    Slice.MessagePayload(chatId, None, None, Some(t), None)
  }

  /** The payload with the keys the store reads: the message's role and content. */
  function Payload(chatId: Slice.ChatId, role: string, content: Option<string>, t: int): (p: Slice.MessagePayload)
    ensures p.role == Some(role) && p.content == content && p.id.None?
    ensures p.idChat == chatId && p.timestamp == Some(t)
  {
    Slice.MessagePayload(chatId, Some(role), content, Some(t), None)
  }

  /**
   The payload dispatched for a message of `role`: as written, the text
   goes under `userMess` for a user message and under `botMess` otherwise;
   corrected, under `role` and `content`.
   */
  function MessagePayload(chatId: Slice.ChatId, role: string, content: Option<string>, t: int, asWritten: bool): Slice.MessagePayload {
    if !asWritten then Payload(chatId, role, content, t)
    else if role == "user" then PayloadAsWritten(chatId, content, None, t)
    else PayloadAsWritten(chatId, None, content, t)
  }

  /**
   `onMessage` for one object handed on by the socket hook, in chat
   `chatId` at time `now`; `None` when it throws. Messages are dispatched
   with the payload as written (`asWritten`) or corrected.
   */
  function OnMessage(d: Detail, chatId: Slice.ChatId, o: CS.Obj, now: int, asWritten: bool): (r: Option<Outcome>)
    ensures r.None? ==> IsViolation(o)
    ensures IsViolation(o) ==> r.Some? ==> r.value.dispatched == [] && r.value.detail.messages == d.messages
    ensures !IsViolation(o) ==> r.Some? && r.value.detail.violations == d.violations
    ensures r.Some? ==> forall i :: 0 <= i < |r.value.dispatched| && r.value.dispatched[i].Add? ==>
      r.value.dispatched[i].payload.idChat == chatId
      && (asWritten <==> r.value.dispatched[i].payload.role.None?)
  {
    var t := Stamp(o.timestamp, now);
    if IsViolation(o) then
      match Recorded(o, now)
      case None => None
      case Some(v) => Some(Outcome(d.(violations := d.violations + [v]), []))
    else if o.role == Some("system") then
      Some(Outcome(d, if o.event == Some("TITLE_UPDATED") && CS.Truthy(o.title) then [Rename(chatId, o.title.value)] else []))
    else if o.role == Some("assistant") then
      if o.streaming then
        Some(Outcome(d.(partial := d.partial + if CS.Truthy(o.content) then o.content.value else ""), []))
      else
        Some(Outcome(d.(messages := d.messages + [Bubble(o.content, true, Some("assistant"), t)], partial := ""),
                     [Add(MessagePayload(chatId, "assistant", o.content, t, asWritten))]))
    else if o.role == Some("user") then
      var key := UserKey(o.content);
      if key in d.pending then Some(Outcome(d.(pending := d.pending - {key}), []))
      else
        Some(Outcome(d.(messages := AppendUnlessSeen(d.messages, Bubble(o.content, false, Some("user"), t), 5000)),
                     [Add(MessagePayload(chatId, "user", o.content, t, asWritten))]))
    else Some(Outcome(d, []))
  }

  // ---------------------------------------------------------------------
  // Sending

  /** The pending key's timer fires ten seconds after sending. */
  const PendingMillis := 10000

  /**
   `sendMessage`: nothing happens when not connected; otherwise the socket
   hook decides, and a sent message is marked pending, dispatched and
   appended unless the same text went out within a second. Returns whether
   it was sent. The payload is dispatched as written (`asWritten`) or
   corrected.
   */
  function SendMessage(d: Detail, c: CS.Client, open: bool, chatId: Slice.ChatId, text: string, now: int, asWritten: bool): (r: (Outcome, bool))
    ensures !c.connected ==> r == (Outcome(d, []), false)
    ensures r.1 <==> CS.SendMessage(c, open, text).Some?
    ensures !r.1 ==> r.0 == Outcome(d, [])
    ensures r.1 ==> && r.0.detail.pending == d.pending + {UserKey(Some(text))}
                    && r.0.detail.messages == AppendUnlessSeen(d.messages, Bubble(Some(text), false, Some("user"), now), 1000)
                    && |r.0.dispatched| == 1 && r.0.dispatched[0].Add?
    ensures r.1 && asWritten ==> r.0.dispatched == [Add(PayloadAsWritten(chatId, Some(text), None, now))]
    ensures r.1 && !asWritten ==> r.0.dispatched == [Add(Payload(chatId, "user", Some(text), now))]
  {
    if !c.connected then (Outcome(d, []), false)
    else if CS.SendMessage(c, open, text).None? then (Outcome(d, []), false)
    else
      var msgs := AppendUnlessSeen(d.messages, Bubble(Some(text), false, Some("user"), now), 1000);
      (Outcome(d.(pending := d.pending + {UserKey(Some(text))}, messages := msgs), [Add(MessagePayload(chatId, "user", Some(text), now, asWritten))]), true)
  }

  /** The pending key's timer: the key is dropped, whether or not the echo came. */
  function ExpirePending(d: Detail, text: string): (r: Detail)
    ensures UserKey(Some(text)) !in r.pending
    ensures r.pending + {UserKey(Some(text))} == d.pending + {UserKey(Some(text))}
    ensures r.messages == d.messages && r.violations == d.violations && r.partial == d.partial
  {
    d.(pending := d.pending - {UserKey(Some(text))})
  }

  // ---------------------------------------------------------------------
  // Properties

  /** The object the socket hook hands on for a user message echoed by the server. */
  function EchoObj(text: string, stamp: int): CS.Obj {
    CS.NoKeys.(role := Some("user"), content := Some(text), timestamp := Some(stamp))
  }

  /** The socket hook, as written or corrected, hands the server's echo of a user message on as that object. */
  lemma EchoReachesHook(c: CS.Client, text: string, at: int, stamp: int, now: int, asWritten: bool)
    ensures CS.OnFrame(c, CS.Encode(W.UserEcho(text, at), stamp), now, asWritten).delivered == [EchoObj(text, stamp)]
  {
    assert CS.KindAsWritten(CS.Encode(W.UserEcho(text, at), stamp)) == CS.OtherObj(Some("user"), text, Some(stamp));
  }

  /**
   The sender's own message comes back once and is not shown twice: the
   echo only clears the pending key, dispatching nothing.
   */
  lemma OwnEchoIsConsumed(d: Detail, c: CS.Client, open: bool, chatId: Slice.ChatId, text: string, now: int, stamp: int, later: int,
                          asWritten: bool)
    requires CS.SendMessage(c, open, text).Some?
    ensures var sent := SendMessage(d, c, open, chatId, text, now, asWritten).0.detail;
      OnMessage(sent, chatId, EchoObj(text, stamp), later, asWritten)
        == Some(Outcome(sent.(pending := sent.pending - {UserKey(Some(text))}), []))
  {
    var o := EchoObj(text, stamp);
    assert !IsViolation(o);
  }

  /**
   A user message that is not pending is shown unless a user message with
   the same text lies within five seconds, and is dispatched either way:
   as written under `userMess`, corrected with its role and content.
   */
  lemma UserMessageDedup(d: Detail, chatId: Slice.ChatId, text: string, stamp: int, now: int, asWritten: bool)
    requires UserKey(Some(text)) !in d.pending
    ensures var r := OnMessage(d, chatId, EchoObj(text, stamp), now, asWritten);
      && r.Some?
      && (asWritten ==> r.value.dispatched == [Add(PayloadAsWritten(chatId, Some(text), None, stamp))])
      && (!asWritten ==> r.value.dispatched == [Add(Payload(chatId, "user", Some(text), stamp))])
      && (r.value.detail.messages == d.messages <==> SeenWithin(d.messages, Some(text), stamp, 5000))
      && (!SeenWithin(d.messages, Some(text), stamp, 5000) ==> r.value.detail.messages == d.messages + [Bubble(Some(text), false, Some("user"), stamp)])
      && r.value.detail.pending == d.pending && r.value.detail.partial == d.partial
  {
    var o := EchoObj(text, stamp);
    assert !IsViolation(o);
    var r := OnMessage(d, chatId, o, now, asWritten);
    if !SeenWithin(d.messages, Some(text), stamp, 5000) {
      assert |r.value.detail.messages| == |d.messages| + 1;
    }
  }

  /**
   Once the pending key has expired, the echo is treated as someone else's
   message: shown unless the sent copy lies within five seconds.
   */
  lemma EchoAfterExpiry(d: Detail, c: CS.Client, open: bool, chatId: Slice.ChatId, text: string, now: int, stamp: int,
                        asWritten: bool)
    requires CS.SendMessage(c, open, text).Some?
    requires -4000 < now - stamp < 4000
    ensures var sent := SendMessage(d, c, open, chatId, text, now, asWritten).0.detail;
      var r := OnMessage(ExpirePending(sent, text), chatId, EchoObj(text, stamp), stamp, asWritten);
      r.Some? && r.value.detail.messages == sent.messages && |r.value.dispatched| == 1
  {
    var sent := SendMessage(d, c, open, chatId, text, now, asWritten).0.detail;
    var o := EchoObj(text, stamp);
    assert !IsViolation(o);
    assert SeenWithin(sent.messages, Some(text), stamp, 5000) by {
      if !SeenWithin(d.messages, Some(text), now, 1000) {
        var i := |sent.messages| - 1;
        assert sent.messages == d.messages + [Bubble(Some(text), false, Some("user"), now)];
        assert sent.messages[i] == Bubble(Some(text), false, Some("user"), now);
      } else {
        var i :| 0 <= i < |d.messages| && d.messages[i].text == Some(text) && d.messages[i].role == Some("user")
          && -1000 < d.messages[i].timestamp - now < 1000;
        assert sent.messages == d.messages;
        assert sent.messages[i] == d.messages[i];
      }
    }
  }

  /** Not connected: nothing is sent and nothing changes. */
  lemma SendWhileDisconnected(d: Detail, c: CS.Client, open: bool, chatId: Slice.ChatId, text: string, now: int, asWritten: bool)
    requires !c.connected
    ensures SendMessage(d, c, open, chatId, text, now, asWritten) == (Outcome(d, []), false)
  {
  }

  /**
   Every violation notice the socket hook as written builds from a (marked,
   so non-empty) text frame is recorded at level 1; its ban time is 0 when
   the text mentions a chat ban and the written parser's time otherwise.
   */
  lemma NoticeRecord(d: Detail, chatId: Slice.ChatId, text: string, now: int, asWritten: bool)
    requires text != ""
    ensures var r := OnMessage(d, chatId, CS.ViolationNotice(text, true), now, asWritten);
      && r.Some? && r.value.dispatched == [] && r.value.detail.messages == d.messages
      && r.value.detail.violations == d.violations + [Record(Some(text), 1, if Contains(text, "bị cấm chat") then 0 else CS.BanTimeAsWritten(text), now)]
  {
    var o := CS.ViolationNotice(text, true);
    assert IsViolation(o);
    assert CS.Or(o.message, o.content) == Some(text);
  }

  /**
   The server's five-minute and one-hour notices mention a chat ban, so
   the page records them with no ban time, while the socket hook bans the
   client for the full time.
   */
  lemma BanNoticesRecordedWithoutTime(d: Detail, chatId: Slice.ChatId, strikes: int, c: CS.Client, now: int)
    requires strikes == 2 || strikes == 3
    ensures var text := V.Levels(V.Tier(strikes)).value.message;
      OnMessage(d, chatId, CS.ViolationNotice(text, true), now, true)
        == Some(Outcome(d.(violations := d.violations + [Record(Some(text), 1, 0, now)]), []))
    ensures var text := V.Levels(V.Tier(strikes)).value.message;
      CS.OnFrame(c, CS.Encode(W.PlainText(text), now), now, true).client.banUntil == Some(now + V.BanSeconds(strikes) * 1000)
    ensures V.BanSeconds(strikes) > 0
  {
    var text := V.Levels(V.Tier(strikes)).value.message;
    BanNoticeMentionsBan(strikes);
    NoticeRecord(d, chatId, text, now, true);
    CS.BanNoticeBansClient(c, strikes, now);
  }

  /** The five-minute and one-hour notices are non-empty and mention a chat ban. */
  lemma BanNoticeMentionsBan(strikes: int)
    requires strikes == 2 || strikes == 3
    ensures var text := V.Levels(V.Tier(strikes)).value.message;
      text != "" && Contains(text, "bị cấm chat")
  {
    if strikes == 2 {
      assert V.FiveMinuteBanText[4..15] == "bị cấm chat";
      assert OccursAt("bị cấm chat", V.FiveMinuteBanText, 4);
    } else {
      assert V.OneHourBanText[4..15] == "bị cấm chat";
      assert OccursAt("bị cấm chat", V.OneHourBanText, 4);
    }
  }

  /**
   A finished answer the socket hook hands on is shown as a bot message,
   clears the partial answer, and is dispatched once: as written under
   `botMess`, corrected with the assistant role and its content.
   */
  lemma AnswerShownAndDispatched(d: Detail, chatId: Slice.ChatId, text: string, stamp: int, now: int, asWritten: bool)
    ensures var r := OnMessage(d, chatId, CS.AssistantObj(text, Some(stamp)), now, asWritten);
      && r.Some?
      && r.value.detail == d.(messages := d.messages + [Bubble(Some(text), true, Some("assistant"), stamp)], partial := "")
      && (asWritten ==> r.value.dispatched == [Add(PayloadAsWritten(chatId, None, Some(text), stamp))])
      && (!asWritten ==> r.value.dispatched == [Add(Payload(chatId, "assistant", Some(text), stamp))])
  {
    assert !IsViolation(CS.AssistantObj(text, Some(stamp)));
  }

  /** The store keeps a message's role and content only when the payload carries them under those keys. */
  lemma PayloadKeepsMessage(s: Slice.State, chatId: Slice.ChatId, role: string, content: Option<string>, t: int, uuid: string)
    requires Slice.Find(s, chatId).Some?
    requires !Slice.Duplicate(s[Slice.Find(s, chatId).value].messages.GetOr([]), Some(role), content, Some(t))
    ensures var k := Slice.Find(s, chatId).value;
      var after := Slice.AddMessage(s, Payload(chatId, role, content, t), uuid)[k].messages.value;
      after[|after| - 1] == Slice.Message(uuid, Some(role), content, Some(t))
  {
  }

  /**
   As written, the store cannot tell a user message from the assistant's
   answer: both arrive with no role and no content, so an answer within a
   second of the question is taken for a duplicate and dropped.
   */
  lemma AnswerDroppedAsWritten(s: Slice.State, chatId: Slice.ChatId, question: string, answer: string,
                               t1: int, t2: int, u1: string, u2: string)
    requires Slice.Find(s, chatId).Some?
    requires !Slice.Duplicate(s[Slice.Find(s, chatId).value].messages.GetOr([]), None, None, Some(t1))
    requires -1000 < t2 - t1 < 1000
    ensures var s1 := Slice.AddMessage(s, PayloadAsWritten(chatId, Some(question), None, t1), u1);
      Slice.AddMessage(s1, PayloadAsWritten(chatId, None, Some(answer), t2), u2) == s1
  {
    var k := Slice.Find(s, chatId).value;
    var p1 := PayloadAsWritten(chatId, Some(question), None, t1);
    var s1 := Slice.AddMessage(s, p1, u1);
    assert Slice.Find(s1, chatId) == Some(k) by {
      assert forall j :: 0 <= j < k ==> s1[j] == s[j];
    }
    var msgs := s1[k].messages.value;
    assert msgs[|msgs| - 1] == Slice.Stored(p1, u1);
    assert Slice.Duplicate(msgs, None, None, Some(t2));
    assert s1[k := s1[k].(messages := Some(msgs))] == s1;
  }

  /** A message that is no duplicate is appended to the chat, which later lookups still find at the same place. */
  lemma AddMessageAppends(s: Slice.State, p: Slice.MessagePayload, uuid: string)
    requires Slice.Find(s, p.idChat).Some?
    requires !Slice.Duplicate(s[Slice.Find(s, p.idChat).value].messages.GetOr([]), p.role, p.content, p.timestamp)
    ensures var k := Slice.Find(s, p.idChat).value;
      var r := Slice.AddMessage(s, p, uuid);
      && Slice.Find(r, p.idChat) == Some(k)
      && r[k].messages == Some(s[k].messages.GetOr([]) + [Slice.Stored(p, uuid)])
  {
    var k := Slice.Find(s, p.idChat).value;
    var r := Slice.AddMessage(s, p, uuid);
    assert forall j :: 0 <= j < k ==> r[j] == s[j];
  }

  /** With the role and content under the keys the store reads, the question and its answer are both kept. */
  lemma AnswerKeptWithRoles(s: Slice.State, chatId: Slice.ChatId, question: Option<string>, answer: Option<string>,
                            t1: int, t2: int, u1: string, u2: string)
    requires Slice.Find(s, chatId).Some?
    requires !Slice.Duplicate(s[Slice.Find(s, chatId).value].messages.GetOr([]), Some("user"), question, Some(t1))
    requires !Slice.Duplicate(s[Slice.Find(s, chatId).value].messages.GetOr([]), Some("assistant"), answer, Some(t2))
    ensures var k := Slice.Find(s, chatId).value;
      var s1 := Slice.AddMessage(s, Payload(chatId, "user", question, t1), u1);
      Slice.AddMessage(s1, Payload(chatId, "assistant", answer, t2), u2)[k].messages
        == Some(s[k].messages.GetOr([]) + [Slice.Message(u1, Some("user"), question, Some(t1)),
                                             Slice.Message(u2, Some("assistant"), answer, Some(t2))])
  {
    var k := Slice.Find(s, chatId).value;
    var before := s[k].messages.GetOr([]);
    var p1 := Payload(chatId, "user", question, t1);
    var p2 := Payload(chatId, "assistant", answer, t2);
    AddMessageAppends(s, p1, u1);
    var s1 := Slice.AddMessage(s, p1, u1);
    var msgs := before + [Slice.Stored(p1, u1)];
    assert s1[k].messages.GetOr([]) == msgs;
    AddMessageAppends(s1, p2, u2);
    assert msgs + [Slice.Stored(p2, u2)] == before + [Slice.Stored(p1, u1), Slice.Stored(p2, u2)];
  }

  // ---------------------------------------------------------------------
  // Loading a chat

  /** A message as the chat endpoint returns it. */
  datatype ServerMessage = ServerMessage(id: Option<string>, role: Option<string>, content: Option<string>, createdAt: Option<int>)

  /** Opening another chat empties the list, the partial answer, the violations and the pending keys. */
  function SwitchChat(d: Detail): (r: Detail)
    ensures r.messages == [] && r.partial == "" && r.violations == [] && r.pending == {}
  {
    Detail([], "", [], {})
  }

  /** The time a loaded message carries: its creation time, or `now` without one. */
  function LoadTime(m: ServerMessage, now: int): int {
    if m.createdAt.Some? then m.createdAt.value else now
  }

  /** How the page shows a loaded message: its content or "", a bot message when the role is the assistant's. */
  function Shown(m: ServerMessage, now: int): (b: Bubble)
    ensures b.text == Some(if CS.Truthy(m.content) then m.content.value else "")
    ensures b.isBot <==> m.role == Some("assistant")
    ensures b.role == m.role && b.timestamp == LoadTime(m, now)
  {
    Bubble(Some(if CS.Truthy(m.content) then m.content.value else ""), m.role == Some("assistant"), m.role, LoadTime(m, now))
  }

  /**
   The mapped message handed to `updateMessagesInChat`, as written: its
   text sits under `text`, a key the reducer does not read.
   */
  function LoadedAsWritten(m: ServerMessage, uuid: string, now: int): (l: Slice.Loaded)
    ensures l.userMess.None? && l.botMess.None? && l.content.None?
    ensures l.role == m.role && l.timestamp == Some(LoadTime(m, now))
  {
    Slice.Loaded(Some(if CS.Truthy(m.id) then m.id.value else uuid), m.role, None, None, None, Some(LoadTime(m, now)))
  }

  /** The mapped message with its text under `content`, the key the reducer reads. */
  function Loaded(m: ServerMessage, uuid: string, now: int): (l: Slice.Loaded)
    ensures l.userMess.None? && l.botMess.None? && l.content == Shown(m, now).text
    ensures l.role == m.role && l.timestamp == Some(LoadTime(m, now))
  {
    Slice.Loaded(Some(if CS.Truthy(m.id) then m.id.value else uuid), m.role, None, None, Shown(m, now).text, Some(LoadTime(m, now)))
  }

  /** The whole response mapped for the store, `uuids(i)` standing for the `i`-th random id. */
  function LoadAll(msgs: seq<ServerMessage>, uuids: nat -> string, now: int, asWritten: bool): (r: seq<Slice.Loaded>)
    ensures |r| == |msgs|
    ensures forall i :: 0 <= i < |msgs| ==> r[i] == if asWritten then LoadedAsWritten(msgs[i], uuids(i), now) else Loaded(msgs[i], uuids(i), now)
    ensures forall i :: 0 <= i < |msgs| ==>
      && r[i].id == Some(if CS.Truthy(msgs[i].id) then msgs[i].id.value else uuids(i))
      && r[i].role == msgs[i].role && r[i].timestamp == Some(LoadTime(msgs[i], now))
      && r[i].content == (if asWritten then None else Some(if CS.Truthy(msgs[i].content) then msgs[i].content.value else ""))
  {
    seq(|msgs|, i requires 0 <= i < |msgs| => if asWritten then LoadedAsWritten(msgs[i], uuids(i), now) else Loaded(msgs[i], uuids(i), now))
  }

  /** As written, every loaded message reaches the store with empty content, whatever the page shows. */
  lemma LoadLosesTextAsWritten(s: Slice.State, chatId: Slice.ChatId, msgs: seq<ServerMessage>, uuids: nat -> string,
                               u2: nat -> string, now: int, later: int, i: int)
    requires Slice.Find(s, chatId).Some? && 0 <= i < |msgs|
    ensures var k := Slice.Find(s, chatId).value;
      Slice.UpdateMessagesInChat(s, chatId, LoadAll(msgs, uuids, now, true), u2, later)[k].messages.value[i].content == Some("")
  {
  }

  /** With the text under `content`, the store holds each loaded message's text just as the page shows it. */
  lemma LoadKeepsText(s: Slice.State, chatId: Slice.ChatId, msgs: seq<ServerMessage>, uuids: nat -> string,
                      u2: nat -> string, now: int, later: int, i: int)
    requires Slice.Find(s, chatId).Some? && 0 <= i < |msgs|
    ensures var k := Slice.Find(s, chatId).value;
      var m := Slice.UpdateMessagesInChat(s, chatId, LoadAll(msgs, uuids, now, false), u2, later)[k].messages.value[i];
      m.content == Shown(msgs[i], now).text && m.role == msgs[i].role
  {
  }
}

=== FILE: chat_router.dfy ===
/**
 The mounted chat socket endpoint (`routers/chat.py`, `websocket_endpoint`):
 the authentication gate, the per-frame dispatch, ban and violation
 gating, the streamed answer, the title update and the teardown. One
 connection's frames are handled one after another; the provider and the
 title generator are given as data.
 */
module ChatRouter {
  import opened Wrappers
  import Text
  import V = Violation
  import R = Registry
  import CS = ChatStore
  import F = Flush
  import opened Wire

  /** The first entry of every conversation context. */
  const SystemPrompt := "You are a helpful assistant that replies clearly and concisely."
  /** What the sender sees when handling a frame raises. */
  const ErrorText := "An error occurred. Please try again."
  /** The close code for a refused connection. */
  const PolicyViolation := 1008

  /**
   Everything a connection reads and writes: the database, the fast store's
   strike and ban keys, the connection registry, and the supply of fresh
   message ids (the model's `uuid4`).
   */
  datatype World = World(db: CS.Db, ledger: V.Ledger, reg: R.Registry, nextId: int)

  /** Every message id in use lies below the next one handed out. */
  ghost predicate FreshIds(w: World) {
    forall m :: m in w.db.messages ==> m < w.nextId
  }

  /** One accepted connection: the session, its key in the registry (`str(chat_id)`), the user and the socket. */
  datatype Conn = Conn(chatId: CS.SessionId, chatKey: R.ChatId, userId: int, socket: R.SocketId)

  predicate Owns(db: CS.Db, chatId: CS.SessionId, u: int) {
    chatId in db.sessions && db.sessions[chatId].userId == u
  }

  datatype Opened =
    | Closed(code: int)
    | Accepted(world: World, conn: Conn, context: seq<Turn>, history: seq<CS.MessageId>)

  /** The stored messages as context entries. */
  function Turns(db: CS.Db, xs: seq<CS.MessageId>): (r: seq<Turn>)
    requires forall i :: 0 <= i < |xs| ==> xs[i] in db.messages
    ensures |r| == |xs|
    ensures forall i :: 0 <= i < |xs| ==> r[i] == Turn(db.messages[xs[i]].role, db.messages[xs[i]].content)
  {
    seq(|xs|, i requires 0 <= i < |xs| => Turn(db.messages[xs[i]].role, db.messages[xs[i]].content))
  }

  /**
   Opening the socket. `token` is the user id the query token decodes to
   (`None` when it is missing or invalid). A refused connection is closed
   with 1008 before it is accepted and registers nothing; an accepted one is
   registered and starts from the system prompt and the session's history,
   oldest first.
   */
  method Open(w: World, chatId: CS.SessionId, chatKey: R.ChatId, socket: R.SocketId, token: Option<int>)
    returns (o: Opened)
    requires R.Valid(w.reg)
    ensures o.Closed? <==> token.None? || !Owns(w.db, chatId, token.value)
    ensures o.Closed? ==> o.code == PolicyViolation
    ensures o.Accepted? ==>
      && o.conn == Conn(chatId, chatKey, token.value, socket)
      && o.world == w.(reg := R.Connect(w.reg, chatKey, token.value, socket))
      && CS.IsHistory(w.db, chatId, o.history)
      && |o.context| == |o.history| + 1
      && o.context[0] == Turn("system", SystemPrompt)
      && forall i :: 0 <= i < |o.history| ==>
           o.history[i] in w.db.messages && o.context[i + 1] == Turn(w.db.messages[o.history[i]].role, w.db.messages[o.history[i]].content)
  {
    if token.None? || !Owns(w.db, chatId, token.value) {
      return Closed(PolicyViolation);
    }
    var u := token.value;
    var xs := CS.MessagesOf(w.db, chatId);
    var ts := Turns(w.db, xs);
    o := Accepted(w.(reg := R.Connect(w.reg, chatKey, u, socket)), Conn(chatId, chatKey, u, socket),
                  [Turn("system", SystemPrompt)] + ts, xs);
  }

  /**
   A received JSON frame: an object, with its `action` and `content` fields
   (content taken to be a string when present), or a JSON value that is not
   an object, on which `data.get` raises.
   */
  datatype Incoming = Incoming(action: Option<string>, content: Option<string>) | NotObject

  datatype Action = TypingAction | SendAction(content: string) | Ignored | Unreadable

  /** The dispatch on `action`: typing, a non-empty message, nothing to do, or a frame whose reading raises. */
  function Classify(f: Incoming): (a: Action)
    ensures a == Unreadable <==> f.NotObject?
    ensures a == TypingAction <==> f.Incoming? && f.action == Some("typing")
    ensures a.SendAction? <==> f.Incoming? && f.action == Some("sendMessage") && f.content.Some? && f.content.value != ""
    ensures a.SendAction? ==> a.content == f.content.value
  {
    if f.NotObject? then Unreadable
    else if f.action == Some("typing") then TypingAction
    else if f.action != Some("sendMessage") || f.content.None? || f.content.value == "" then Ignored
    else SendAction(f.content.value)
  }

  /**
   What one frame's handling depends on beyond the world: the clock, the
   banned keywords, whether the violation's durable writes and lock email
   succeed, the provider, and what the title generator returns.
   */
  datatype Env = Env(now: int, keywords: seq<string>, durableOk: bool, emailError: Option<string>,
                     provider: Provider, title: string)

  /** The state after one frame: the world, the context, what was sent, and whether the loop ends (an exception). */
  datatype Handled = Handled(world: World, context: seq<Turn>, sends: seq<Send>, ended: bool)

  /** The notice closing a frame whose handling raised. */
  const Failed := ToSender(SystemNotice(ErrorText))

  /**
   The router's flush loop: frames to the sender only; on completion the
   non-blank tail and then DONE; when the provider fails, what was flushed
   so far and nothing more.
   */
  method Stream(p: Provider) returns (r: Answered)
    ensures NoBroadcast(r.sends)
    ensures r.reply.None? <==> p.ProviderDown? || p.broken
    ensures r.reply.Some? ==>
      && r.reply.value == F.Texts(p.chunks)
      && |r.sends| >= 1 && r.sends[|r.sends| - 1] == ToSender(Done)
      && HeardUpToBlankTail(r.sends, true, r.reply.value)
    ensures p.ProviderDown? ==> r.sends == []
    ensures p.Provider? && p.broken ==> r.sends == SenderFrames(F.Run(F.RouterPolicy, F.Initial(p.openedAt), p.chunks).sent)
  {
    match p
    case ProviderDown =>
      r := Answered([], None);
    case Provider(openedAt, chunks, broken, endAt) =>
      if broken {
        r := Answered(SenderFrames(F.Run(F.RouterPolicy, F.Initial(openedAt), chunks).sent), None);
      } else {
        var f := F.Streamed(F.RouterPolicy, openedAt, chunks, endAt);
        SenderReadsReply(f);
        r := Answered(SenderFrames(f.frames) + [ToSender(Done)], Some(f.reply));
      }
  }

  /** The sender of a completed stream reads the reply up to its unsent blank tail. */
  lemma SenderReadsReply(f: F.Finished)
    requires F.Contents(f.frames) + f.unsent == f.reply && Text.Blank(f.unsent, Text.Python)
    ensures HeardUpToBlankTail(SenderFrames(f.frames) + [ToSender(Done)], true, f.reply)
  {
    var sends := SenderFrames(f.frames) + [ToSender(Done)];
    SenderFramesSpell(f.frames);
    HeardAppend(SenderFrames(f.frames), [ToSender(Done)], true);
    assert Heard([ToSender(Done)], true) == "";
    assert Heard(sends, true) + f.unsent == f.reply;
    assert f.reply[|Heard(sends, true)|..] == f.unsent;
  }

  /**
   After the reply is saved: the title is regenerated only while the
   session's title is a default, the update goes to the database (which
   ignores an empty title), and the generator's answer is sent as is.
   */
  function Retitle(db: CS.Db, chatId: CS.SessionId, title: string): (r: (CS.Db, seq<Send>))
    requires chatId in db.sessions
    ensures r.0.messages == db.messages && r.0.sessions.Keys == db.sessions.Keys && chatId in r.0.sessions
    ensures db.sessions[chatId].title in DefaultTitles ==>
      && r.1 == [ToSender(TitleUpdated(title))]
      && r.0.sessions[chatId].title == (if title != "" then title else db.sessions[chatId].title)
    ensures db.sessions[chatId].title !in DefaultTitles ==> r == (db, [])
  {
    if db.sessions[chatId].title in DefaultTitles then
      (CS.UpdateChatSession(db, chatId, Some(title)).0, [ToSender(TitleUpdated(title))])
    else (db, [])
  }

  /** The stored reply of a completed stream: every delta's text, stamped with the time the stream opened. */
  function ReplyMessage(c: Conn, p: Provider): CS.Message
    requires p.Provider?
  {
    CS.Message(c.chatId, "assistant", F.Texts(p.chunks), p.openedAt)
  }

  /**
   After the echo: stream the answer. A failing provider ends the loop with
   the error notice; a completed stream has its reply saved under the time
   the stream was opened, and then the title step runs.
   */
  method Respond(w: World, c: Conn, asked: seq<Turn>, replyId: CS.MessageId, env: Env) returns (h: Handled)
    requires c.chatId in w.db.sessions && replyId !in w.db.messages
    ensures h.world == w.(db := h.world.db)
    ensures NoBroadcast(h.sends) && |h.sends| >= 1
    ensures h.ended <==> env.provider.ProviderDown? || env.provider.broken
    ensures h.ended ==> h.world == w && h.context == asked && h.sends[|h.sends| - 1] == Failed
    ensures env.provider.Provider? && env.provider.broken ==>
      h.sends == SenderFrames(F.Run(F.RouterPolicy, F.Initial(env.provider.openedAt), env.provider.chunks).sent) + [Failed]
    ensures !h.ended ==>
      && h.world.db.messages == w.db.messages[replyId := ReplyMessage(c, env.provider)]
      && h.context == asked + [Turn("assistant", F.Texts(env.provider.chunks))]
      && HeardUpToBlankTail(h.sends, true, F.Texts(env.provider.chunks))
      && h.world.db.sessions.Keys == w.db.sessions.Keys
      && var title := w.db.sessions[c.chatId].title;
         if title in DefaultTitles then
           && h.sends[|h.sends| - 1] == ToSender(TitleUpdated(env.title))
           && h.world.db.sessions[c.chatId].title == (if env.title != "" then env.title else title)
         else
           h.sends[|h.sends| - 1] == ToSender(Done) && h.world.db.sessions == w.db.sessions
  {
    var a := Stream(env.provider);
    if a.reply.None? {
      return Handled(w, asked, a.sends + [Failed], true);
    }
    var kept := CS.AddMessageToChat(w.db, replyId, c.chatId, "assistant", a.reply.value,
                                    Some(env.provider.openedAt), env.now);
    var titled := Retitle(kept.db, c.chatId, env.title);
    HeardAppend(a.sends, titled.1, true);
    HeardNothing(titled.1, true);
    h := Handled(w.(db := titled.0), asked + [Turn("assistant", a.reply.value)], a.sends + titled.1, false);
  }

  /**
   What handling a message that passed both gates does: the save of the
   user message, the echo to the sender and to every other user of the
   chat, and the answer. A session that no longer exists makes the save
   raise.
   */
  ghost predicate AnswerEffects(w: World, c: Conn, context: seq<Turn>, content: string, env: Env, h: Handled) {
    && h.world.ledger == w.ledger && h.world.reg == w.reg
    && (c.chatId !in w.db.sessions ==> h == Handled(w, context, [Failed], true))
    && (c.chatId in w.db.sessions ==>
      && |h.sends| >= 2
      && h.sends[0] == ToSender(UserEcho(content, env.now))
      && h.sends[1] == ToOthers(UserEcho(content, env.now))
      && NoBroadcast(h.sends[2..])
      && (h.ended <==> env.provider.ProviderDown? || env.provider.broken)
      && h.world.db.sessions.Keys == w.db.sessions.Keys
      && var saved := w.db.messages[w.nextId := CS.Message(c.chatId, "user", content, env.now)];
         if h.ended then h.world.db.messages == saved
         else
           && h.world.db.messages == saved[w.nextId + 1 := ReplyMessage(c, env.provider)]
           && h.context == context + [Turn("user", content), Turn("assistant", F.Texts(env.provider.chunks))])
  }

  method Answer(w: World, c: Conn, context: seq<Turn>, content: string, env: Env) returns (h: Handled)
    requires FreshIds(w)
    ensures FreshIds(h.world)
    ensures AnswerEffects(w, c, context, content, env, h)
  {
    var saved := CS.AddMessageToChat(w.db, w.nextId, c.chatId, "user", content, Some(env.now), env.now);
    if saved.Error? {
      return Handled(w, context, [Failed], true);
    }
    var w1 := w.(db := saved.db, nextId := w.nextId + 2);
    assert w1.db.messages == w.db.messages[w.nextId := CS.Message(c.chatId, "user", content, env.now)];
    var echo := [ToSender(UserEcho(content, env.now)), ToOthers(UserEcho(content, env.now))];
    var r := Respond(w1, c, context + [Turn("user", content)], w.nextId + 1, env);
    assert (echo + r.sends)[2..] == r.sends;
    h := r.(sends := echo + r.sends);
  }

  /**
   A violating message: `process_violation` runs, its notices reach the
   sender as text frames, and a raise ends the loop after the error notice.
   */
  function Moderate(w: World, c: Conn, context: seq<Turn>, content: string, env: Env): (h: Handled)
    ensures var o := V.ProcessViolation(w.ledger, c.userId, content, env.now, env.durableOk, env.emailError);
      && h.world == w.(ledger := o.ledger)
      && h.context == context
      && h.ended == o.raised
      && NoBroadcast(h.sends)
      && V.Strikes(h.world.ledger, c.userId, env.now) == V.Strikes(w.ledger, c.userId, env.now) + 1
  {
    var o := V.ProcessViolation(w.ledger, c.userId, content, env.now, env.durableOk, env.emailError);
    var sends := TextFrames(o.notices) + (if o.raised then [Failed] else []);
    assert V.StrikeKey(c.userId) in o.ledger;
    Handled(w.(ledger := o.ledger), context, sends, o.raised)
  }

  /**
   One received frame. A frame that is not an object raises, so the sender
   gets the error notice and the loop ends. Typing is relayed to the others
   and stores nothing; any other action, or a message without content, is
   ignored; a message
   is checked against the ban first and the keywords second, and only a
   message that passes both is saved, broadcast and answered.
   */
  method HandleFrame(w: World, c: Conn, context: seq<Turn>, f: Incoming, env: Env) returns (h: Handled)
    requires FreshIds(w)
    ensures FreshIds(h.world) && h.world.reg == w.reg
    ensures Classify(f) == TypingAction ==> h == Handled(w, context, [ToOthers(Typing(c.userId))], false)
    ensures Classify(f) == Ignored ==> h == Handled(w, context, [], false)
    ensures Classify(f) == Unreadable ==> h == Handled(w, context, [Failed], true)
    ensures Classify(f).SendAction? && V.IsBanned(w.ledger, c.userId, env.now) ==>
      h == Handled(w, context, [ToSender(SystemNotice(BanNoticeText))], false)
    ensures Classify(f).SendAction? && !V.IsBanned(w.ledger, c.userId, env.now)
            && V.ContainsViolation(f.content.value, env.keywords) ==>
      h == Moderate(w, c, context, f.content.value, env)
    ensures Classify(f).SendAction? && !V.IsBanned(w.ledger, c.userId, env.now)
            && !V.ContainsViolation(f.content.value, env.keywords) ==>
      AnswerEffects(w, c, context, f.content.value, env, h)
  {
    match Classify(f)
    case TypingAction =>
      h := Handled(w, context, [ToOthers(Typing(c.userId))], false);
    case Ignored =>
      h := Handled(w, context, [], false);
    case Unreadable =>
      h := Handled(w, context, [Failed], true);
    case SendAction(content) =>
      if V.IsBanned(w.ledger, c.userId, env.now) {
        h := Handled(w, context, [ToSender(SystemNotice(BanNoticeText))], false);
      } else if V.ContainsViolation(content, env.keywords) {
        h := Moderate(w, c, context, content, env);
      } else {
        h := Answer(w, c, context, content, env);
      }
  }

  /** A chat under a custom title keeps it: the generator is not consulted and no title is sent. */
  lemma CustomTitleIsKept(db: CS.Db, chatId: CS.SessionId, title: string)
    requires chatId in db.sessions && db.sessions[chatId].title !in DefaultTitles
    ensures Retitle(db, chatId, title) == (db, [])
  {
  }

  /**
   Under a default title, whatever the generator returns is sent, even a
   default title or an empty one; an empty one is not stored.
   */
  lemma GeneratedTitleIsSentVerbatim(db: CS.Db, chatId: CS.SessionId)
    requires chatId in db.sessions && db.sessions[chatId].title == "New Chat"
    ensures Retitle(db, chatId, "").1 == [ToSender(TitleUpdated(""))]
    ensures Retitle(db, chatId, "").0.sessions[chatId].title == "New Chat"
    ensures Retitle(db, chatId, "Cuộc trò chuyện mới").1 == [ToSender(TitleUpdated("Cuộc trò chuyện mới"))]
  {
  }

  /**
   The receive loop: frames are handled in order until one raises or the
   socket stops delivering them; then the connection is deregistered,
   whichever way the loop was left.
   */
  method Serve(w: World, c: Conn, context: seq<Turn>, frames: seq<(Incoming, Env)>)
    returns (final: World, sends: seq<Send>)
    requires FreshIds(w) && R.Valid(w.reg)
    ensures final.reg == R.Disconnect(w.reg, c.chatKey, c.userId, c.socket)
    ensures FreshIds(final)
    ensures |frames| > 0 && frames[0].0.NotObject? ==>
      sends == [Failed] && final == w.(reg := R.Disconnect(w.reg, c.chatKey, c.userId, c.socket))
  {
    var cur, ctx := w, context;
    sends := [];
    var i := 0;
    while i < |frames|
      invariant 0 <= i <= |frames|
      invariant FreshIds(cur) && cur.reg == w.reg
      invariant i == 0 ==> cur == w && sends == []
      invariant forall j :: 0 <= j < i ==> !frames[j].0.NotObject?
    {
      var h := HandleFrame(cur, c, ctx, frames[i].0, frames[i].1);
      if frames[i].0.NotObject? {
        assert Classify(frames[i].0) == Unreadable;
        assert h.sends == [Failed] && h.world == cur;
      }
      cur, ctx, sends := h.world, h.context, sends + h.sends;
      if h.ended {
        break;
      }
      i := i + 1;
    }
    final := cur.(reg := R.Disconnect(cur.reg, c.chatKey, c.userId, c.socket));
  }

  /**
   One connection from start to end. A refused connection changes nothing
   and sends nothing. An accepted one leaves the registry as it found it:
   accepting registers the socket, no frame touches the registry, and the
   teardown removes exactly that registration.
   */
  method Connection(w: World, chatId: CS.SessionId, chatKey: R.ChatId, socket: R.SocketId, token: Option<int>,
                    frames: seq<(Incoming, Env)>) returns (closed: Option<int>, final: World, sends: seq<Send>)
    requires FreshIds(w) && R.Valid(w.reg)
    ensures closed.Some? <==> token.None? || !Owns(w.db, chatId, token.value)
    ensures closed.Some? ==> closed.value == PolicyViolation && final == w && sends == []
    ensures closed.None? && R.Pruned(w.reg) && socket !in R.SocketsOf(w.reg, chatKey, token.value) ==> final.reg == w.reg
  {
    var o := Open(w, chatId, chatKey, socket, token);
    if o.Closed? {
      return Some(o.code), w, [];
    }
    closed := None;
    final, sends := Serve(o.world, o.conn, o.context, frames);
    if R.Pruned(w.reg) && socket !in R.SocketsOf(w.reg, chatKey, token.value) {
      R.ConnectThenDisconnect(w.reg, chatKey, token.value, socket);
    }
  }
}

=== FILE: chat_slice.dfy ===
/**
 The browser's chat list store (`store/chatSlice.js`): a list of chats, each
 with an id, a title and (perhaps not yet) a list of messages, changed by six
 reducers. Each reducer is a state-in/state-out function; the random UUIDs
 and the clock the reducers read are parameters.
 */
module ChatSlice {
  import opened Wrappers

  /** Chat ids are compared with `===`; the model gives them one type. */
  type ChatId = int

  /** A stored message; a key the action did not carry is `None`. */
  datatype Message = Message(id: string, role: Option<string>, content: Option<string>, timestamp: Option<int>)

  /** A chat; `messages` is `None` until a reducer first gives it a list. */
  datatype Chat = Chat(id: ChatId, title: Option<string>, messages: Option<seq<Message>>)

  /** `state.data`, in order. */
  type State = seq<Chat>

  /** The keys of an `addMessage` payload the reducer reads. */
  datatype MessagePayload = MessagePayload(idChat: ChatId, role: Option<string>, content: Option<string>,
                                           timestamp: Option<int>, id: Option<string>)

  /** The keys of one `updateMessagesInChat` message the reducer reads. */
  datatype Loaded = Loaded(id: Option<string>, role: Option<string>, userMess: Option<string>,
                           botMess: Option<string>, content: Option<string>, timestamp: Option<int>)

  /** JavaScript truthiness of an optional string. */
  predicate Truthy(s: Option<string>) {
    s.Some? && s.value != ""
  }

  /** `state.data.find(c => c.id === id)`, as the index of the first match. */
  function Find(s: State, id: ChatId): (r: Option<nat>)
    ensures r.Some? ==> r.value < |s| && s[r.value].id == id
    ensures r.Some? ==> forall j :: 0 <= j < r.value ==> s[j].id != id
    ensures r.None? <==> forall j :: 0 <= j < |s| ==> s[j].id != id
    decreases |s|
  {
    if |s| == 0 then None
    else if s[0].id == id then Some(0)
    else
      match Find(s[1..], id)
      case None => None
      case Some(k) => Some(k + 1)
  }

  // ---------------------------------------------------------------------
  // setChats, addChat, removeChat

  /** `setChats`: the list is replaced wholesale. */
  function SetChats(s: State, chats: State): State {
    chats
  }

  /** `addChat`: the chat goes to the front. */
  function AddChat(s: State, chat: Chat): (r: State)
    ensures |r| == |s| + 1 && r[0] == chat && r[1..] == s
  {
    [chat] + s
  }

  /** `removeChat`: every chat with the id goes; the rest keep their order. */
  function RemoveChat(s: State, id: ChatId): (r: State)
    ensures |r| <= |s|
    ensures forall j :: 0 <= j < |r| ==> r[j].id != id
    decreases |s|
  {
    if |s| == 0 then []
    else if s[0].id == id then RemoveChat(s[1..], id)
    else [s[0]] + RemoveChat(s[1..], id)
  }

  /** Removing from a joined list removes from each part: the survivors keep their order. */
  lemma {:induction false} RemoveChatAppend(a: State, b: State, id: ChatId)
    ensures RemoveChat(a + b, id) == RemoveChat(a, id) + RemoveChat(b, id)
    decreases |a|
  {
    if |a| > 0 {
      assert (a + b)[1..] == a[1..] + b;
      RemoveChatAppend(a[1..], b, id);
    } else {
      assert a + b == b;
    }
  }

  /** Every chat with another id survives as often as it occurred; none with the id does. */
  lemma {:induction false} RemoveChatKeeps(s: State, id: ChatId, c: Chat)
    ensures c.id != id ==> multiset(RemoveChat(s, id))[c] == multiset(s)[c]
    ensures c.id == id ==> multiset(RemoveChat(s, id))[c] == 0
    decreases |s|
  {
    if |s| > 0 {
      RemoveChatKeeps(s[1..], id, c);
      assert s == [s[0]] + s[1..];
    }
  }

  /** Removing an id no chat has changes nothing, and removing twice is removing once. */
  lemma {:induction false} RemoveChatAbsent(s: State, id: ChatId)
    requires Find(s, id).None?
    ensures RemoveChat(s, id) == s
    decreases |s|
  {
    if |s| > 0 {
      assert Find(s[1..], id).None?;
      RemoveChatAbsent(s[1..], id);
    }
  }

  lemma RemoveChatTwice(s: State, id: ChatId)
    ensures RemoveChat(RemoveChat(s, id), id) == RemoveChat(s, id)
  {
    RemoveChatAbsent(RemoveChat(s, id), id);
  }

  /** A chat just added is the one every later lookup of its id finds, and removing its id removes it too. */
  lemma AddThenRemove(s: State, chat: Chat)
    ensures Find(AddChat(s, chat), chat.id) == Some(0)
    ensures RemoveChat(AddChat(s, chat), chat.id) == RemoveChat(s, chat.id)
  {
    assert AddChat(s, chat)[1..] == s;
  }

  // ---------------------------------------------------------------------
  // addMessage

  /** `Math.abs(a - b) < 1000`, where an undefined side makes the difference `NaN` and the test false. */
  predicate Close(a: Option<int>, b: Option<int>) {
    a.Some? && b.Some? && -1000 < a.value - b.value < 1000
  }

  /** Some message has the same role and content within a second. */
  predicate Duplicate(msgs: seq<Message>, role: Option<string>, content: Option<string>, timestamp: Option<int>) {
    exists i :: 0 <= i < |msgs| && msgs[i].role == role && msgs[i].content == content && Close(msgs[i].timestamp, timestamp)
  }

  /** The message an `addMessage` payload stores, with `uuid` standing for a fresh random id. */
  function Stored(p: MessagePayload, uuid: string): (m: Message)
    ensures m.role == p.role && m.content == p.content && m.timestamp == p.timestamp
    ensures m.id == (if Truthy(p.id) then p.id.value else uuid)
  {
    Message(if Truthy(p.id) then p.id.value else uuid, p.role, p.content, p.timestamp)
  }

  /**
   `addMessage`: the first chat with the payload's id gets the message
   appended, unless it already holds one with the same role and content
   within a second; a chat without a list gets one first.
   */
  function AddMessage(s: State, p: MessagePayload, uuid: string): (r: State)
    ensures Find(s, p.idChat).None? ==> r == s
    ensures |r| == |s|
    ensures Find(s, p.idChat).Some? ==>
      var k := Find(s, p.idChat).value;
      var before := s[k].messages.GetOr([]);
      && (forall j :: 0 <= j < |s| && j != k ==> r[j] == s[j])
      && r[k].id == s[k].id && r[k].title == s[k].title
      && (Duplicate(before, p.role, p.content, p.timestamp) ==> r[k].messages == Some(before))
      && (!Duplicate(before, p.role, p.content, p.timestamp) ==> r[k].messages == Some(before + [Stored(p, uuid)]))
  {
    match Find(s, p.idChat)
    case None => s
    case Some(k) =>
      var msgs := s[k].messages.GetOr([]);
      var kept := if Duplicate(msgs, p.role, p.content, p.timestamp) then msgs else msgs + [Stored(p, uuid)];
      s[k := s[k].(messages := Some(kept))]
  }

  /** With a numeric timestamp, dispatching the same `addMessage` twice is dispatching it once. */
  lemma AddMessageTwice(s: State, p: MessagePayload, u1: string, u2: string)
    requires p.timestamp.Some?
    ensures AddMessage(AddMessage(s, p, u1), p, u2) == AddMessage(s, p, u1)
  {
    var once := AddMessage(s, p, u1);
    if Find(s, p.idChat).Some? {
      var k := Find(s, p.idChat).value;
      assert Find(once, p.idChat) == Some(k) by {
        assert forall j :: 0 <= j < k ==> once[j] == s[j];
      }
      var msgs := once[k].messages.value;
      assert Duplicate(msgs, p.role, p.content, p.timestamp) by {
        var i := |msgs| - 1;
        if !Duplicate(s[k].messages.GetOr([]), p.role, p.content, p.timestamp) {
          assert msgs[i] == Stored(p, u1);
        }
      }
    } else {
      assert once == s;
    }
  }

  /** Without a timestamp nothing counts as a duplicate: the same payload is stored again. */
  lemma AddMessageUntimedRepeats(s: State, p: MessagePayload, u1: string, u2: string)
    requires p.timestamp.None? && Find(s, p.idChat).Some?
    ensures var k := Find(s, p.idChat).value;
      AddMessage(AddMessage(s, p, u1), p, u2)[k].messages == Some(s[k].messages.GetOr([]) + [Stored(p, u1), Stored(p, u2)])
  {
    var k := Find(s, p.idChat).value;
    var before := s[k].messages.GetOr([]);
    var once := AddMessage(s, p, u1);
    assert !Duplicate(before, p.role, p.content, None);
    assert once[k].messages == Some(before + [Stored(p, u1)]);
    assert Find(once, p.idChat) == Some(k) by {
      assert forall j :: 0 <= j < k ==> once[j] == s[j];
    }
    assert !Duplicate(before + [Stored(p, u1)], p.role, p.content, None);
    assert before + [Stored(p, u1)] + [Stored(p, u2)] == before + [Stored(p, u1), Stored(p, u2)];
  }

  // ---------------------------------------------------------------------
  // setNameChat

  /** `setNameChat`: the first chat with the id takes the new title; nothing else changes. */
  function SetNameChat(s: State, chatId: ChatId, newTitle: Option<string>): (r: State)
    ensures Find(s, chatId).None? ==> r == s
    ensures |r| == |s|
    ensures Find(s, chatId).Some? ==>
      var k := Find(s, chatId).value;
      && (forall j :: 0 <= j < |s| && j != k ==> r[j] == s[j])
      && r[k] == s[k].(title := newTitle)
  {
    match Find(s, chatId)
    case None => s
    case Some(k) => s[k := s[k].(title := newTitle)]
  }

  /** A later chat with the same id keeps its title. */
  lemma SetNameChatFirstOnly(s: State, chatId: ChatId, newTitle: Option<string>, j: int)
    requires 0 <= j < |s| && s[j].id == chatId && s[j].title != newTitle
    requires exists i :: 0 <= i < j && s[i].id == chatId
    ensures SetNameChat(s, chatId, newTitle)[j] == s[j]
  {
  }

  // ---------------------------------------------------------------------
  // updateMessagesInChat

  /** `msg.timestamp || Date.now()`: a missing or zero time becomes `now`. */
  function TimeOr(t: Option<int>, now: int): (r: int)
    ensures t.Some? && t.value != 0 ==> r == t.value
    ensures t.None? || t.value == 0 ==> r == now
  {
    if t.Some? && t.value != 0 then t.value else now
  }

  /** `userMess || botMess || content || ""`. */
  function ContentOf(m: Loaded): (r: string)
    ensures Truthy(m.userMess) ==> r == m.userMess.value
    ensures !Truthy(m.userMess) && Truthy(m.botMess) ==> r == m.botMess.value
    ensures !Truthy(m.userMess) && !Truthy(m.botMess) && Truthy(m.content) ==> r == m.content.value
    ensures !Truthy(m.userMess) && !Truthy(m.botMess) && !Truthy(m.content) ==> r == ""
  {
    if Truthy(m.userMess) then m.userMess.value
    else if Truthy(m.botMess) then m.botMess.value
    else if Truthy(m.content) then m.content.value
    else ""
  }

  /** One message as `updateMessagesInChat` stores it; `uuid` stands for a fresh random id. */
  function Normalise(m: Loaded, uuid: string, now: int): (r: Message)
    ensures r.role == m.role && r.content == Some(ContentOf(m)) && r.timestamp == Some(TimeOr(m.timestamp, now))
    ensures r.id == (if Truthy(m.id) then m.id.value else uuid)
  {
    Message(if Truthy(m.id) then m.id.value else uuid, m.role, Some(ContentOf(m)), Some(TimeOr(m.timestamp, now)))
  }

  /**
   `updateMessagesInChat`: the first chat with the id gets the list mapped
   message by message; `uuids(i)` stands for the random id drawn for the
   `i`-th message.
   */
  function UpdateMessagesInChat(s: State, chatId: ChatId, msgs: seq<Loaded>, uuids: nat -> string, now: int): (r: State)
    ensures Find(s, chatId).None? ==> r == s
    ensures |r| == |s|
    ensures Find(s, chatId).Some? ==>
      var k := Find(s, chatId).value;
      && (forall j :: 0 <= j < |s| && j != k ==> r[j] == s[j])
      && r[k].id == s[k].id && r[k].title == s[k].title && r[k].messages.Some?
      && |r[k].messages.value| == |msgs|
      && forall i :: 0 <= i < |msgs| ==> r[k].messages.value[i] == Normalise(msgs[i], uuids(i), now)
  {
    match Find(s, chatId)
    case None => s
    case Some(k) =>
      var mapped := seq(|msgs|, i requires 0 <= i < |msgs| => Normalise(msgs[i], uuids(i), now));
      s[k := s[k].(messages := Some(mapped))]
  }

  /** A stored message handed back to the reducer, its text under `content`. */
  function Reload(m: Message): Loaded {
    Loaded(Some(m.id), m.role, None, None, m.content, m.timestamp)
  }

  /**
   Normalising is a fixed point: a stored message loaded again comes back
   as it was, whenever its id is set and its time non-zero.
   */
  lemma NormaliseStable(m: Loaded, uuid: string, u2: string, now: int, later: int)
    requires Truthy(m.id) || uuid != ""
    requires TimeOr(m.timestamp, now) != 0
    ensures Normalise(Reload(Normalise(m, uuid, now)), u2, later) == Normalise(m, uuid, now)
  {
  }
}

=== FILE: chat_socket.dfy ===
/**
 The browser's chat socket hook (`useChatSocket.js`): how each frame the
 server pushes is recognised, when the client considers itself banned,
 how streamed assistant text is buffered until DONE (or until two idle
 seconds pass), the reconnect rule, and the guards on sending. Client time
 is in milliseconds; the hook's timers are events.
 */
module ChatSocket {
  import opened Wrappers
  import opened Text
  import V = Violation
  import W = Wire
  import CR = ChatRouter

  // ---------------------------------------------------------------------
  // Frames

  /** The nested `payload` some frames carry. */
  datatype Payload = Payload(role: Option<string>, content: Option<string>, timestamp: Option<int>)

  /**
   A JSON object as the client reads it; a missing key is `None`. `kind`
   is the `type` key; `timestamp` is already the browser's millisecond
   reading of the frame's ISO time.
   */
  datatype Obj = Obj(kind: Option<string>, event: Option<string>, role: Option<string>,
                     content: Option<string>, message: Option<string>, title: Option<string>,
                     level: Option<int>, banTime: Option<int>, timestamp: Option<int>,
                     streaming: bool, payload: Option<Payload>)

  /** The object with no keys. */
  const NoKeys := Obj(None, None, None, None, None, None, None, None, None, false, None)

  /** A frame's text either parses to a JSON value (`Json`) or does not (`NotJson`). */
  datatype Raw = Json(obj: Obj) | NotJson(text: string)

  /** JavaScript truthiness of an optional string. */
  predicate Truthy(s: Option<string>) {
    s.Some? && s.value != ""
  }

  /** `a || b` on optional strings. */
  function Or(a: Option<string>, b: Option<string>): (r: Option<string>)
    ensures Truthy(a) ==> r == a
    ensures !Truthy(a) ==> r == b
  {
    if Truthy(a) then a else b
  }

  /** The marker phrases that make a bare text frame a violation notice. */
  predicate Marked(text: string) {
    || Contains(text, "Cảnh báo")
    || Contains(text, "cấm chat")
    || Contains(text, "Tài khoản của bạn đã bị khóa")
    || Contains(text, "Email thông báo")
  }

  /** What the frame dispatch makes of one frame. */
  datatype FrameKind =
    | ViolationObj(obj: Obj)
    | TypingObj
    | TitleObj(title: Option<string>)
    | DoneObj
    | AssistantDelta(content: string, timestamp: Option<int>)
    | OtherObj(role: Option<string>, content: string, timestamp: Option<int>)
    | MarkedText(text: string)
    | Dropped

  /**
   The dispatch as written: `type` "violation" or "typing", then the
   TITLE_UPDATED and DONE events, then an ordinary message whose role,
   content and time fall back to the nested payload; a bare text frame
   counts only when it holds a marker.
   */
  function KindAsWritten(raw: Raw): (k: FrameKind)
    ensures raw.NotJson? ==> (k == MarkedText(raw.text) <==> Marked(raw.text)) && (k == Dropped <==> !Marked(raw.text))
    ensures raw.Json? ==> (k.ViolationObj? <==> raw.obj.kind == Some("violation"))
    ensures k == TypingObj <==> raw.Json? && raw.obj.kind == Some("typing")
    ensures k.AssistantDelta? ==> raw.Json? && (raw.obj.role == Some("assistant") || (!Truthy(raw.obj.role) && raw.obj.payload.Some? && raw.obj.payload.value.role == Some("assistant")))
  {
    match raw
    case NotJson(t) => if Marked(t) then MarkedText(t) else Dropped
    case Json(d) =>
      if d.kind == Some("violation") then ViolationObj(d)
      else if d.kind == Some("typing") then TypingObj
      else if d.event == Some("TITLE_UPDATED") then TitleObj(d.title)
      else if d.event == Some("DONE") then DoneObj
      else
        var inner := d.payload.GetOr(Payload(None, None, None));
        var role := Or(d.role, inner.role);
        var content := Or(d.content, Or(inner.content, Some(""))).GetOr("");
        var stamp := if d.timestamp.Some? then d.timestamp else inner.timestamp;
        if role == Some("assistant") then AssistantDelta(content, stamp) else OtherObj(role, content, stamp)
  }

  /**
   The dispatch as the server's frames need it: the server announces typing
   with `"event": "TYPING"` (and no `type`), which the code as written
   treats as an ordinary message without a role.
   */
  function Kind(raw: Raw): (k: FrameKind)
    ensures (raw.Json? && raw.obj.event == Some("TYPING") && raw.obj.kind != Some("violation")
             && raw.obj.role.None? && raw.obj.payload.None?) ==> k == TypingObj
    ensures k != KindAsWritten(raw) ==> k == TypingObj && KindAsWritten(raw).OtherObj?
  {
    if raw.Json? && raw.obj.event == Some("TYPING") && KindAsWritten(raw).OtherObj? then TypingObj
    else KindAsWritten(raw)
  }

  /** The dispatch as written, or the corrected one. */
  function KindOf(raw: Raw, asWritten: bool): FrameKind {
    if asWritten then KindAsWritten(raw) else Kind(raw)
  }

  // ---------------------------------------------------------------------
  // Violation text

  /** `parseViolationString`'s ban time as written: "5 phút", then "1 giờ", then "1 ngày". */
  function BanTimeAsWritten(text: string): (r: int)
    ensures r == 0 <==> !Contains(text, "5 phút") && !Contains(text, "1 giờ") && !Contains(text, "1 ngày")
    ensures r == 86400 ==> !Contains(text, "5 phút") && !Contains(text, "1 giờ")
  {
    if Contains(text, "5 phút") then 300
    else if Contains(text, "1 giờ") then 3600
    else if Contains(text, "1 ngày") then 86400
    else 0
  }

  /** The account-lock phrase the server's fourth-tier notice opens with. */
  const LockPhrase := "Tài khoản của bạn đã bị khóa"

  /** The ban time with the lock notice read as the one-day ban the server imposes. */
  function BanTime(text: string): (r: int)
    ensures Contains(text, LockPhrase) && !Contains(text, "5 phút") && !Contains(text, "1 giờ") ==> r == 86400
    ensures !Contains(text, LockPhrase) ==> r == BanTimeAsWritten(text)
  {
    if !Contains(text, "5 phút") && !Contains(text, "1 giờ") && Contains(text, LockPhrase) then 86400
    else BanTimeAsWritten(text)
  }

  /** The ban time as written, or with the lock notice read as a one-day ban. */
  function BanTimeOf(text: string, asWritten: bool): int {
    if asWritten then BanTimeAsWritten(text) else BanTime(text)
  }

  /**
   The violation object `parseViolationString` builds: level always 1, and
   the ban time its parser reads, as written or corrected.
   */
  function ViolationNotice(text: string, asWritten: bool): (v: Obj)
    ensures v.kind == Some("violation") && v.message == Some(text) && v.level == Some(1)
    ensures v.content.None? && v.role.None? && v.timestamp.None?
    ensures asWritten ==> v.banTime == Some(BanTimeAsWritten(text))
    ensures !asWritten ==> v.banTime == Some(BanTime(text))
  {
    NoKeys.(kind := Some("violation"), message := Some(text), level := Some(1), banTime := Some(BanTimeOf(text, asWritten)))
  }

  // ---------------------------------------------------------------------
  // Client state

  /** The idle-flush timer: not set, or set to deliver with the last delta's time. */
  datatype IdleTimer = Unarmed | Armed(timestamp: Option<int>)

  /**
   The hook's state: `connected`, `isTyping`, `banned`, `banUntil`, the
   assistant text buffer, the idle-flush and typing-indicator timers, and
   when a typing frame was last sent.
   */
  datatype Client = Client(connected: bool, isTyping: bool, banned: bool, banUntil: Option<int>,
                           buffer: string, idle: IdleTimer, typingTimer: bool, lastTypingSent: int)

  /** The hook before any socket: nothing sent yet, so the last typing send is at time 0. */
  const Unconnected := Client(false, false, false, None, "", Unarmed, false, 0)

  /**
   What one event yields: the new state, the objects handed to `onMessage`,
   the values passed to `onPartialBuffer`, and the titles passed on to
   `onUpdateTitle`.
   */
  datatype Step = Step(client: Client, delivered: seq<Obj>, partials: seq<string>, renames: seq<string>)

  /** An assistant message as the hook hands it on. */
  function AssistantObj(content: string, timestamp: Option<int>): Obj {
    NoKeys.(role := Some("assistant"), content := Some(content), timestamp := timestamp)
  }

  /** A positive ban time bans the client until `now` plus that many seconds. */
  function Ban(c: Client, banTime: Option<int>, now: int): (r: Client)
    ensures banTime.Some? && banTime.value > 0 ==> r.banned && r.banUntil == Some(now + banTime.value * 1000)
    ensures !(banTime.Some? && banTime.value > 0) ==> r == c
    ensures r == c.(banned := r.banned, banUntil := r.banUntil)
  {
    if banTime.Some? && banTime.value > 0 then c.(banned := true, banUntil := Some(now + banTime.value * 1000)) else c
  }

  /** DONE: the typing indicator and idle timer stop, and a non-blank buffer is handed on, trimmed, and cleared. */
  function Finish(c: Client, now: int): (s: Step)
    ensures s.client.idle == Unarmed && !s.client.isTyping && s.client.banned == c.banned && s.renames == []
    ensures JsTrim(c.buffer) != "" ==> s.delivered == [AssistantObj(JsTrim(c.buffer), Some(now))] && s.client.buffer == ""
    ensures JsTrim(c.buffer) == "" ==> s.delivered == [] && s.client.buffer == c.buffer
  {
    var c1 := c.(idle := Unarmed, isTyping := false);
    if JsTrim(c.buffer) != "" then Step(c1.(buffer := ""), [AssistantObj(JsTrim(c.buffer), Some(now))], [""], [])
    else Step(c1, [], [], [])
  }

  /**
   `onmessage` for one frame at client time `now`, with the dispatch and
   the ban-time parser as written (`asWritten`) or corrected. Only violation
   frames touch the ban, only title frames rename, and the connection and
   typing throttle are never touched.
   */
  function OnFrame(c: Client, raw: Raw, now: int, asWritten: bool): (s: Step)
    ensures s.client.connected == c.connected && s.client.lastTypingSent == c.lastTypingSent
    ensures !KindOf(raw, asWritten).ViolationObj? && !KindOf(raw, asWritten).MarkedText? ==>
      s.client.banned == c.banned && s.client.banUntil == c.banUntil
    ensures |s.renames| > 0 ==> KindOf(raw, asWritten).TitleObj? && Truthy(KindOf(raw, asWritten).title)
                                && s.renames == [KindOf(raw, asWritten).title.value]
    ensures s.client.isTyping && !c.isTyping ==> KindOf(raw, asWritten) == TypingObj
  {
    match KindOf(raw, asWritten)
    case ViolationObj(d) =>
      Step(Ban(c, d.banTime, now).(isTyping := false), [d], [], [])
    case MarkedText(t) =>
      var v := ViolationNotice(t, asWritten);
      Step(Ban(c, v.banTime, now).(isTyping := false), [v], [], [])
    case TypingObj =>
      Step(c.(isTyping := true, typingTimer := true), [], [], [])
    case TitleObj(t) =>
      Step(c, [], [], if Truthy(t) then [t.value] else [])
    case DoneObj => Finish(c, now)
    case AssistantDelta(x, stamp) =>
      var b := c.buffer + x;
      Step(c.(buffer := b, idle := Armed(stamp)), [], [b], [])
    case OtherObj(role, x, stamp) =>
      Step(c, [NoKeys.(role := role, content := Some(x), timestamp := stamp)], [], [])
    case Dropped =>
      Step(c, [], [], [])
  }

  /**
   The fix changes the step for exactly two kinds of frame: the server's
   typing event, which the written dispatch hands on as a message, and a
   marked text whose ban time only the corrected parser reads.
   */
  lemma FixChangesOnly(c: Client, raw: Raw, now: int)
    ensures OnFrame(c, raw, now, false) != OnFrame(c, raw, now, true) <==>
      || (Kind(raw) == TypingObj && KindAsWritten(raw).OtherObj?)
      || (raw.NotJson? && Marked(raw.text) && BanTime(raw.text) != BanTimeAsWritten(raw.text))
  {
    var fixed := OnFrame(c, raw, now, false);
    var written := OnFrame(c, raw, now, true);
    if Kind(raw) == TypingObj && KindAsWritten(raw).OtherObj? {
      assert fixed.delivered == [] && |written.delivered| == 1;
    } else if raw.NotJson? && Marked(raw.text) {
      assert fixed.delivered == [ViolationNotice(raw.text, false)] && written.delivered == [ViolationNotice(raw.text, true)];
      if BanTime(raw.text) != BanTimeAsWritten(raw.text) {
        assert fixed.delivered[0].banTime != written.delivered[0].banTime;
      }
    }
  }

  /**
   A bare text frame, as written: with a marker it is handed on as a
   violation object and bans the client when the written parser's time is
   positive; without one it is dropped and nothing changes.
   */
  lemma TextFrameStep(c: Client, text: string, now: int)
    ensures var s := OnFrame(c, NotJson(text), now, true);
      if Marked(text) then
        && s.delivered == [ViolationNotice(text, true)]
        && s.client == Ban(c, Some(BanTimeAsWritten(text)), now).(isTyping := false)
        && (s.client.banned <==> c.banned || BanTimeAsWritten(text) > 0)
      else s == Step(c, [], [], [])
  {
  }

  /** The server's DONE event is read as one, by either dispatch. */
  lemma DoneIsDone(stamp: int)
    ensures KindAsWritten(Encode(W.Done, stamp)) == DoneObj
    ensures Kind(Encode(W.Done, stamp)) == DoneObj
  {
  }

  /** DONE hands on a non-blank buffer once, trimmed, and clears it; a blank buffer stays. */
  lemma DoneStep(c: Client, raw: Raw, now: int, asWritten: bool)
    requires KindOf(raw, asWritten) == DoneObj
    ensures var s := OnFrame(c, raw, now, asWritten);
      && s.client.idle == Unarmed && !s.client.isTyping && s.client.banned == c.banned
      && (JsTrim(c.buffer) != "" ==> s.delivered == [AssistantObj(JsTrim(c.buffer), Some(now))] && s.client.buffer == "")
      && (JsTrim(c.buffer) == "" ==> s.delivered == [] && s.client.buffer == c.buffer)
  {
  }

  /** The idle-flush timer fires: a non-blank buffer is handed on, trimmed, and cleared. */
  function OnIdle(c: Client): (s: Step)
    ensures s.client.idle == Unarmed && s.renames == []
    ensures c.idle.Armed? && JsTrim(c.buffer) != "" ==>
      s.delivered == [AssistantObj(JsTrim(c.buffer), c.idle.timestamp)] && s.client.buffer == ""
    ensures c.idle.Unarmed? || JsTrim(c.buffer) == "" ==> s.delivered == [] && s.client == c.(idle := Unarmed)
  {
    match c.idle
    case Unarmed => Step(c, [], [], [])
    case Armed(stamp) =>
      if JsTrim(c.buffer) != "" then Step(c.(buffer := "", idle := Unarmed), [AssistantObj(JsTrim(c.buffer), stamp)], [""], [])
      else Step(c.(idle := Unarmed), [], [], [])
  }

  /** The typing indicator's two-second timer fires. */
  function OnTypingTimer(c: Client): (r: Client)
    ensures c.typingTimer ==> !r.isTyping && !r.typingTimer
    ensures !c.typingTimer ==> r == c
  {
    if c.typingTimer then c.(isTyping := false, typingTimer := false) else c
  }

  /** The code the hook closes its own socket with. */
  const NormalClosure := 1000

  /** A socket's `readyState`. */
  datatype ReadyState = Connecting | Open | Closing | Closed

  /**
   What the previous socket can still do to the hook after a reopen:
   nothing (`Detached`); fire `onclose` with 1000, because the clean-up
   closed it (`StaleClose`); run its `onopen`, `onmessage` and `onclose`,
   because it was neither closed nor detached while connecting
   (`StillConnecting`); or fire `onclose` once its closing ends
   (`StillClosing`).
   */
  datatype Leftover = Detached | StaleClose | StillConnecting | StillClosing

  /**
   `cleanUp`: closes the socket with code 1000 when its `readyState` is
   OPEN, and clears the buffer, the timers, the connection and the ban. The
   second part says whether the socket was closed.
   */
  function CleanUp(c: Client, prior: ReadyState): (r: (Client, bool))
    ensures !r.0.connected && !r.0.banned && r.0.banUntil.None? && !r.0.isTyping
    ensures r.0.buffer == "" && r.0.idle == Unarmed && !r.0.typingTimer
    ensures r.0.lastTypingSent == c.lastTypingSent
    ensures r.1 <==> prior == Open
  {
    (Client(false, false, false, None, "", Unarmed, false, c.lastTypingSent), prior == Open)
  }

  /** The new socket's `onopen`: connected and not banned, nothing else touched. */
  function Opened(c: Client): (r: Client)
    ensures r.connected && !r.banned && r.banUntil.None?
    ensures r.(connected := c.connected, banned := c.banned, banUntil := c.banUntil) == c
  {
    c.(connected := true, banned := false, banUntil := None)
  }

  /**
   A (re)connection: the effect's clean-up, then the new socket's `onopen`.
   The second part is what the old socket, whose `readyState` was `prior`,
   can still do to the hook. As written the clean-up only closes an OPEN
   socket and detaches none, so every state but CLOSED leaves something
   behind; corrected, the old socket's handlers are detached first.
   */
  function OnOpen(c: Client, prior: ReadyState, asWritten: bool): (r: (Client, Leftover))
    ensures r.0.connected && !r.0.banned && r.0.banUntil.None? && !r.0.isTyping
    ensures r.0.buffer == "" && r.0.idle == Unarmed && !r.0.typingTimer
    ensures r.0.lastTypingSent == c.lastTypingSent
    ensures !asWritten ==> r.1 == Detached
    ensures asWritten ==>
      && (r.1 == StaleClose <==> prior == Open)
      && (r.1 == StillConnecting <==> prior == Connecting)
      && (r.1 == StillClosing <==> prior == Closing)
      && (r.1 == Detached <==> prior == Closed)
  {
    var cleaned := CleanUp(c, prior);
    var left :=
      if !asWritten then Detached
      else if cleaned.1 then StaleClose
      else match prior
        case Connecting => StillConnecting
        case Closing => StillClosing
        case _ => Detached;
    (Opened(cleaned.0), left)
  }

  /** `onclose`: disconnected, not typing, and a reconnect scheduled unless the server refused the connection. */
  function OnClose(c: Client, code: int): (r: (Client, bool))
    ensures !r.0.connected && !r.0.isTyping
    ensures r.0.banned == c.banned && r.0.buffer == c.buffer
    ensures r.1 <==> code != CR.PolicyViolation
  {
    (c.(connected := false, isTyping := false), code != 1008)
  }

  // ---------------------------------------------------------------------
  // Sending

  /**
   `sendMessage`: refused while banned; otherwise the frame goes out only on
   a connected, open socket. `open` is the socket's `readyState` being OPEN.
   */
  function SendMessage(c: Client, open: bool, text: string): (r: Option<CR.Incoming>)
    ensures c.banned ==> r.None?
    ensures r.Some? <==> !c.banned && c.connected && open
    ensures r.Some? ==> CR.Classify(r.value) == (if text == "" then CR.Ignored else CR.SendAction(text))
  {
    if c.banned then None
    else if c.connected && open then Some(CR.Incoming(Some("sendMessage"), Some(text)))
    else None
  }

  /** `sendTyping` at time `now`: at most one typing frame per more-than-a-second. */
  function SendTyping(c: Client, open: bool, now: int): (r: (Client, Option<CR.Incoming>))
    ensures r.1.Some? <==> c.connected && open && now - c.lastTypingSent > 1000
    ensures r.1.Some? ==> CR.Classify(r.1.value) == CR.TypingAction && r.0 == c.(lastTypingSent := now)
    ensures r.1.None? ==> r.0 == c
  {
    if c.connected && open && now - c.lastTypingSent > 1000 then
      (c.(lastTypingSent := now), Some(CR.Incoming(Some("typing"), None)))
    else (c, None)
  }

  /** Typing attempts `(open, now)` one after another: the final state and when a frame actually went out. */
  function TypingRun(c: Client, attempts: seq<(bool, int)>): (r: (Client, seq<int>))
    decreases |attempts|
  {
    if |attempts| == 0 then (c, [])
    else
      var step := SendTyping(c, attempts[0].0, attempts[0].1);
      var rest := TypingRun(step.0, attempts[1..]);
      (rest.0, (if step.1.Some? then [attempts[0].1] else []) + rest.1)
  }

  /** Each send lies more than a second after the one before it (the first after `last`). */
  predicate Spaced(times: seq<int>, last: int) {
    forall i :: 0 <= i < |times| ==> times[i] - (if i == 0 then last else times[i - 1]) > 1000
  }

  /** The throttle: typing frames go out more than 1000 ms apart, the first more than 1000 ms after the last one before. */
  lemma {:induction false} TypingIsThrottled(c: Client, attempts: seq<(bool, int)>)
    ensures Spaced(TypingRun(c, attempts).1, c.lastTypingSent)
    decreases |attempts|
  {
    if |attempts| > 0 {
      var step := SendTyping(c, attempts[0].0, attempts[0].1);
      TypingIsThrottled(step.0, attempts[1..]);
      var rest := TypingRun(step.0, attempts[1..]);
      if step.1.Some? {
        var times := [attempts[0].1] + rest.1;
        assert TypingRun(c, attempts).1 == times;
        forall i | 0 <= i < |times|
          ensures times[i] - (if i == 0 then c.lastTypingSent else times[i - 1]) > 1000
        {
          if i == 0 {
            assert times[0] == attempts[0].1;
          } else if i == 1 {
            assert times[1] == rest.1[0] && times[0] == attempts[0].1;
            assert step.0.lastTypingSent == attempts[0].1;
            assert rest.1[0] - step.0.lastTypingSent > 1000;
          } else {
            assert times[i] == rest.1[i - 1];
            assert times[i - 1] == rest.1[i - 2];
            assert rest.1[i - 1] - rest.1[i - 2] > 1000;
          }
        }
      } else {
        assert TypingRun(c, attempts).1 == rest.1;
      }
    }
  }

  // ---------------------------------------------------------------------
  // What the server's messages become

  /**
   The frame a server message arrives as. `stamp` is the browser's reading
   of the frame's ISO time, which the model does not derive from the
   server's clock.
   */
  function Encode(m: W.Msg, stamp: int): (r: Raw)
    ensures m.PlainText? <==> r.NotJson?
  {
    match m
    case SystemNotice(x) => Json(NoKeys.(role := Some("system"), content := Some(x)))
    case PlainText(x) => NotJson(x)
    case UserEcho(x, _) => Json(NoKeys.(role := Some("user"), content := Some(x), timestamp := Some(stamp)))
    case Typing(_) => Json(NoKeys.(event := Some("TYPING"), timestamp := Some(stamp)))
    case Assistant(x, _) => Json(NoKeys.(role := Some("assistant"), content := Some(x), timestamp := Some(stamp)))
    case Done => Json(NoKeys.(event := Some("DONE")))
    case TitleUpdated(t) => Json(NoKeys.(role := Some("system"), event := Some("TITLE_UPDATED"), title := Some(t)))
  }

  /** With the corrected dispatch, the server's typing event is recognised and the indicator is shown. */
  lemma ServerTypingIsShown(c: Client, u: int, stamp: int, now: int)
    ensures Kind(Encode(W.Typing(u), stamp)) == TypingObj
    ensures OnFrame(c, Encode(W.Typing(u), stamp), now, false).client.isTyping
  {
  }

  /**
   With the dispatch as written, the server's typing event is not a typing
   frame: it is handed on as a message with no role and no text, and the
   indicator stays as it was.
   */
  lemma ServerTypingIsMissedAsWritten(c: Client, u: int, stamp: int, now: int)
    ensures KindAsWritten(Encode(W.Typing(u), stamp)) == OtherObj(None, "", Some(stamp))
    ensures OnFrame(c, Encode(W.Typing(u), stamp), now, true)
      == Step(c, [NoKeys.(content := Some(""), timestamp := Some(stamp))], [], [])
  {
  }

  /** What one side of the connection receives from a list of sends, in order. */
  function Inbox(sends: seq<W.Send>, bySender: bool): (r: seq<W.Msg>)
    ensures |r| <= |sends|
    decreases |sends|
  {
    if |sends| == 0 then []
    else (if sends[0].ToSender? == bySender then [sends[0].msg] else []) + Inbox(sends[1..], bySender)
  }

  /** The text of the assistant messages among `msgs`, in order. */
  function Spoken(msgs: seq<W.Msg>): string
    decreases |msgs|
  {
    if |msgs| == 0 then "" else (if msgs[0].Assistant? then msgs[0].content else "") + Spoken(msgs[1..])
  }

  /** What a side reads is the assistant text of what it receives. */
  lemma {:induction false} SpokenInbox(sends: seq<W.Send>, bySender: bool)
    ensures Spoken(Inbox(sends, bySender)) == W.Heard(sends, bySender)
    decreases |sends|
  {
    if |sends| > 0 {
      SpokenInbox(sends[1..], bySender);
      var head := if sends[0].ToSender? == bySender then [sends[0].msg] else [];
      SpokenAppend(head, Inbox(sends[1..], bySender));
      assert Spoken(head) == (if sends[0].ToSender? == bySender && sends[0].msg.Assistant? then sends[0].msg.content else "") by {
        if |head| > 0 { assert head[1..] == []; }
      }
    }
  }

  lemma {:induction false} SpokenAppend(a: seq<W.Msg>, b: seq<W.Msg>)
    ensures Spoken(a + b) == Spoken(a) + Spoken(b)
    decreases |a|
  {
    if |a| > 0 {
      assert (a + b)[1..] == a[1..] + b;
      SpokenAppend(a[1..], b);
    } else {
      assert a + b == b;
    }
  }

  /** Two steps one after another, as one step. */
  function Then(x: Step, y: Step): Step {
    Step(y.client, x.delivered + y.delivered, x.partials + y.partials, x.renames + y.renames)
  }

  /** The frames a list of server messages arrives as, each stamped `stamp`. */
  function Frames(msgs: seq<W.Msg>, stamp: int): (r: seq<Raw>)
    ensures |r| == |msgs| && forall i :: 0 <= i < |msgs| ==> r[i] == Encode(msgs[i], stamp)
  {
    seq(|msgs|, i requires 0 <= i < |msgs| => Encode(msgs[i], stamp))
  }

  lemma FramesAppend(a: seq<W.Msg>, b: seq<W.Msg>, stamp: int)
    ensures Frames(a + b, stamp) == Frames(a, stamp) + Frames(b, stamp)
  {
    assert Frames(a + b, stamp) == Frames(a, stamp) + Frames(b, stamp);
  }

  /** A frame handler fed `raws` in order. */
  function Feed(on: (Client, Raw) -> Step, c: Client, raws: seq<Raw>): Step
    decreases |raws|
  {
    if |raws| == 0 then Step(c, [], [], [])
    else
      var first := on(c, raws[0]);
      Then(first, Feed(on, first.client, raws[1..]))
  }

  /** Feeding `a` and then `b` is feeding `a + b`. */
  lemma {:induction false} FeedAppend(on: (Client, Raw) -> Step, c: Client, a: seq<Raw>, b: seq<Raw>)
    ensures Feed(on, c, a + b) == Then(Feed(on, c, a), Feed(on, Feed(on, c, a).client, b))
    decreases |a|
  {
    if |a| > 0 {
      assert (a + b)[1..] == a[1..] + b;
      var first := on(c, a[0]);
      FeedAppend(on, first.client, a[1..], b);
    } else {
      assert a + b == b;
    }
  }

  /** Feeding one frame is one step. */
  lemma FeedOne(on: (Client, Raw) -> Step, c: Client, r: Raw)
    ensures Feed(on, c, [r]) == on(c, r)
  {
    assert [r][1..] == [];
    var first := on(c, r);
    assert Feed(on, c, [r]) == Then(first, Step(first.client, [], [], []));
    assert first.delivered + [] == first.delivered;
    assert first.partials + [] == first.partials;
    assert first.renames + [] == first.renames;
  }

  /** Every message is an assistant message. */
  predicate AllAssistant(msgs: seq<W.Msg>) {
    forall i :: 0 <= i < |msgs| ==> msgs[i].Assistant?
  }

  /** Appending `text` to the buffer and arming the idle timer with `stamp`, passing the new buffer on. */
  function BufferStep(c: Client, text: string, stamp: int): Step {
    Step(c.(buffer := c.buffer + text, idle := Armed(Some(stamp))), [], [c.buffer + text], [])
  }

  /** The handler treats the `i`-th frame of `raws` as the text of the `i`-th message of `msgs`, whatever the state. */
  ghost predicate Buffers(on: (Client, Raw) -> Step, raws: seq<Raw>, msgs: seq<W.Msg>, stamp: int) {
    && |raws| == |msgs|
    && (AllAssistant(msgs))
    && forall c: Client, i :: 0 <= i < |raws| ==> on(c, raws[i]) == BufferStep(c, msgs[i].content, stamp)
  }

  /** Buffered frames hand nothing on: the buffer grows by their text and nothing else but the idle timer moves. */
  lemma {:induction false} FeedBuffers(on: (Client, Raw) -> Step, c: Client, raws: seq<Raw>, msgs: seq<W.Msg>, stamp: int)
    requires Buffers(on, raws, msgs, stamp)
    ensures Feed(on, c, raws).delivered == []
    ensures Feed(on, c, raws).client.buffer == c.buffer + Spoken(msgs)
    ensures Feed(on, c, raws).client.idle == if |msgs| == 0 then c.idle else Armed(Some(stamp))
    ensures Feed(on, c, raws).client == c.(buffer := c.buffer + Spoken(msgs), idle := Feed(on, c, raws).client.idle)
    decreases |raws|
  {
    if |raws| > 0 {
      var first := on(c, raws[0]);
      assert first == BufferStep(c, msgs[0].content, stamp);
      assert Buffers(on, raws[1..], msgs[1..], stamp) by {
        forall i | 0 <= i < |msgs[1..]| ensures msgs[1..][i].Assistant? {
          assert msgs[1..][i] == msgs[i + 1];
        }
        forall c': Client, i | 0 <= i < |raws[1..]|
          ensures on(c', raws[1..][i]) == BufferStep(c', msgs[1..][i].content, stamp)
        {
          assert raws[1..][i] == raws[i + 1] && msgs[1..][i] == msgs[i + 1];
        }
      }
      FeedBuffers(on, first.client, raws[1..], msgs[1..], stamp);
      var rest := Feed(on, first.client, raws[1..]);
      assert Feed(on, c, raws) == Then(first, rest);
      assert Spoken(msgs) == msgs[0].content + Spoken(msgs[1..]);
      assert rest.client.buffer == c.buffer + msgs[0].content + Spoken(msgs[1..]);
    }
  }

  /**
   The hook as written at client time `now`, as a frame handler: no frame
   touches the connection or the typing throttle, only a frame the written
   dispatch reads as a violation can ban, and only one it reads as typing
   turns the indicator on.
   */
  function Hook(now: int): (h: (Client, Raw) -> Step)
    ensures forall c, raw :: h(c, raw).client.connected == c.connected && h(c, raw).client.lastTypingSent == c.lastTypingSent
    ensures forall c, raw :: h(c, raw).client.banned && !c.banned ==>
      KindAsWritten(raw).ViolationObj? || KindAsWritten(raw).MarkedText?
    ensures forall c, raw :: h(c, raw).client.isTyping && !c.isTyping ==> KindAsWritten(raw) == TypingObj
  {
    (c, raw) => OnFrame(c, raw, now, true)
  }

  /** The client reading `msgs` in order, every frame at time `now`. */
  function Read(c: Client, msgs: seq<W.Msg>, now: int): Step {
    Feed(Hook(now), c, Frames(msgs, now))
  }

  /** One assistant message appends its text to the buffer and re-arms the idle timer, by either dispatch. */
  lemma DeltaStep(c: Client, m: W.Msg, now: int, asWritten: bool)
    requires m.Assistant?
    ensures OnFrame(c, Encode(m, now), now, asWritten) == BufferStep(c, m.content, now)
  {
    assert KindAsWritten(Encode(m, now)) == AssistantDelta(m.content, Some(now));
  }

  /** The hook buffers assistant messages. */
  lemma HookBuffers(msgs: seq<W.Msg>, now: int)
    requires AllAssistant(msgs)
    ensures Buffers(Hook(now), Frames(msgs, now), msgs, now)
  {
    var raws := Frames(msgs, now);
    forall c: Client, i | 0 <= i < |raws|
      ensures Hook(now)(c, raws[i]) == BufferStep(c, msgs[i].content, now)
    {
      DeltaStep(c, msgs[i], now, true);
    }
  }

  /** Assistant messages only fill the buffer: nothing is handed on and the ban is untouched. */
  lemma DeltasFillBuffer(c: Client, msgs: seq<W.Msg>, now: int)
    requires AllAssistant(msgs)
    ensures var s := Read(c, msgs, now);
      && s.delivered == [] && s.client.buffer == c.buffer + Spoken(msgs)
      && s.client.banned == c.banned && s.client.connected == c.connected
      && (|msgs| > 0 ==> s.client.idle == Armed(Some(now)))
  {
    HookBuffers(msgs, now);
    FeedBuffers(Hook(now), c, Frames(msgs, now), msgs, now);
  }

  /** Buffered frames and then a DONE: the whole buffer is handed on once, trimmed, or nothing when it is blank. */
  lemma FeedBuffersThenFinish(on: (Client, Raw) -> Step, c: Client, raws: seq<Raw>, msgs: seq<W.Msg>, done: Raw, stamp: int, now: int)
    requires Buffers(on, raws, msgs, stamp)
    requires forall c': Client :: on(c', done) == Finish(c', now)
    ensures var s := Feed(on, c, raws + [done]);
      var text := JsTrim(c.buffer + Spoken(msgs));
      && s.delivered == (if text != "" then [AssistantObj(text, Some(now))] else [])
      && s.client.idle == Unarmed && s.client.banned == c.banned
  {
    FeedBuffers(on, c, raws, msgs, stamp);
    FeedAppend(on, c, raws, [done]);
    FeedOne(on, Feed(on, c, raws).client, done);
  }

  /** The hook finishes on the server's DONE, whatever the state. */
  lemma HookFinishes(now: int)
    ensures forall c: Client :: Hook(now)(c, Encode(W.Done, now)) == Finish(c, now)
  {
    DoneIsDone(now);
  }

  lemma ReadThenDone(c: Client, msgs: seq<W.Msg>, now: int)
    ensures Read(c, msgs + [W.Done], now) == Feed(Hook(now), c, Frames(msgs, now) + [Encode(W.Done, now)])
  {
    FramesAppend(msgs, [W.Done], now);
    assert Frames([W.Done], now) == [Encode(W.Done, now)];
  }

  /** A DONE after assistant messages hands on the trimmed text once, or nothing when it is blank. */
  lemma DoneDeliversBuffer(c: Client, msgs: seq<W.Msg>, now: int)
    requires AllAssistant(msgs)
    ensures var s := Read(c, msgs + [W.Done], now);
      var text := JsTrim(c.buffer + Spoken(msgs));
      && s.delivered == (if text != "" then [AssistantObj(text, Some(now))] else [])
      && s.client.idle == Unarmed && s.client.banned == c.banned
  {
    HookBuffers(msgs, now);
    HookFinishes(now);
    ReadThenDone(c, msgs, now);
    FeedBuffersThenFinish(Hook(now), c, Frames(msgs, now), msgs, Encode(W.Done, now), now, now);
  }

  /**
   The sender of the mounted endpoint's completed stream (its frames, then
   DONE) is handed exactly one assistant message: what it read, trimmed.
   */
  lemma SenderGetsOneReply(c: Client, frames: seq<W.F.Frame>, now: int)
    requires c.buffer == ""
    ensures var sends := W.SenderFrames(frames) + [W.ToSender(W.Done)];
      var text := JsTrim(W.Heard(sends, true));
      Read(c, Inbox(sends, true), now).delivered == (if text != "" then [AssistantObj(text, Some(now))] else [])
  {
    SenderInbox(frames);
    var msgs := Inbox(W.SenderFrames(frames), true);
    DoneDeliversBuffer(c, msgs, now);
    assert c.buffer + Spoken(msgs) == Spoken(msgs);
  }

  /** The sender receives the frames' assistant messages and then DONE, and reads what they spell. */
  lemma SenderInbox(frames: seq<W.F.Frame>)
    ensures var sends := W.SenderFrames(frames) + [W.ToSender(W.Done)];
      var msgs := Inbox(W.SenderFrames(frames), true);
      && Inbox(sends, true) == msgs + [W.Done]
      && (AllAssistant(msgs))
      && Spoken(msgs) == W.Heard(sends, true)
  {
    var sends := W.SenderFrames(frames) + [W.ToSender(W.Done)];
    var msgs := Inbox(W.SenderFrames(frames), true);
    InboxAppend(W.SenderFrames(frames), [W.ToSender(W.Done)], true);
    assert [W.ToSender(W.Done)][1..] == [];
    assert Inbox([W.ToSender(W.Done)], true) == [W.Done];
    InboxAllAssistant(W.SenderFrames(frames), true);
    SpokenInbox(sends, true);
    SpokenAppend(msgs, [W.Done]);
    assert [W.Done][1..] == [];
    assert Spoken([W.Done]) == "";
  }

  lemma {:induction false} InboxAppend(a: seq<W.Send>, b: seq<W.Send>, bySender: bool)
    ensures Inbox(a + b, bySender) == Inbox(a, bySender) + Inbox(b, bySender)
    decreases |a|
  {
    if |a| > 0 {
      assert (a + b)[1..] == a[1..] + b;
      InboxAppend(a[1..], b, bySender);
    } else {
      assert a + b == b;
    }
  }

  /** Every send carries assistant text. */
  predicate AssistantSends(sends: seq<W.Send>) {
    forall i :: 0 <= i < |sends| ==> sends[i].msg.Assistant?
  }

  /** Sends that all carry assistant text give each side only assistant messages. */
  lemma {:induction false} InboxAllAssistant(sends: seq<W.Send>, bySender: bool)
    requires AssistantSends(sends)
    ensures AllAssistant(Inbox(sends, bySender))
    decreases |sends|
  {
    if |sends| > 0 {
      assert forall i :: 0 <= i < |sends[1..]| ==> sends[1..][i] == sends[i + 1];
      InboxAllAssistant(sends[1..], bySender);
      var r := Inbox(sends, bySender);
      var t := Inbox(sends[1..], bySender);
      assert sends[0].msg.Assistant?;
      if sends[0].ToSender? == bySender {
        assert r == [sends[0].msg] + t;
        forall i | 0 <= i < |r| ensures r[i].Assistant? {
          if i == 0 {
            assert r[0] == sends[0].msg;
          } else {
            assert r[i] == t[i - 1];
          }
        }
      } else {
        assert r == [] + t;
        assert r == t;
      }
    }
  }

  lemma SharedFramesAssistant(frames: seq<W.F.Frame>)
    ensures AssistantSends(W.SharedFrames(frames))
  {
    var sf := W.SharedFrames(frames);
    forall i | 0 <= i < |sf| ensures sf[i].msg.Assistant? {
      var j := i / 2;
      if i % 2 == 0 {
        assert i == 2 * j;
        assert sf[2 * j] == W.ToSender(W.Assistant(frames[j].content, frames[j].at));
      } else {
        assert i == 2 * j + 1;
        assert sf[2 * j + 1] == W.ToOthers(W.Assistant(frames[j].content, frames[j].at));
      }
    }
  }

  /**
   The other users of the helper module's stream get every frame but no
   DONE: nothing is handed on until the idle timer fires, which then hands
   on what they read, trimmed, once.
   */
  lemma OthersWaitForIdleTimer(c: Client, frames: seq<W.F.Frame>, now: int)
    requires c.buffer == "" && |frames| > 0
    ensures var sends := W.SharedFrames(frames) + [W.ToSender(W.Done)];
      var s := Read(c, Inbox(sends, false), now);
      var text := JsTrim(W.Heard(sends, false));
      && s.delivered == []
      && OnIdle(s.client).delivered == (if text != "" then [AssistantObj(text, Some(now))] else [])
  {
    OthersInbox(frames);
    var msgs := Inbox(W.SharedFrames(frames), false);
    DeltasFillBuffer(c, msgs, now);
    assert c.buffer + Spoken(msgs) == Spoken(msgs);
  }

  /** The other users receive the frames' assistant messages, at least one, and no DONE, and read what they spell. */
  lemma OthersInbox(frames: seq<W.F.Frame>)
    requires |frames| > 0
    ensures var sends := W.SharedFrames(frames) + [W.ToSender(W.Done)];
      var msgs := Inbox(W.SharedFrames(frames), false);
      && Inbox(sends, false) == msgs && |msgs| > 0 && AllAssistant(msgs)
      && Spoken(msgs) == W.Heard(sends, false)
  {
    var sends := W.SharedFrames(frames) + [W.ToSender(W.Done)];
    InboxAppend(W.SharedFrames(frames), [W.ToSender(W.Done)], false);
    assert [W.ToSender(W.Done)][1..] == [];
    assert Inbox([W.ToSender(W.Done)], false) == [];
    var msgs := Inbox(W.SharedFrames(frames), false);
    assert Inbox(sends, false) == msgs + [];
    SharedFramesAssistant(frames);
    InboxAllAssistant(W.SharedFrames(frames), false);
    assert |msgs| > 0 by {
      var sf := W.SharedFrames(frames);
      var pair := sf[..2];
      InboxAppend(pair, sf[2..], false);
      assert pair + sf[2..] == sf;
      assert pair[0] == W.ToSender(W.Assistant(frames[0].content, frames[0].at));
      assert pair[1] == W.ToOthers(W.Assistant(frames[0].content, frames[0].at));
      assert pair[1..][1..] == [];
      assert Inbox(pair, false) == [W.Assistant(frames[0].content, frames[0].at)];
    }
    SpokenInbox(sends, false);
  }

  // ---------------------------------------------------------------------
  // The server's violation notices

  /**
   Every first notice the server sends for a strike is recognised as a
   violation, and (with the lock notice read as the one-day ban) the client
   bans itself for exactly the server's ban time.
   */
  lemma NoticeBansAsServerDoes(strikes: int)
    requires strikes >= 1
    ensures var text := V.Levels(V.Tier(strikes)).value.message;
      Marked(text) && BanTime(text) == V.BanSeconds(strikes)
  {
    var tier := V.Tier(strikes);
    if tier == 1 {
      WarningNotice();
    } else if tier == 2 {
      FiveMinuteNotice();
    } else if tier == 3 {
      OneHourNotice();
    } else {
      LockTextIsMarked();
      LockTextLacks();
      NoDurations(V.LockText);
    }
  }

  lemma WarningNotice()
    ensures Marked(V.WarningText) && BanTimeAsWritten(V.WarningText) == 0 && BanTime(V.WarningText) == 0
  {
    assert OccursAt("Cảnh báo", V.WarningText, 0);
    WarningLacks();
    NoDurations(V.WarningText);
    AbsentCharExcludes(V.WarningText, LockPhrase, 'T');
  }

  lemma WarningLacks()
    ensures '5' !in V.WarningText && '1' !in V.WarningText && 'T' !in V.WarningText
  {
    WarningLacksChar('5');
    WarningLacksChar('1');
    WarningLacksChar('T');
  }

  lemma WarningLacksChar(ch: char)
    requires ch in "15T"
    ensures ch !in V.WarningText
  {
    assert ch == '1' || ch == '5' || ch == 'T';
  }

  lemma FiveMinuteNotice()
    ensures Marked(V.FiveMinuteBanText) && BanTimeAsWritten(V.FiveMinuteBanText) == 300 && BanTime(V.FiveMinuteBanText) == 300
  {
    assert OccursAt("cấm chat", V.FiveMinuteBanText, 7);
    assert OccursAt("5 phút", V.FiveMinuteBanText, 16);
  }

  lemma OneHourNotice()
    ensures Marked(V.OneHourBanText) && BanTimeAsWritten(V.OneHourBanText) == 3600 && BanTime(V.OneHourBanText) == 3600
  {
    assert OccursAt("cấm chat", V.OneHourBanText, 7);
    OneHourLacksFive();
    AbsentCharExcludes(V.OneHourBanText, "5 phút", '5');
    assert OccursAt("1 giờ", V.OneHourBanText, 16);
  }

  lemma OneHourLacksFive()
    ensures '5' !in V.OneHourBanText
  {
  }

  lemma LockTextIsMarked()
    ensures Contains(V.LockText, LockPhrase) && Marked(V.LockText)
  {
    assert OccursAt(LockPhrase, V.LockText, 0);
  }

  lemma LockTextLacks()
    ensures '5' !in V.LockText && '1' !in V.LockText
  {
  }

  lemma EmailSentLacks()
    ensures '5' !in V.EmailSentText && '1' !in V.EmailSentText
  {
  }

  /** A text without the digits 5 and 1 names no ban duration. */
  lemma NoDurations(text: string)
    requires '5' !in text && '1' !in text
    ensures !Contains(text, "5 phút") && !Contains(text, "1 giờ") && !Contains(text, "1 ngày")
  {
    AbsentCharExcludes(text, "5 phút", '5');
    AbsentCharExcludes(text, "1 giờ", '1');
    AbsentCharExcludes(text, "1 ngày", '1');
  }

  /**
   As written, the fourth-tier notices are recognised but name no duration:
   the client takes ban time 0 and stays unbanned, while the server bans
   the user for a day.
   */
  lemma LockNoticeParsesAsNoBan()
    ensures Marked(V.LockText) && BanTimeAsWritten(V.LockText) == 0
    ensures V.BanSeconds(V.MaxLevel) == 86400
    ensures Marked(V.EmailSentText) && BanTimeAsWritten(V.EmailSentText) == 0
  {
    LockTextIsMarked();
    LockTextLacks();
    NoDurations(V.LockText);
    EmailSentNoBan();
  }

  lemma EmailSentNoBan()
    ensures Marked(V.EmailSentText) && BanTimeAsWritten(V.EmailSentText) == 0
  {
    assert OccursAt("Email thông báo", V.EmailSentText, 0);
    EmailSentLacks();
    NoDurations(V.EmailSentText);
  }

  /**
   As written, the parser recovers the server's ban time from the first
   notice of a strike exactly up to the third strike.
   */
  lemma NoticeBansAsWritten(strikes: int)
    requires strikes >= 1
    ensures var text := V.Levels(V.Tier(strikes)).value.message;
      Marked(text) && (BanTimeAsWritten(text) == V.BanSeconds(strikes) <==> strikes <= 3)
  {
    var tier := V.Tier(strikes);
    if tier == 1 {
      WarningNotice();
    } else if tier == 2 {
      FiveMinuteNotice();
    } else if tier == 3 {
      OneHourNotice();
    } else {
      LockNoticeParsesAsNoBan();
    }
  }

  /**
   The hook as written reading the server's notice for a strike that bans:
   the five-minute and one-hour notices ban the client for the server's
   time, after which it sends nothing; the lock notice leaves the ban as it
   was.
   */
  lemma BanNoticeBansClient(c: Client, strikes: int, now: int)
    requires strikes >= 2
    ensures var s := OnFrame(c, Encode(W.PlainText(V.Levels(V.Tier(strikes)).value.message), now), now, true);
      && (strikes <= 3 ==> s.client.banned && s.client.banUntil == Some(now + V.BanSeconds(strikes) * 1000)
                           && SendMessage(s.client, true, "hi").None?)
      && (strikes >= 4 ==> s.client.banned == c.banned && s.client.banUntil == c.banUntil)
  {
    if strikes <= 3 {
      NoticeBansAsWritten(strikes);
    } else {
      LockNoticeParsesAsNoBan();
    }
  }

  /** With the corrected parser, every server notice that bans the user bans the client for the server's time. */
  lemma BanNoticeBansClientFixed(c: Client, strikes: int, now: int)
    requires strikes >= 2
    ensures var s := OnFrame(c, Encode(W.PlainText(V.Levels(V.Tier(strikes)).value.message), now), now, false);
      s.client.banned && s.client.banUntil == Some(now + V.BanSeconds(strikes) * 1000)
      && SendMessage(s.client, true, "hi").None?
  {
    NoticeBansAsServerDoes(strikes);
  }

  /**
   The ban is never checked against the clock: a banned client refuses to
   send however late it is, until a reconnect, which lifts the ban at once.
   */
  lemma BanLastsUntilReconnect(c: Client, open: bool, text: string, code: int)
    requires c.banned && code != CR.PolicyViolation
    ensures SendMessage(c, open, text).None?
    ensures var closed := OnClose(c, code);
      closed.1 && !OnOpen(closed.0, Closed, true).0.banned && SendMessage(OnOpen(closed.0, Closed, true).0, true, text).Some?
  {
  }

  /**
   One round of the written hook after a reopen while its socket was open:
   the new socket opens, then the old socket's `onclose` fires with 1000.
   */
  function StaleRound(c: Client): (r: (Client, bool))
    ensures !r.0.connected && !r.0.banned && r.0.buffer == "" && r.1
  {
    OnClose(OnOpen(c, Open, true).0, NormalClosure)
  }

  /**
   As written, reopening while the old socket is open leaves that socket's
   `onclose` to fire with code 1000, which is not 1008, so a reconnect is
   scheduled whichever of the old close and the new `onopen` comes first.
   When the close comes last, the hook reads as disconnected and refuses to
   send although the new socket is open. Nothing closes the new socket, so
   the scheduled reconnect finds it open and the round repeats.
   */
  lemma StaleCloseReconnects(c: Client, text: string)
    ensures OnOpen(c, Open, true).1 == StaleClose
    ensures var late := OnClose(OnOpen(c, Open, true).0, NormalClosure);
      late.1 && !late.0.connected && SendMessage(late.0, true, text).None?
    ensures var early := OnClose(CleanUp(c, Open).0, NormalClosure);
      early.1 && Opened(early.0).connected
    ensures StaleRound(c) == OnClose(OnOpen(c, Open, true).0, NormalClosure)
    ensures StaleRound(StaleRound(c).0).1
  {
  }

  /**
   As written, a ban announced between two such rounds lasts only until the
   next one, which is already scheduled.
   */
  lemma StaleRoundLiftsBan(c: Client, text: string, now: int)
    requires Marked(text) && BanTimeAsWritten(text) > 0
    ensures var hit := OnFrame(StaleRound(c).0, NotJson(text), now, true).client;
      hit.banned && StaleRound(c).1 && !StaleRound(hit).0.banned
  {
    var hit := OnFrame(StaleRound(c).0, NotJson(text), now, true).client;
    TextFrameStep(StaleRound(c).0, text, now);
    assert hit.banned;
  }

  /**
   As written, a socket still CONNECTING at the clean-up is neither closed
   nor detached. When it connects after the new socket, its `onopen` lifts
   a ban that the new socket's notice imposed, and when it later closes
   with any code but 1008 it schedules a reconnect.
   */
  lemma ConnectingSocketLiftsBan(c: Client, text: string, now: int, code: int)
    requires Marked(text) && BanTimeAsWritten(text) > 0 && code != CR.PolicyViolation
    ensures OnOpen(c, Connecting, true).1 == StillConnecting
    ensures var hit := OnFrame(OnOpen(c, Connecting, true).0, NotJson(text), now, true).client;
      && hit.banned
      && !Opened(hit).banned && SendMessage(Opened(hit), true, text).Some?
      && OnClose(Opened(hit), code).1
  {
    TextFrameStep(OnOpen(c, Connecting, true).0, text, now);
  }

  /**
   Corrected, a reopen leaves nothing of the old socket behind, whatever
   its state: the hook stays connected, and a ban the server then announces
   holds until a real close. The two versions reach the same state and
   differ exactly when the old socket was not yet CLOSED.
   */
  lemma DetachedCloseStaysConnected(c: Client, prior: ReadyState, text: string, now: int)
    requires Marked(text) && BanTimeAsWritten(text) > 0
    ensures OnOpen(c, prior, false).1 == Detached && OnOpen(c, prior, false).0.connected
    ensures var hit := OnFrame(OnOpen(c, prior, false).0, NotJson(text), now, true).client;
      hit.connected && hit.banned && SendMessage(hit, true, text).None?
    ensures OnOpen(c, prior, true).0 == OnOpen(c, prior, false).0
    ensures OnOpen(c, prior, true).1 != OnOpen(c, prior, false).1 <==> prior != Closed
  {
    TextFrameStep(OnOpen(c, prior, false).0, text, now);
  }
}

=== FILE: chat_store.dfy ===
/**
 The chat service's session/message store (`crud.py`): three tables held
 as maps from primary key to row. Timestamps are abstract integers; a key
 generated by the database or by `uuid4` is supplied by the caller and is
 fresh. A write that the database rejects raises, which the web layer
 reports as status 500; nothing is committed then.
 */
module ChatStore {
  import opened Wrappers

  type SessionId = int
  type MessageId = int
  type ImageId = int

  /** The column default of `chat_sessions.title`. */
  const DefaultTitle: string := "New Chat"

  datatype Session = Session(userId: int, title: string, createdAt: int)
  datatype Message = Message(chatId: SessionId, role: string, content: string, createdAt: int)
  datatype Image = Image(userId: int, url: string, description: Option<string>, createdAt: int)

  datatype Db = Db(sessions: map<SessionId, Session>, messages: map<MessageId, Message>, images: map<ImageId, Image>)

  /** The result of a write: the committed database and a value, or the HTTP status of the raised error. */
  datatype Reply<T> = Ok(db: Db, value: T) | Error(status: int)

  /** Foreign key `chat_history.chat_id`: every message belongs to a stored session. */
  ghost predicate Consistent(db: Db) {
    forall m :: m in db.messages ==> db.messages[m].chatId in db.sessions
  }

  // ---------------------------------------------------------------------
  // Ordered listings

  ghost predicate Distinct(xs: seq<int>) {
    forall i, j :: 0 <= i < j < |xs| ==> xs[i] != xs[j]
  }

  /** Every element has a key, and keys do not decrease along `xs`. */
  ghost predicate Ascending(xs: seq<int>, key: map<int, int>) {
    && (forall i :: 0 <= i < |xs| ==> xs[i] in key)
    && (forall i, j :: 0 <= i < j < |xs| ==> key[xs[i]] <= key[xs[j]])
  }

  /** Insert `x` before the first element with a larger-or-equal key. */
  function InsertByKey(xs: seq<int>, x: int, key: map<int, int>): (r: seq<int>)
    requires x in key && forall i :: 0 <= i < |xs| ==> xs[i] in key
    ensures |r| == |xs| + 1
    ensures forall y :: y in r <==> y == x || y in xs
    ensures Ascending(xs, key) ==> Ascending(r, key)
    ensures Distinct(xs) && x !in xs ==> Distinct(r)
  {
    if |xs| == 0 then [x]
    else
      assert xs[0] in xs;
      if key[x] <= key[xs[0]] then
        AscendingCons(x, xs, key);
        [x] + xs
      else
        var tail := InsertByKey(xs[1..], x, key);
        assert forall y :: y in xs <==> y == xs[0] || y in xs[1..];
        assert Distinct(xs) ==> xs[0] !in xs[1..];
        AscendingTail(xs, key);
        AscendingCons(xs[0], tail, key);
        [xs[0]] + tail
  }

  /** The tail of an ascending sequence is ascending and bounded below by its head. */
  lemma AscendingTail(xs: seq<int>, key: map<int, int>)
    requires |xs| > 0
    ensures Ascending(xs, key) ==> Ascending(xs[1..], key) && forall y :: y in xs[1..] ==> key[xs[0]] <= key[y]
  {
    if Ascending(xs, key) {
      forall y | y in xs[1..] ensures key[xs[0]] <= key[y] {
        var k :| 0 <= k < |xs[1..]| && xs[1..][k] == y;
        assert xs[k + 1] == y;
      }
    }
  }

  /** Putting an element with the least key in front keeps a sequence ascending. */
  lemma AscendingCons(a: int, xs: seq<int>, key: map<int, int>)
    requires a in key
    ensures Ascending(xs, key) && (forall y :: y in xs ==> key[a] <= key[y]) ==> Ascending([a] + xs, key)
  {
    if Ascending(xs, key) && (forall y :: y in xs ==> key[a] <= key[y]) {
      forall i, j | 0 <= i < j < |[a] + xs| ensures key[([a] + xs)[i]] <= key[([a] + xs)[j]] {
        if i == 0 {
          assert ([a] + xs)[j] == xs[j - 1] && xs[j - 1] in xs;
        } else {
          assert ([a] + xs)[i] == xs[i - 1] && ([a] + xs)[j] == xs[j - 1];
        }
      }
    }
  }

  /** The ids of `ids` in ascending key order; ties come out in an unspecified order. */
  method SortByKey(ids: set<int>, key: map<int, int>) returns (r: seq<int>)
    requires ids <= key.Keys
    ensures Distinct(r) && forall x :: x in r <==> x in ids
    ensures Ascending(r, key)
  {
    r := [];
    var rest := ids;
    while rest != {}
      invariant rest <= ids
      invariant Distinct(r) && forall x :: x in r <==> x in ids && x !in rest
      invariant Ascending(r, key)
      decreases |rest|
    {
      NonEmptyHasElement(rest);
      var x :| x in rest;
      r := InsertByKey(r, x, key);
      rest := rest - {x};
    }
  }

  lemma NonEmptyHasElement(s: set<int>)
    requires s != {}
    ensures exists x :: x in s
  {
    assert (forall x :: x !in s) ==> s == {};
  }

  // ---------------------------------------------------------------------
  // Sessions

  /** `create_chat_session`: a missing user id violates `NOT NULL`; a missing title takes the column default. */
  function CreateChatSession(db: Db, id: SessionId, userId: Option<int>, title: Option<string>, now: int): (r: Reply<SessionId>)
    requires id !in db.sessions
    ensures r.Ok? <==> userId.Some?
    ensures r.Error? ==> r.status == 500
    ensures r.Ok? ==> && r.value == id && id in r.db.sessions
                      && r.db.sessions[id].userId == userId.value
                      && r.db.sessions[id].title == (if title.Some? then title.value else DefaultTitle)
                      && r.db.sessions[id].createdAt == now
    ensures r.Ok? ==> r.db.sessions - {id} == db.sessions && r.db.messages == db.messages && r.db.images == db.images
    ensures r.Ok? && Consistent(db) ==> Consistent(r.db)
  {
    if userId.None? then Error(500)
    else Ok(db.(sessions := db.sessions[id := Session(userId.value, title.GetOr(DefaultTitle), now)]), id)
  }

  /** `get_chat_sessions`: exactly the user's sessions, newest first. */
  method GetChatSessions(db: Db, userId: int) returns (r: seq<SessionId>)
    ensures Distinct(r)
    ensures forall id :: id in r <==> id in db.sessions && db.sessions[id].userId == userId
    ensures forall i :: 0 <= i < |r| ==> r[i] in db.sessions
    ensures forall i, j :: 0 <= i < j < |r| ==> db.sessions[r[i]].createdAt >= db.sessions[r[j]].createdAt
  {
    var key := map id | id in db.sessions && db.sessions[id].userId == userId :: -db.sessions[id].createdAt;
    r := SortByKey(key.Keys, key);
  }

  /** `update_chat_session`: an unknown session gives `None`; only a non-empty title overwrites. */
  function UpdateChatSession(db: Db, chatId: SessionId, title: Option<string>): (r: (Db, Option<Session>))
    ensures r.1.None? <==> chatId !in db.sessions
    ensures r.1.None? ==> r.0 == db
    ensures r.1.Some? ==> && chatId in r.0.sessions && r.0.sessions[chatId] == r.1.value
                          && r.1.value.userId == db.sessions[chatId].userId
                          && r.1.value.createdAt == db.sessions[chatId].createdAt
    ensures r.1.Some? && title.Some? && title.value != "" ==> r.1.value.title == title.value
    ensures r.1.Some? && (title.None? || title.value == "") ==> r.0 == db
    ensures r.0.sessions - {chatId} == db.sessions - {chatId} && r.0.sessions.Keys == db.sessions.Keys
    ensures r.0.messages == db.messages && r.0.images == db.images
  {
    if chatId !in db.sessions then (db, None)
    else
      var old_ := db.sessions[chatId];
      var s := if title.Some? && title.value != "" then old_.(title := title.value) else old_;
      (db.(sessions := db.sessions[chatId := s]), Some(s))
  }

  /**
   `delete_chat_session`: `False` for an unknown session; otherwise the
   session goes, and the foreign key's `ON DELETE CASCADE` removes its
   messages with it.
   */
  function DeleteChatSession(db: Db, chatId: SessionId): (r: (Db, bool))
    ensures r.1 <==> chatId in db.sessions
    ensures !r.1 ==> r.0 == db
    ensures r.1 ==> r.0.sessions == db.sessions - {chatId}
    ensures r.1 ==> forall m :: m in r.0.messages <==> m in db.messages && db.messages[m].chatId != chatId
    ensures forall m :: m in r.0.messages ==> m in db.messages && r.0.messages[m] == db.messages[m]
    ensures r.0.images == db.images
    ensures Consistent(db) ==> Consistent(r.0)
  {
    if chatId !in db.sessions then (db, false)
    else
      var kept := map m | m in db.messages && db.messages[m].chatId != chatId :: db.messages[m];
      (Db(db.sessions - {chatId}, kept, db.images), true)
  }

  // ---------------------------------------------------------------------
  // Messages

  /**
   `add_message_to_chat`: the supplied timestamp becomes `created_at`,
   otherwise the column default (the current time) does; a session that
   does not exist violates the foreign key.
   */
  function AddMessageToChat(db: Db, id: MessageId, chatId: SessionId, role: string, content: string,
                            timestamp: Option<int>, now: int): (r: Reply<MessageId>)
    requires id !in db.messages
    ensures r.Ok? <==> chatId in db.sessions
    ensures r.Error? ==> r.status == 500
    ensures r.Ok? ==> && r.value == id && id in r.db.messages
                      && r.db.messages[id].chatId == chatId
                      && r.db.messages[id].role == role
                      && r.db.messages[id].content == content
                      && r.db.messages[id].createdAt == (if timestamp.Some? then timestamp.value else now)
    ensures r.Ok? ==> r.db.messages - {id} == db.messages && r.db.sessions == db.sessions && r.db.images == db.images
    ensures r.Ok? && Consistent(db) ==> Consistent(r.db)
  {
    if chatId !in db.sessions then Error(500)
    else Ok(db.(messages := db.messages[id := Message(chatId, role, content, timestamp.GetOr(now))]), id)
  }

  /** A history listing: the session's messages, each once, oldest first. */
  ghost predicate IsHistory(db: Db, chatId: SessionId, xs: seq<MessageId>) {
    && Distinct(xs)
    && (forall m :: m in xs <==> m in db.messages && db.messages[m].chatId == chatId)
    && (forall i :: 0 <= i < |xs| ==> xs[i] in db.messages && db.messages[xs[i]].chatId == chatId)
    && (forall i, j :: 0 <= i < j < |xs| ==> db.messages[xs[i]].createdAt <= db.messages[xs[j]].createdAt)
  }

  /** `get_chat_history`: `None` for an unknown session, else the session and its messages oldest first. */
  method GetChatHistory(db: Db, chatId: SessionId) returns (r: Option<(Session, seq<MessageId>)>)
    ensures r.None? <==> chatId !in db.sessions
    ensures r.Some? ==> r.value.0 == db.sessions[chatId] && IsHistory(db, chatId, r.value.1)
  {
    if chatId !in db.sessions {
      return None;
    }
    var xs := MessagesOf(db, chatId);
    r := Some((db.sessions[chatId], xs));
  }

  /** The session's messages ordered by `created_at` ascending (the query inside `get_chat_history`). */
  method MessagesOf(db: Db, chatId: SessionId) returns (r: seq<MessageId>)
    ensures IsHistory(db, chatId, r)
  {
    var key := map m | m in db.messages && db.messages[m].chatId == chatId :: db.messages[m].createdAt;
    r := SortByKey(key.Keys, key);
  }

  /** `delete_message`: `False` when the message does not exist. */
  function DeleteMessage(db: Db, id: MessageId): (r: (Db, bool))
    ensures r.1 <==> id in db.messages
    ensures r.0.messages == db.messages - {id}
    ensures r.0.sessions == db.sessions && r.0.images == db.images
    ensures Consistent(db) ==> Consistent(r.0)
  {
    (db.(messages := db.messages - {id}), id in db.messages)
  }

  /** The session has at least one message. */
  predicate HasMessages(db: Db, chatId: SessionId) {
    exists m :: m in db.messages && db.messages[m].chatId == chatId
  }

  /** `delete_all_messages`: `False` when the session has no messages, else all of them go. */
  function DeleteAllMessages(db: Db, chatId: SessionId): (r: (Db, bool))
    ensures r.1 <==> HasMessages(db, chatId)
    ensures !r.1 ==> r.0 == db
    ensures !HasMessages(r.0, chatId)
    ensures forall m :: m in r.0.messages <==> m in db.messages && db.messages[m].chatId != chatId
    ensures forall m :: m in r.0.messages ==> r.0.messages[m] == db.messages[m]
    ensures r.0.sessions == db.sessions && r.0.images == db.images
    ensures Consistent(db) ==> Consistent(r.0)
  {
    if !HasMessages(db, chatId) then (db, false)
    else (db.(messages := map m | m in db.messages && db.messages[m].chatId != chatId :: db.messages[m]), true)
  }

  // ---------------------------------------------------------------------
  // Images

  /** `create_image`: a database error is rolled back and reported as 500. */
  function CreateImage(db: Db, id: ImageId, userId: int, url: string, description: Option<string>,
                       now: int, dbError: bool): (r: Reply<ImageId>)
    requires id !in db.images
    ensures r.Error? <==> dbError
    ensures r.Error? ==> r.status == 500
    ensures r.Ok? ==> && r.value == id && id in r.db.images
                      && r.db.images[id] == Image(userId, url, description, now)
                      && r.db.images - {id} == db.images
                      && r.db.sessions == db.sessions && r.db.messages == db.messages
  {
    if dbError then Error(500)
    else Ok(db.(images := db.images[id := Image(userId, url, description, now)]), id)
  }

  /** The image exists and belongs to `userId`: the filter both image writes use. */
  predicate OwnsImage(db: Db, id: ImageId, userId: int) {
    id in db.images && db.images[id].userId == userId
  }

  /** `update_image_description`: only the owner's image is changed; otherwise 404 and nothing is written. */
  function UpdateImageDescription(db: Db, id: ImageId, userId: int, description: Option<string>): (r: Reply<Image>)
    ensures r.Ok? <==> OwnsImage(db, id, userId)
    ensures r.Error? ==> r.status == 404
    ensures r.Ok? ==> && id in r.db.images && r.db.images[id] == r.value
                      && r.value == db.images[id].(description := description)
                      && r.db.images - {id} == db.images - {id}
                      && r.db.sessions == db.sessions && r.db.messages == db.messages
  {
    if !OwnsImage(db, id, userId) then Error(404)
    else
      var img := db.images[id].(description := description);
      Ok(db.(images := db.images[id := img]), img)
  }

  /** `delete_image`: only the owner's image is removed and returned; otherwise 404. */
  function DeleteImage(db: Db, id: ImageId, userId: int): (r: Reply<Image>)
    ensures r.Ok? <==> OwnsImage(db, id, userId)
    ensures r.Error? ==> r.status == 404
    ensures r.Ok? ==> && r.value == db.images[id] && r.db.images == db.images - {id}
                      && r.db.sessions == db.sessions && r.db.messages == db.messages
  {
    if !OwnsImage(db, id, userId) then Error(404)
    else Ok(db.(images := db.images - {id}), db.images[id])
  }

  /** `get_images_by_user`: exactly the user's images, newest first. */
  method GetImagesByUser(db: Db, userId: int) returns (r: seq<ImageId>)
    ensures Distinct(r)
    ensures forall id :: id in r <==> id in db.images && db.images[id].userId == userId
    ensures forall i :: 0 <= i < |r| ==> r[i] in db.images
    ensures forall i, j :: 0 <= i < j < |r| ==> db.images[r[i]].createdAt >= db.images[r[j]].createdAt
  {
    var key := map id | id in db.images && db.images[id].userId == userId :: -db.images[id].createdAt;
    r := SortByKey(key.Keys, key);
  }

  /** `get_all_images`: every image, newest first. */
  method GetAllImages(db: Db) returns (r: seq<ImageId>)
    ensures Distinct(r)
    ensures forall id :: id in r <==> id in db.images
    ensures forall i :: 0 <= i < |r| ==> r[i] in db.images
    ensures forall i, j :: 0 <= i < j < |r| ==> db.images[r[i]].createdAt >= db.images[r[j]].createdAt
  {
    var key := map id | id in db.images :: -db.images[id].createdAt;
    r := SortByKey(key.Keys, key);
  }

  // ---------------------------------------------------------------------
  // Properties

  /** A message added to a session shows up in every history listing of that session. */
  lemma AddedMessageIsListed(db: Db, id: MessageId, chatId: SessionId, role: string, content: string,
                             timestamp: Option<int>, now: int, xs: seq<MessageId>)
    requires id !in db.messages
    requires AddMessageToChat(db, id, chatId, role, content, timestamp, now).Ok?
    requires IsHistory(AddMessageToChat(db, id, chatId, role, content, timestamp, now).db, chatId, xs)
    ensures id in xs
  {
  }

  /** Deleting a session leaves no history behind: its messages are gone from every listing. */
  lemma DeletedSessionHasNoMessages(db: Db, chatId: SessionId)
    requires chatId in db.sessions
    ensures !HasMessages(DeleteChatSession(db, chatId).0, chatId)
  {
  }

  /** Clearing a session twice: the second call finds nothing and changes nothing. */
  lemma DeleteAllMessagesTwice(db: Db, chatId: SessionId)
    ensures var once := DeleteAllMessages(db, chatId).0;
      DeleteAllMessages(once, chatId) == (once, false)
  {
  }

  /** Renaming twice with the same title is the same as renaming once. */
  lemma UpdateChatSessionIdempotent(db: Db, chatId: SessionId, title: Option<string>)
    ensures var once := UpdateChatSession(db, chatId, title);
      UpdateChatSession(once.0, chatId, title) == once
  {
    var once := UpdateChatSession(db, chatId, title);
    if chatId in db.sessions {
      var s := once.1.value;
      assert once.0.sessions[chatId := s] == once.0.sessions;
    }
  }

  /** Nobody but the owner can change or remove an image. */
  lemma ImageWritesNeedOwner(db: Db, id: ImageId, owner: int, other: int, description: Option<string>)
    requires id in db.images && db.images[id].userId == owner && other != owner
    ensures UpdateImageDescription(db, id, other, description) == Error(404)
    ensures DeleteImage(db, id, other) == Error(404)
    ensures UpdateImageDescription(db, id, owner, description).Ok?
    ensures DeleteImage(db, id, owner).Ok?
  {
  }
}

=== FILE: email_templates.dfy ===
/**
 The email service's template filling (`load_templates`): the template
 text, already read from disk, has each keyword argument's `{{name}}`
 placeholder replaced by the argument's value, one argument after another
 in the order they were passed.
 */
module EmailTemplates {
  import opened Text

  /** `f"{{{{{k}}}}}"`: the placeholder for keyword `k`. */
  function Placeholder(k: string): (r: string)
    ensures |r| == |k| + 4 && r[0] == '{' && r[|r| - 1] == '}'
  {
    "{{" + k + "}}"
  }

  /** Keyword arguments in call order, values already passed through `str`. */
  type Kwargs = seq<(string, string)>

  /** The substitution loop: `html = html.replace(placeholder, value)` for each argument in turn. */
  function Render(html: string, kwargs: Kwargs): (r: string)
    ensures kwargs == [] ==> r == html
    decreases |kwargs|
  {
    if |kwargs| == 0 then html
    else Render(ReplaceAll(html, Placeholder(kwargs[0].0), kwargs[0].1), kwargs[1..])
  }

  /**
   One argument: the template is cut at every occurrence of the placeholder
   and the pieces are glued back with the value in between.
   */
  lemma RenderOne(html: string, k: string, v: string)
    ensures Render(html, [(k, v)]) == Join(SplitOn(html, Placeholder(k)), v)
  {
    ReplaceAllIsSplitJoin(html, Placeholder(k), v);
    assert [(k, v)][1..] == [];
  }

  /** A template mentioning none of the arguments' placeholders comes back verbatim. */
  lemma {:induction false} RenderWithoutPlaceholders(html: string, kwargs: Kwargs)
    requires forall i :: 0 <= i < |kwargs| ==> !Contains(html, Placeholder(kwargs[i].0))
    ensures Render(html, kwargs) == html
    decreases |kwargs|
  {
    if |kwargs| > 0 {
      ReplaceAllAbsent(html, Placeholder(kwargs[0].0), kwargs[0].1);
      assert forall i :: 0 <= i < |kwargs[1..]| ==> kwargs[1..][i] == kwargs[i + 1];
      RenderWithoutPlaceholders(html, kwargs[1..]);
    }
  }

  /** An argument whose placeholder is absent can be dropped without changing the result. */
  lemma UnusedArgumentIsIgnored(html: string, k: string, v: string, rest: Kwargs)
    requires !Contains(html, Placeholder(k))
    ensures Render(html, [(k, v)] + rest) == Render(html, rest)
  {
    ReplaceAllAbsent(html, Placeholder(k), v);
    assert ([(k, v)] + rest)[1..] == rest;
  }

  /**
   Substitution is sequential: a value that itself holds the placeholder of
   a later argument is filled in too.
   */
  lemma LaterArgumentFillsEarlierValue()
    ensures Render("{{a}}", [("a", "{{b}}"), ("b", "x")]) == "x"
  {
    var first := [("a", "{{b}}"), ("b", "x")];
    assert Placeholder(first[0].0) == "{{a}}";
    ReplaceWhole("{{a}}", "{{b}}");
    assert Render("{{a}}", first) == Render("{{b}}", first[1..]);
    assert first[1..] == [("b", "x")];
    assert Placeholder("b") == "{{b}}";
    ReplaceWhole("{{b}}", "x");
    assert Render("{{b}}", [("b", "x")]) == Render("x", []);
  }

  /** The same arguments in the other order leave the inner placeholder standing: order matters. */
  lemma ArgumentOrderMatters()
    ensures Render("{{a}}", [("b", "x"), ("a", "{{b}}")]) == "{{b}}"
  {
    var second := [("b", "x"), ("a", "{{b}}")];
    assert Placeholder(second[0].0) == "{{b}}";
    AbsentCharExcludes("{{a}}", "{{b}}", 'b');
    ReplaceAllAbsent("{{a}}", "{{b}}", "x");
    assert Render("{{a}}", second) == Render("{{a}}", second[1..]);
    assert second[1..] == [("a", "{{b}}")];
    assert Placeholder("a") == "{{a}}";
    ReplaceWhole("{{a}}", "{{b}}");
    assert Render("{{a}}", [("a", "{{b}}")]) == Render("{{b}}", []);
  }

  /** Replacing a whole string by something is that something. */
  lemma ReplaceWhole(s: string, v: string)
    requires |s| > 0
    ensures ReplaceAll(s, s, v) == v
  {
    assert s[|s|..] == [];
  }
}

=== FILE: fast_store.dfy ===
/**
 The fast key/expiry store (Redis) as a value: a map from key to an entry
 holding an integer value and an optional absolute expiry time, in whole
 seconds. A key whose expiry time has been reached is absent, exactly as
 Redis reports it; the map may still hold the stale entry.
 */
module FastStore {
  import opened Wrappers

  datatype Entry = Entry(value: int, expiresAt: Option<int>)

  type Store<K> = map<K, Entry>

  /** An entry is still alive at time `now`. */
  predicate Alive(e: Entry, now: int) {
    e.expiresAt.None? || now < e.expiresAt.value
  }

  /** `EXISTS key` */
  predicate Exists<K>(s: Store<K>, k: K, now: int) {
    k in s && Alive(s[k], now)
  }

  /** `GET key` */
  function Get<K>(s: Store<K>, k: K, now: int): (r: Option<int>)
    ensures r.Some? <==> Exists(s, k, now)
    ensures r.Some? ==> r.value == s[k].value
  {
    if Exists(s, k, now) then Some(s[k].value) else None
  }

  /**
   `INCR key`: an absent key counts from 0 and gets no expiry; a live key
   keeps its expiry. Returns the new store and the incremented value.
   */
  function Incr<K>(s: Store<K>, k: K, now: int): (r: (Store<K>, int))
    ensures r.1 == Get(s, k, now).GetOr(0) + 1
    ensures k in r.0 && r.0[k].value == r.1 && Alive(r.0[k], now)
    ensures Exists(s, k, now) ==> r.0[k].expiresAt == s[k].expiresAt
    ensures !Exists(s, k, now) ==> r.0[k].expiresAt == None
    ensures r.0 - {k} == s - {k}
  {
    if Exists(s, k, now) then
      (s[k := Entry(s[k].value + 1, s[k].expiresAt)], s[k].value + 1)
    else
      (s[k := Entry(1, None)], 1)
  }

  /** `EXPIRE key seconds`: only a live key gets the new expiry. */
  function Expire<K>(s: Store<K>, k: K, now: int, seconds: int): (r: Store<K>)
    ensures Exists(s, k, now) ==> k in r && r[k] == Entry(s[k].value, Some(now + seconds))
    ensures !Exists(s, k, now) ==> r == s
    ensures r - {k} == s - {k}
  {
    if Exists(s, k, now) then s[k := Entry(s[k].value, Some(now + seconds))] else s
  }

  /** `SET key value EX seconds` (Redis rejects a non-positive expiry). */
  function SetEx<K>(s: Store<K>, k: K, value: int, now: int, seconds: int): (r: Store<K>)
    requires seconds > 0
    ensures k in r && r[k] == Entry(value, Some(now + seconds))
    ensures Alive(r[k], now)
    ensures r - {k} == s - {k}
  {
    s[k := Entry(value, Some(now + seconds))]
  }

  /** A key written with a positive expiry exists until exactly that many seconds later. */
  lemma SetExLifetime<K>(s: Store<K>, k: K, value: int, now: int, seconds: int, t: int)
    requires seconds > 0
    ensures Exists(SetEx(s, k, value, now, seconds), k, t) <==> t < now + seconds
  {
  }
}

=== FILE: flush.dfy ===
/**
 The buffered flushing of a streamed assistant reply, shared by the mounted
 endpoint (`routers/chat.py`), the helper module (`sockets/ws_helpers.py`)
 and the registry's `broadcast_stream`. The three differ only in the
 length threshold, the idle threshold and whether chunks without content
 are skipped, so the rule is written once over a `Policy`.

 Stream times are integers in microseconds, the resolution of the
 source's datetimes, so the thresholds 1.0 s and 1.5 s are exact.
 */
module Flush {
  import opened Wrappers
  import opened Text

  /** When to flush: length threshold, idle threshold (exclusive) and whether empty chunks are skipped. */
  datatype Policy = Policy(minLength: nat, maxIdle: int, skipEmpty: bool)

  /** `routers/chat.py`: 10 characters or more than 1.0 s. */
  const RouterPolicy := Policy(10, 1_000_000, true)
  /** `sockets/ws_helpers.py`: 80 characters or more than 1.5 s. */
  const HelperPolicy := Policy(80, 1_500_000, true)

  /** `broadcast_stream`: 20 characters or more than `interval`; every yielded chunk is appended. */
  function FanoutPolicy(interval: int): (p: Policy)
    ensures p.minLength == 20 && p.maxIdle == interval && !p.skipEmpty
  {
    Policy(20, interval, false)
  }

  /** The sentence-ending marks; each is a single character. */
  const TerminalMarks: seq<char> := ['.', '!', '?', '…', '。', '！', '？']

  /** The buffer ends in one of the marks. */
  predicate EndsWithMark(buffer: string) {
    |buffer| > 0 && buffer[|buffer| - 1] in TerminalMarks
  }

  /** The test agrees with `any(buffer.endswith(p) for p in marks)`, since every mark is one character. */
  lemma EndsWithMarkIsEndswith(buffer: string)
    ensures EndsWithMark(buffer) <==> exists m :: m in TerminalMarks && EndsWith(buffer, [m])
  {
    if EndsWithMark(buffer) {
      assert buffer[|buffer| - 1..] == [buffer[|buffer| - 1]];
      assert EndsWith(buffer, [buffer[|buffer| - 1]]);
    }
    if exists m :: m in TerminalMarks && EndsWith(buffer, [m]) {
      var m :| m in TerminalMarks && EndsWith(buffer, [m]);
      assert buffer[|buffer| - 1..][0] == buffer[|buffer| - 1];
    }
  }

  predicate ShouldFlush(p: Policy, buffer: string, now: int, lastFlush: int) {
    EndsWithMark(buffer) || |buffer| >= p.minLength || now - lastFlush > p.maxIdle
  }

  /** One provider chunk: its delta content and the clock reading when it is handled. */
  datatype Chunk = Chunk(content: Option<string>, at: int)

  /** One assistant frame: the text sent and its timestamp. */
  datatype Frame = Frame(content: string, at: int)

  /** The loop's variables: buffer, accumulated reply, time of the last flush, frames sent so far. */
  datatype State = State(buffer: string, reply: string, lastFlush: int, sent: seq<Frame>)

  /** The state before the first chunk, with the last flush set at `start`. */
  function Initial(start: int): State {
    State("", "", start, [])
  }

  /** The text a chunk contributes (a chunk without content contributes nothing). */
  function TextOf(c: Chunk): string {
    c.content.GetOr("")
  }

  /** The concatenated contents of a frame sequence. */
  function Contents(frames: seq<Frame>): string {
    if |frames| == 0 then "" else Contents(frames[..|frames| - 1]) + frames[|frames| - 1].content
  }

  /** The concatenated texts of a chunk sequence. */
  function Texts(chunks: seq<Chunk>): string {
    if |chunks| == 0 then "" else TextOf(chunks[0]) + Texts(chunks[1..])
  }

  /** Every frame carries text. */
  predicate NoEmptyFrame(frames: seq<Frame>) {
    forall i :: 0 <= i < |frames| ==> frames[i].content != ""
  }

  /** Everything the loop has taken in so far: the frames sent, then the buffer. */
  function Spelled(st: State): string {
    Contents(st.sent) + st.buffer
  }

  /** The buffer is empty or holds text that triggers no flush by content alone. */
  predicate Settled(p: Policy, st: State) {
    st.buffer == "" || (!EndsWithMark(st.buffer) && |st.buffer| < p.minLength)
  }

  /** One iteration of the loop. */
  function Step(p: Policy, st: State, c: Chunk): (r: State)
    ensures r.reply == st.reply + TextOf(c)
    ensures Spelled(r) == Spelled(st) + TextOf(c)
    ensures Settled(p, st) ==> Settled(p, r)
    ensures r.buffer != "" && r.sent == st.sent ==> c.at - r.lastFlush <= p.maxIdle || (p.skipEmpty && TextOf(c) == "")
    ensures |st.sent| <= |r.sent| <= |st.sent| + 1 && r.sent[..|st.sent|] == st.sent
    ensures |r.sent| > |st.sent| ==>
      && r.buffer == "" && r.lastFlush == c.at
      && r.sent[|st.sent|] == Frame(st.buffer + TextOf(c), c.at)
      && ShouldFlush(p, st.buffer + TextOf(c), c.at, st.lastFlush)
    ensures p.skipEmpty && NoEmptyFrame(st.sent) ==> NoEmptyFrame(r.sent)
  {
    var text := TextOf(c);
    if p.skipEmpty && text == "" then
      assert st.sent[..|st.sent|] == st.sent;
      st
    else
      var buffer := st.buffer + text;
      if ShouldFlush(p, buffer, c.at, st.lastFlush) then
        var sent := st.sent + [Frame(buffer, c.at)];
        assert sent[..|sent| - 1] == st.sent;
        State("", st.reply + text, c.at, sent)
      else
        assert st.sent[..|st.sent|] == st.sent;
        State(buffer, st.reply + text, st.lastFlush, st.sent)
  }

  /** The whole loop over a chunk sequence. */
  function Run(p: Policy, st: State, chunks: seq<Chunk>): State
    decreases |chunks|
  {
    if |chunks| == 0 then st else Run(p, Step(p, st, chunks[0]), chunks[1..])
  }

  /** The accumulated reply is the concatenation of the chunk texts. */
  lemma {:induction false} RunReply(p: Policy, st: State, chunks: seq<Chunk>)
    ensures Run(p, st, chunks).reply == st.reply + Texts(chunks)
    decreases |chunks|
  {
    if |chunks| > 0 {
      RunReply(p, Step(p, st, chunks[0]), chunks[1..]);
    }
  }

  /** Frames already sent stay sent: the run only appends. */
  lemma {:induction false} RunExtendsSent(p: Policy, st: State, chunks: seq<Chunk>)
    ensures var r := Run(p, st, chunks); |st.sent| <= |r.sent| && r.sent[..|st.sent|] == st.sent
    decreases |chunks|
  {
    if |chunks| > 0 {
      var mid := Step(p, st, chunks[0]);
      RunExtendsSent(p, mid, chunks[1..]);
      var r := Run(p, mid, chunks[1..]);
      assert r.sent[..|st.sent|] == r.sent[..|mid.sent|][..|st.sent|];
    }
  }

  /** Nothing is lost or duplicated: the frames sent and the final buffer spell out exactly the chunk texts. */
  lemma {:induction false} RunPreservesText(p: Policy, st: State, chunks: seq<Chunk>)
    ensures Spelled(Run(p, st, chunks)) == Spelled(st) + Texts(chunks)
    decreases |chunks|
  {
    if |chunks| > 0 {
      var c := chunks[0];
      var mid := Step(p, st, c);
      assert Run(p, st, chunks) == Run(p, mid, chunks[1..]);
      RunPreservesText(p, mid, chunks[1..]);
      var x, y, z := Spelled(st), TextOf(c), Texts(chunks[1..]);
      assert Texts(chunks) == y + z;
      assert Spelled(mid) == x + y;
      assert (x + y) + z == x + (y + z);
    }
  }
  /** After any run from a settled state the leftover buffer is settled. */
  lemma {:induction false} RunSettles(p: Policy, st: State, chunks: seq<Chunk>)
    requires Settled(p, st)
    ensures Settled(p, Run(p, st, chunks))
    decreases |chunks|
  {
    if |chunks| > 0 {
      RunSettles(p, Step(p, st, chunks[0]), chunks[1..]);
    }
  }

  /** Where empty chunks are skipped, every frame sent carries text. */
  lemma {:induction false} RunFramesNonEmpty(p: Policy, st: State, chunks: seq<Chunk>)
    requires p.skipEmpty && NoEmptyFrame(st.sent)
    ensures NoEmptyFrame(Run(p, st, chunks).sent)
    decreases |chunks|
  {
    if |chunks| > 0 {
      RunFramesNonEmpty(p, Step(p, st, chunks[0]), chunks[1..]);
    }
  }

  /** `broadcast_stream` does not skip empty chunks: an empty chunk after the interval flushes an empty frame. */
  lemma FanoutMaySendEmptyFrame()
    ensures Run(FanoutPolicy(500_000), Initial(0), [Chunk(Some(""), 600_000)]).sent == [Frame("", 600_000)]
  {
  }

  /** `buffer.strip()` is truthy: the buffer holds a non-space character. */
  function SendsTail(buffer: string): (r: bool)
    ensures r <==> !Blank(buffer, Python)
  {
    PyStrip(buffer) != ""
  }

  /**
   The end of a stream: the frames sent, the accumulated reply, and the
   whitespace-only tail that was not sent (empty when the tail was sent).
   */
  datatype Finished = Finished(frames: seq<Frame>, reply: string, unsent: string)

  /** Run the loop from `start`, then send the tail at `endAt` when it is not blank. */
  function Streamed(p: Policy, start: int, chunks: seq<Chunk>, endAt: int): (f: Finished)
    ensures f.reply == Texts(chunks)
    ensures Contents(f.frames) + f.unsent == f.reply
    ensures Blank(f.unsent, Python)
    ensures |f.frames| >= |Run(p, Initial(start), chunks).sent|
    ensures f.frames[..|Run(p, Initial(start), chunks).sent|] == Run(p, Initial(start), chunks).sent
  {
    var r := Run(p, Initial(start), chunks);
    RunReply(p, Initial(start), chunks);
    RunPreservesText(p, Initial(start), chunks);
    if SendsTail(r.buffer) then
      var frames := r.sent + [Frame(r.buffer, endAt)];
      assert frames[..|r.sent|] == r.sent;
      assert frames[..|frames| - 1] == r.sent;
      Finished(frames, r.reply, "")
    else
      assert r.sent[..|r.sent|] == r.sent;
      Finished(r.sent, r.reply, r.buffer)
  }

  lemma FirstChunkFlushesOnMark()
    ensures Step(RouterPolicy, Initial(0), Chunk(Some("Hi."), 1)) == State("", "Hi.", 1, [Frame("Hi.", 1)])
  {
    assert "" + "Hi." == "Hi.";
    assert EndsWithMark("Hi.");
  }

  lemma SpaceChunkStaysBuffered()
    ensures Step(RouterPolicy, State("", "Hi.", 1, [Frame("Hi.", 1)]), Chunk(Some(" "), 2)) == State(" ", "Hi. ", 1, [Frame("Hi.", 1)])
  {
  }

  /** A reply whose last chunk leaves only spaces in the buffer is saved with text no frame carried. */
  lemma BlankTailIsSavedNotSent()
    ensures var f := Streamed(RouterPolicy, 0, [Chunk(Some("Hi."), 1), Chunk(Some(" "), 2)], 3);
      f.frames == [Frame("Hi.", 1)] && f.reply == "Hi. " && f.unsent == " "
  {
    var c0 := Chunk(Some("Hi."), 1);
    var c1 := Chunk(Some(" "), 2);
    var s1 := State("", "Hi.", 1, [Frame("Hi.", 1)]);
    var s2 := State(" ", "Hi. ", 1, [Frame("Hi.", 1)]);
    FirstChunkFlushesOnMark();
    SpaceChunkStaysBuffered();
    assert Run(RouterPolicy, s2, []) == s2;
    assert Run(RouterPolicy, s1, [c1]) == s2;
    assert [c0, c1][1..] == [c1];
    assert Run(RouterPolicy, Initial(0), [c0, c1]) == s2;
    assert !SendsTail(" ") by {
      assert Blank(" ", Python);
    }
  }
}

=== FILE: password_strength.dfy ===
/**
 The sign-up form's password rules (`components/common/PasswordStrength.jsx`):
 four tests, each shown ticked or not, and the password accepted only when
 all four pass. JavaScript measures a string in UTF-16 code units and the
 character classes are ASCII ranges without the `u` flag.
 */
module PasswordStrength {

  /** The characters the fourth rule accepts. */
  const Specials: set<char> := {'!', '@', '#', '$', '%', '^', '&', '*', '(', ')', ',', '.', '?', '"', ':', '{', '}', '|', '<', '>'}

  /** UTF-16 code units of one character: two above the Basic Multilingual Plane. */
  function Units(c: char): nat {
    if c as int > 0xFFFF then 2 else 1
  }

  /** `pw.length`: the number of UTF-16 code units. */
  function Utf16Length(s: string): (n: nat)
    ensures |s| <= n <= 2 * |s|
  {
    if |s| == 0 then 0 else Units(s[0]) + Utf16Length(s[1..])
  }

  predicate IsUpper(c: char) { 'A' <= c <= 'Z' }
  predicate IsDigit(c: char) { '0' <= c <= '9' }
  predicate IsSpecial(c: char) { c in Specials }

  /** `/[A-Z]/.test(pw)` and its siblings: some character is in the class. */
  predicate HasUpper(pw: string) { exists i :: 0 <= i < |pw| && IsUpper(pw[i]) }
  predicate HasDigit(pw: string) { exists i :: 0 <= i < |pw| && IsDigit(pw[i]) }
  predicate HasSpecial(pw: string) { exists i :: 0 <= i < |pw| && IsSpecial(pw[i]) }

  /** The four rules' verdicts, in display order. */
  function Results(pw: string): (r: seq<bool>)
    ensures |r| == 4
    ensures r[0] <==> Utf16Length(pw) >= 8
    ensures r[1] <==> HasUpper(pw)
    ensures r[2] <==> HasDigit(pw)
    ensures r[3] <==> HasSpecial(pw)
  {
    [Utf16Length(pw) >= 8, HasUpper(pw), HasDigit(pw), HasSpecial(pw)]
  }

  /** `results.every(Boolean)`. */
  predicate IsValid(pw: string) {
    forall i :: 0 <= i < |Results(pw)| ==> Results(pw)[i]
  }

  /** A password is accepted exactly when it is eight code units long and has an upper-case letter, a digit and a special character. */
  lemma ValidIff(pw: string)
    ensures IsValid(pw) <==> Utf16Length(pw) >= 8 && HasUpper(pw) && HasDigit(pw) && HasSpecial(pw)
  {
    var r := Results(pw);
    if Utf16Length(pw) >= 8 && HasUpper(pw) && HasDigit(pw) && HasSpecial(pw) {
      assert forall i :: 0 <= i < 4 ==> r[i];
    }
  }

  lemma {:induction false} Utf16LengthAppend(a: string, b: string)
    ensures Utf16Length(a + b) == Utf16Length(a) + Utf16Length(b)
    decreases |a|
  {
    if |a| > 0 {
      assert (a + b)[1..] == a[1..] + b;
      Utf16LengthAppend(a[1..], b);
    } else {
      assert a + b == b;
    }
  }

  /** Typing more never turns a tick off: every rule, and so acceptance, survives appending. */
  lemma ValidExtends(a: string, b: string)
    ensures forall i :: 0 <= i < 4 ==> Results(a)[i] ==> Results(a + b)[i]
    ensures IsValid(a) ==> IsValid(a + b)
  {
    Utf16LengthAppend(a, b);
    if HasUpper(a) { var i :| 0 <= i < |a| && IsUpper(a[i]); assert (a + b)[i] == a[i]; }
    if HasDigit(a) { var i :| 0 <= i < |a| && IsDigit(a[i]); assert (a + b)[i] == a[i]; }
    if HasSpecial(a) { var i :| 0 <= i < |a| && IsSpecial(a[i]); assert (a + b)[i] == a[i]; }
    ValidIff(a);
    ValidIff(a + b);
  }

  /**
   One pass over the password, as an alternative to the four tests: it
   counts code units and notes each class seen, and agrees with the rules.
   */
  method Check(pw: string) returns (units: nat, upper: bool, digit: bool, special: bool, valid: bool)
    ensures units == Utf16Length(pw)
    ensures upper == HasUpper(pw) && digit == HasDigit(pw) && special == HasSpecial(pw)
    ensures valid == IsValid(pw)
  {
    units, upper, digit, special := 0, false, false, false;
    var i := 0;
    while i < |pw|
      invariant 0 <= i <= |pw|
      invariant units + Utf16Length(pw[i..]) == Utf16Length(pw)
      invariant upper <==> exists j :: 0 <= j < i && IsUpper(pw[j])
      invariant digit <==> exists j :: 0 <= j < i && IsDigit(pw[j])
      invariant special <==> exists j :: 0 <= j < i && IsSpecial(pw[j])
    {
      assert pw[i..][1..] == pw[i + 1..];
      units := units + Units(pw[i]);
      upper := upper || IsUpper(pw[i]);
      digit := digit || IsDigit(pw[i]);
      special := special || IsSpecial(pw[i]);
      i := i + 1;
    }
    valid := units >= 8 && upper && digit && special;
    ValidIff(pw);
  }

  /** A password meeting all four rules. */
  lemma AcceptedExample()
    ensures IsValid("Abcdefg1!")
  {
    var pw := "Abcdefg1!";
    assert IsUpper(pw[0]) && IsDigit(pw[7]) && IsSpecial(pw[8]);
    ValidIff(pw);
  }

  /** Lower-case letters are not asked for: a password in capitals passes. */
  lemma LowerCaseNotRequired()
    ensures IsValid("ABCDEFG1!")
  {
    var pw := "ABCDEFG1!";
    assert IsUpper(pw[0]) && IsDigit(pw[7]) && IsSpecial(pw[8]);
    ValidIff(pw);
  }

  /** The classes are ASCII: an accented capital is not upper case. */
  lemma AccentedCapitalIsNotUpper()
    ensures !IsUpper('Á')
    ensures !IsValid("Ábcdefg1!")
  {
    var pw := "Ábcdefg1!";
    assert forall i :: 0 <= i < |pw| ==> pw[i] == 'Á' || 'a' <= pw[i] <= 'z' || '0' <= pw[i] <= '9' || pw[i] == '!';
    assert !Results(pw)[1];
  }

  /** Letters, digits, '-' and '_'. */
  predicate Plain(c: char) {
    'A' <= c <= 'Z' || 'a' <= c <= 'z' || '0' <= c <= '9' || c == '-' || c == '_'
  }

  /** None of them is a special character, so a password made only of them is refused. */
  lemma PlainIsRefused(pw: string)
    requires forall i :: 0 <= i < |pw| ==> Plain(pw[i])
    ensures !HasSpecial(pw) && !IsValid(pw)
  {
    assert !Results(pw)[3];
  }

  /** '-' and '_' do not count as special characters. */
  lemma DashIsNotSpecial()
    ensures !IsSpecial('-') && !IsSpecial('_')
    ensures !IsValid("Abcd" + "efg1-") && !IsValid("Abcd" + "efg1_")
  {
    PlainIsRefused("Abcd" + "efg1-");
    PlainIsRefused("Abcd" + "efg1_");
  }

  /** Length counts code units: four characters outside the Basic Multilingual Plane already meet the length rule. */
  lemma LengthCountsCodeUnits()
    ensures Utf16Length("😀😀😀😀") == 8 && |"😀😀😀😀"| == 4
    ensures Results("😀😀😀😀")[0]
  {
  }
}

=== FILE: rate_limiter.dfy ===
/**
 The identity service's request limiter (`rate_limiter.py`): a counter per
 bucket key in the fast store, with a fixed window that starts at the
 bucket's first request. Time is in whole seconds.
 */
module RateLimiter {
  import opened Wrappers
  import FS = FastStore

  /** `RATE_LIMITER`: requests admitted per window. */
  const RateLimit: int := 5
  /** `RATE_LIMIT_TTL`: window length in seconds. */
  const RateLimitTtl: int := 60

  /**
   Who is counted: the `"user"` field of the request's scope user when
   that dictionary is present and non-empty (Python's `None` when the field
   is missing), otherwise the client's host.
   */
  function IdentityOf(scopeUser: Option<map<string, string>>, host: string): (r: string)
    ensures scopeUser.None? || scopeUser.value == map[] ==> r == host
    ensures scopeUser.Some? && "user" in scopeUser.value ==> r == scopeUser.value["user"]
  {
    if scopeUser.Some? && scopeUser.value != map[] then
      if "user" in scopeUser.value then scopeUser.value["user"] else "None"
    else host
  }

  /** `f"rate_limit:{key_prefix}:{identity}"` */
  function BucketKey(prefix: string, identity: string): string {
    "rate_limit:" + prefix + ":" + identity
  }

  /** Under one prefix, different identities never share a bucket. */
  lemma BucketKeySeparatesIdentities(prefix: string, a: string, b: string)
    requires BucketKey(prefix, a) == BucketKey(prefix, b)
    ensures a == b
  {
    var head := "rate_limit:" + prefix + ":";
    assert BucketKey(prefix, a) == head + a && BucketKey(prefix, b) == head + b;
    assert a == (head + a)[|head|..];
    assert b == (head + b)[|head|..];
  }

  /** Prefixes may collide: a prefix holding `:` can share a bucket with another prefix. */
  lemma BucketKeyPrefixesCanCollide()
    ensures BucketKey("a:b", "c") == BucketKey("a", "b:c")
  {
  }

  datatype Verdict = Admitted | Rejected(status: int)

  /**
   One pass of the limiter, rejecting with `rejectStatus`. A count at the
   limit rejects without touching the store; otherwise the counter grows by
   one, and the window's expiry is set only when there was no count yet.
   */
  function LimitWith(s: FS.Store<string>, key: string, now: int, rejectStatus: int): (r: (FS.Store<string>, Verdict))
    ensures var count := FS.Get(s, key, now);
      && (r.1.Rejected? <==> count.Some? && count.value >= RateLimit)
      && (r.1.Rejected? ==> r.1.status == rejectStatus && r.0 == s)
      && (r.1.Admitted? ==> FS.Exists(r.0, key, now) && r.0[key].value == count.GetOr(0) + 1)
      && (r.1.Admitted? && count.None? ==> r.0[key].expiresAt == Some(now + RateLimitTtl))
      && (r.1.Admitted? && count.Some? ==> r.0[key].expiresAt == s[key].expiresAt)
      && r.0 - {key} == s - {key}
  {
    var count := FS.Get(s, key, now);
    if count.Some? && count.value >= RateLimit then (s, Rejected(rejectStatus))
    else
      var s1 := FS.Incr(s, key, now).0;
      (if count.None? then FS.Expire(s1, key, now, RateLimitTtl) else s1, Admitted)
  }

  /**
   The limiter as written: the 429 is raised inside the `try` whose
   `except Exception` turns every error into a 500.
   */
  function LimitAsWritten(s: FS.Store<string>, key: string, now: int): (r: (FS.Store<string>, Verdict))
    ensures r.1.Rejected? <==> FS.Exists(s, key, now) && s[key].value >= RateLimit
    ensures r.1.Rejected? ==> r.1.status == 500
  {
    LimitWith(s, key, now, 500)
  }

  /** The limiter as intended: an over-limit request is answered with 429. */
  function Limit(s: FS.Store<string>, key: string, now: int): (r: (FS.Store<string>, Verdict))
    ensures r.1.Rejected? <==> FS.Exists(s, key, now) && s[key].value >= RateLimit
    ensures r.1.Rejected? ==> r.1.status == 429 && r.0 == s
  {
    LimitWith(s, key, now, 429)
  }

  /** The client of the limiter as written never sees 429: an over-limit request surfaces as 500. */
  lemma OverLimitSurfacesAs500(s: FS.Store<string>, key: string, now: int)
    requires FS.Exists(s, key, now) && s[key].value >= RateLimit
    ensures LimitAsWritten(s, key, now).1 == Rejected(500)
    ensures Limit(s, key, now).1 == Rejected(429)
  {
  }

  /** Requests at the given times, one after another: the final store and how many were admitted. */
  function Requests(s: FS.Store<string>, key: string, times: seq<int>): (r: (FS.Store<string>, nat))
    ensures r.1 <= |times|
    decreases |times|
  {
    if |times| == 0 then (s, 0)
    else
      var step := Limit(s, key, times[0]);
      var rest := Requests(step.0, key, times[1..]);
      (rest.0, rest.1 + if step.1.Admitted? then 1 else 0)
  }

  /**
   Inside a live window holding count `c`, requests are admitted until the
   count reaches the limit; the window's expiry never moves.
   */
  lemma {:induction false} WindowFills(s: FS.Store<string>, key: string, c: int, e: int, times: seq<int>)
    requires key in s && s[key] == FS.Entry(c, Some(e)) && c >= 0
    requires forall i :: 0 <= i < |times| ==> times[i] < e
    ensures var r := Requests(s, key, times);
      && r.1 == (if |times| <= RateLimit - c then |times| else if RateLimit - c < 0 then 0 else RateLimit - c)
      && key in r.0 && r.0[key].expiresAt == Some(e)
    decreases |times|
  {
    if |times| > 0 {
      var step := Limit(s, key, times[0]);
      assert FS.Exists(s, key, times[0]);
      var c1 := if c >= RateLimit then c else c + 1;
      assert step.0[key] == FS.Entry(c1, Some(e));
      WindowFills(step.0, key, c1, e, times[1..]);
    }
  }

  /**
   From an empty bucket, at most `RATE_LIMITER` requests are admitted within
   the window opened by the first one: exactly `min(n, 5)` of `n` requests.
   */
  lemma {:induction false} AtMostFivePerWindow(s: FS.Store<string>, key: string, times: seq<int>)
    requires |times| > 0 && !FS.Exists(s, key, times[0])
    requires forall i :: 0 <= i < |times| ==> times[0] <= times[i] < times[0] + RateLimitTtl
    ensures Requests(s, key, times).1 == if |times| < RateLimit then |times| else RateLimit
  {
    var t0 := times[0];
    var step := Limit(s, key, t0);
    assert step.0[key] == FS.Entry(1, Some(t0 + RateLimitTtl));
    WindowFills(step.0, key, 1, t0 + RateLimitTtl, times[1..]);
  }
}

=== FILE: registry.dfy ===
/**
 The connection registry (`sockets/connection_manager.py`): for every chat,
 the users connected to it in insertion order, each with the list of that
 user's sockets. Each operation is atomic (the asyncio lock serialises
 them); sockets are identified by opaque integers.
 */
module Registry {
  import opened Wrappers

  type ChatId = string
  type UserId = int
  type SocketId = int

  /**
   One chat's inner dictionary: its keys in insertion order and, for each
   key, that user's list of sockets.
   */
  datatype ChatEntry = ChatEntry(order: seq<UserId>, lists: map<UserId, seq<SocketId>>)

  /** `active_connections`: chat id -> inner dictionary. */
  type Registry = map<ChatId, ChatEntry>

  /** The ordering lists every key exactly once. */
  ghost predicate ValidEntry(e: ChatEntry) {
    && (forall i, j :: 0 <= i < j < |e.order| ==> e.order[i] != e.order[j])
    && (forall u :: u in e.lists <==> u in e.order)
  }

  /** The shape every registry has, by construction of nested dictionaries. */
  ghost predicate Valid(reg: Registry) {
    forall c :: c in reg ==> ValidEntry(reg[c])
  }

  /** No empty socket list and no chat without users. */
  ghost predicate Pruned(reg: Registry) {
    forall c :: c in reg ==> |reg[c].order| > 0 && forall u :: u in reg[c].lists ==> |reg[c].lists[u]| > 0
  }

  /** `(chat, user)` has an entry (possibly an empty list). */
  predicate HasEntry(reg: Registry, c: ChatId, u: UserId) {
    c in reg && u in reg[c].lists
  }

  /** The sockets registered under `(chat, user)`. */
  function SocketsOf(reg: Registry, c: ChatId, u: UserId): seq<SocketId> {
    if HasEntry(reg, c, u) then reg[c].lists[u] else []
  }

  /** An absent chat reads as an empty inner dictionary. */
  function EntryOf(reg: Registry, c: ChatId): ChatEntry {
    if c in reg then reg[c] else ChatEntry([], map[])
  }

  /** Store an inner dictionary under chat `c`. */
  function PutEntry(reg: Registry, c: ChatId, e: ChatEntry): (r: Registry)
    requires Valid(reg) && ValidEntry(e)
    ensures Valid(r) && c in r && r[c] == e && r - {c} == reg - {c}
  {
    reg[c := e]
  }

  // ---------------------------------------------------------------------
  // connect

  /** The rest of an inner dictionary is untouched except for key `u`. */
  ghost predicate OthersKept(e: ChatEntry, r: ChatEntry, u: UserId) {
    forall v :: v != u ==> (v in r.lists <==> v in e.lists) && (v in e.lists ==> r.lists[v] == e.lists[v])
  }

  /** Every socket list of the inner dictionary is non-empty. */
  ghost predicate NoEmptyList(e: ChatEntry) {
    forall v :: v in e.lists ==> |e.lists[v]| > 0
  }

  /** Append `s` to `u`'s list, adding `u` as the last key when it is new. */
  function EntryConnect(e: ChatEntry, u: UserId, s: SocketId): (r: ChatEntry)
    requires ValidEntry(e)
    ensures ValidEntry(r) && OthersKept(e, r, u)
    ensures u in r.lists && r.lists[u] == (if u in e.lists then e.lists[u] else []) + [s]
    ensures r.order == if u in e.lists then e.order else e.order + [u]
    ensures NoEmptyList(e) ==> NoEmptyList(r)
  {
    if u in e.lists then ChatEntry(e.order, e.lists[u := e.lists[u] + [s]])
    else ChatEntry(e.order + [u], e.lists[u := [s]])
  }

  /** `connect`: the socket is appended under `(chat, user)`; a repeated socket is stored twice. */
  function Connect(reg: Registry, c: ChatId, u: UserId, s: SocketId): (r: Registry)
    requires Valid(reg)
    ensures Valid(r) && c in r && r.Keys == reg.Keys + {c}
    ensures SocketsOf(r, c, u) == SocketsOf(reg, c, u) + [s]
    ensures r - {c} == reg - {c}
    ensures forall v :: v != u ==> SocketsOf(r, c, v) == SocketsOf(reg, c, v) && (HasEntry(r, c, v) <==> HasEntry(reg, c, v))
    ensures Pruned(reg) ==> Pruned(r)
  {
    PutEntry(reg, c, EntryConnect(EntryOf(reg, c), u, s))
  }

  // ---------------------------------------------------------------------
  // disconnect

  /** `list.remove`: drop the first occurrence of `s`, keeping the order of the rest. */
  function RemoveFirst(xs: seq<SocketId>, s: SocketId): (r: seq<SocketId>)
    ensures s !in xs ==> r == xs
    ensures s in xs ==> |r| == |xs| - 1
    ensures multiset(r) == multiset(xs) - multiset{s}
  {
    if |xs| == 0 then []
    else if xs[0] == s then
      assert xs == [xs[0]] + xs[1..];
      xs[1..]
    else
      assert xs == [xs[0]] + xs[1..];
      [xs[0]] + RemoveFirst(xs[1..], s)
  }

  /** Removing the first occurrence finds the earliest one: a socket appended last is the one removed when it is new. */
  lemma {:induction false} RemoveFirstOfAppended(xs: seq<SocketId>, s: SocketId)
    requires s !in xs
    ensures RemoveFirst(xs + [s], s) == xs
    decreases |xs|
  {
    if |xs| == 0 {
      assert xs + [s] == [s];
    } else {
      var t := xs[1..];
      assert s !in t;
      assert xs + [s] == [xs[0]] + (t + [s]);
      RemoveFirstOfAppended(t, s);
      assert xs == [xs[0]] + t;
    }
  }


  /** The ordering without key `u` (deleting a dictionary key). */
  function Without(order: seq<UserId>, u: UserId): (r: seq<UserId>)
    ensures forall v :: v in r <==> v in order && v != u
    ensures (forall i, j :: 0 <= i < j < |order| ==> order[i] != order[j]) ==> forall i, j :: 0 <= i < j < |r| ==> r[i] != r[j]
    ensures |r| <= |order|
  {
    if |order| == 0 then []
    else
      var tail := Without(order[1..], u);
      assert forall v :: v in order <==> v == order[0] || v in order[1..];
      if order[0] == u then tail
      else
        assert (forall i, j :: 0 <= i < j < |order| ==> order[i] != order[j]) ==> order[0] !in order[1..];
        [order[0]] + tail
  }

  lemma {:induction false} WithoutAppendedNew(order: seq<UserId>, u: UserId)
    requires u !in order
    ensures Without(order + [u], u) == order
  {
    if |order| > 0 {
      assert (order + [u])[1..] == order[1..] + [u];
      WithoutAppendedNew(order[1..], u);
      assert order == [order[0]] + order[1..];
    }
  }

  /**
   Remove one occurrence of `s` from `u`'s list; a list left empty loses
   its key.
   */
  function EntryRemove(e: ChatEntry, u: UserId, s: SocketId): (r: ChatEntry)
    requires ValidEntry(e) && u in e.lists && s in e.lists[u]
    ensures ValidEntry(r) && OthersKept(e, r, u)
    ensures u in r.lists <==> |RemoveFirst(e.lists[u], s)| > 0
    ensures u in r.lists ==> r.lists[u] == RemoveFirst(e.lists[u], s)
    ensures NoEmptyList(e) ==> NoEmptyList(r)
    ensures r.order == [] <==> forall v :: v !in r.lists
  {
    var rest := RemoveFirst(e.lists[u], s);
    if |rest| > 0 then
      var r := ChatEntry(e.order, e.lists[u := rest]);
      assert u in r.order;
      r
    else
      var r := ChatEntry(Without(e.order, u), e.lists - {u});
      assert |r.order| > 0 ==> r.order[0] in r.order && r.order[0] in r.lists;
      r
  }

  /** Indexing a default dictionary at a missing key `u` inserts it with an empty list. */
  function EntryTouch(e: ChatEntry, u: UserId): (r: ChatEntry)
    requires ValidEntry(e) && u !in e.lists
    ensures ValidEntry(r) && OthersKept(e, r, u)
    ensures u in r.lists && r.lists[u] == []
  {
    ChatEntry(e.order + [u], e.lists[u := []])
  }

  /**
   `disconnect`. When the socket is registered under `(chat, user)` one
   occurrence is removed, an emptied user entry is deleted and so is a chat
   left without users. Otherwise the error is swallowed, but indexing the
   nested default dictionaries has already created the chat entry and an
   empty list for the user, which stay behind.
   */
  function Disconnect(reg: Registry, c: ChatId, u: UserId, s: SocketId): (r: Registry)
    requires Valid(reg)
    ensures Valid(r)
    ensures SocketsOf(r, c, u) == RemoveFirst(SocketsOf(reg, c, u), s)
    ensures r - {c} == reg - {c}
    ensures forall v :: v != u ==> SocketsOf(r, c, v) == SocketsOf(reg, c, v) && (HasEntry(r, c, v) <==> HasEntry(reg, c, v))
    ensures s !in SocketsOf(reg, c, u) ==> HasEntry(r, c, u)
    ensures HasEntry(reg, c, u) && s !in SocketsOf(reg, c, u) ==> r == reg
  {
    var e := EntryOf(reg, c);
    if u !in e.lists then PutEntry(reg, c, EntryTouch(e, u))
    else if s !in e.lists[u] then reg
    else
      var e2 := EntryRemove(e, u, s);
      if e2.order == [] then reg - {c}
      else PutEntry(reg, c, e2)
  }

  // ---------------------------------------------------------------------
  // broadcast

  /** The sockets of one list that receive a message: connected and not failing. */
  function DeliverTo(sockets: seq<SocketId>, connected: set<SocketId>, failing: set<SocketId>): (r: seq<SocketId>)
    ensures forall x :: x in r <==> x in sockets && x in connected && x !in failing
  {
    if |sockets| == 0 then []
    else
      var here := if sockets[0] in connected && sockets[0] !in failing then [sockets[0]] else [];
      here + DeliverTo(sockets[1..], connected, failing)
  }

  /** Deliveries over the users of a chat in insertion order, skipping the user `skip`. */
  function DeliverUsers(order: seq<UserId>, lists: map<UserId, seq<SocketId>>, skip: Option<UserId>,
                        connected: set<SocketId>, failing: set<SocketId>): (r: seq<SocketId>)
    requires forall v :: v in order ==> v in lists
    ensures forall x :: x in r <==> exists v :: v in order && Some(v) != skip && x in lists[v] && x in connected && x !in failing
  {
    if |order| == 0 then []
    else
      var v := order[0];
      var here := if Some(v) == skip then [] else DeliverTo(lists[v], connected, failing);
      var rest := DeliverUsers(order[1..], lists, skip, connected, failing);
      assert forall w :: w in order <==> w == v || w in order[1..];
      here + rest
  }

  /**
   `broadcast`: the sockets a message reaches, in order. A socket is reached
   iff it is registered in the chat under a user other than `skip`, is
   connected, and its send does not fail; a failing send does not stop the
   others. An unknown chat reaches nobody and, read through `.get`, is not
   created: the registry is not an output.
   */
  function Broadcast(reg: Registry, c: ChatId, skip: Option<UserId>, connected: set<SocketId>, failing: set<SocketId>): (r: seq<SocketId>)
    requires Valid(reg)
    ensures c !in reg ==> r == []
    ensures forall x :: x in r <==> exists v :: HasEntry(reg, c, v) && Some(v) != skip && x in SocketsOf(reg, c, v) && x in connected && x !in failing
  {
    if c in reg then DeliverUsers(reg[c].order, reg[c].lists, skip, connected, failing) else []
  }

  /** How many times `x` is registered under the users of `order` other than `skip`. */
  function Registrations(order: seq<UserId>, lists: map<UserId, seq<SocketId>>, skip: Option<UserId>, x: SocketId): nat
    requires forall v :: v in order ==> v in lists
  {
    if |order| == 0 then 0
    else
      var v := order[0];
      assert v in order;
      assert forall w :: w in order[1..] ==> w in order;
      (if Some(v) == skip then 0 else multiset(lists[v])[x]) + Registrations(order[1..], lists, skip, x)
  }

  /** A reachable socket is sent to once per time it occurs in the list; any other not at all. */
  lemma {:induction false} DeliverToCount(sockets: seq<SocketId>, connected: set<SocketId>, failing: set<SocketId>, x: SocketId)
    ensures multiset(DeliverTo(sockets, connected, failing))[x]
            == if x in connected && x !in failing then multiset(sockets)[x] else 0
    decreases |sockets|
  {
    if |sockets| > 0 {
      var here := if sockets[0] in connected && sockets[0] !in failing then [sockets[0]] else [];
      var rest := DeliverTo(sockets[1..], connected, failing);
      DeliverToCount(sockets[1..], connected, failing, x);
      assert DeliverTo(sockets, connected, failing) == here + rest;
      assert multiset(here + rest) == multiset(here) + multiset(rest);
      assert sockets == [sockets[0]] + sockets[1..];
      assert multiset(sockets) == multiset([sockets[0]]) + multiset(sockets[1..]);
    }
  }

  lemma {:induction false} DeliverUsersCount(order: seq<UserId>, lists: map<UserId, seq<SocketId>>, skip: Option<UserId>,
                                             connected: set<SocketId>, failing: set<SocketId>, x: SocketId)
    requires forall v :: v in order ==> v in lists
    ensures multiset(DeliverUsers(order, lists, skip, connected, failing))[x]
            == if x in connected && x !in failing then Registrations(order, lists, skip, x) else 0
    decreases |order|
  {
    if |order| > 0 {
      var v := order[0];
      assert v in order;
      assert forall w :: w in order[1..] ==> w in order;
      DeliverUsersCount(order[1..], lists, skip, connected, failing, x);
      if Some(v) != skip {
        DeliverToCount(lists[v], connected, failing, x);
      }
    }
  }

  // ---------------------------------------------------------------------
  // Properties

  /**
   `broadcast` sends to a socket once per registration: a connected socket
   whose sends do not fail is reached as many times as it is registered
   under the chat's users other than `skip`, and any other socket never.
   */
  lemma BroadcastCounts(reg: Registry, c: ChatId, skip: Option<UserId>, connected: set<SocketId>, failing: set<SocketId>, x: SocketId)
    requires Valid(reg) && c in reg
    ensures multiset(Broadcast(reg, c, skip, connected, failing))[x]
            == if x in connected && x !in failing then Registrations(reg[c].order, reg[c].lists, skip, x) else 0
  {
    DeliverUsersCount(reg[c].order, reg[c].lists, skip, connected, failing, x);
  }

  /** A socket connected twice for the same user receives every broadcast twice. */
  lemma ConnectedTwiceReceivesTwice(c: ChatId, u: UserId, s: SocketId, skip: Option<UserId>, connected: set<SocketId>, failing: set<SocketId>)
    requires Some(u) != skip && s in connected && s !in failing
    ensures Broadcast(Connect(Connect(map[], c, u, s), c, u, s), c, skip, connected, failing) == [s, s]
  {
    var reg := Connect(Connect(map[], c, u, s), c, u, s);
    ConnectTwice(c, u, s);
    OneUserBroadcast(reg, c, u, skip, connected, failing);
    assert [s, s][1..] == [s] && [s][1..] == [];
    assert DeliverTo([s], connected, failing) == [s] + [];
    assert DeliverTo([s, s], connected, failing) == [s] + [s];
  }

  lemma ConnectTwice(c: ChatId, u: UserId, s: SocketId)
    ensures var reg := Connect(Connect(map[], c, u, s), c, u, s);
      c in reg && reg[c].order == [u] && u in reg[c].lists && reg[c].lists[u] == [s, s]
  {
    var e1 := EntryConnect(ChatEntry([], map[]), u, s);
    assert e1.order == [u] && e1.lists[u] == [s];
    var reg1 := Connect(map[], c, u, s);
    assert reg1[c] == e1;
    var e2 := EntryConnect(e1, u, s);
    assert e2.order == [u] && e2.lists[u] == [s] + [s];
    assert Connect(reg1, c, u, s)[c] == e2;
  }

  lemma OneUserBroadcast(reg: Registry, c: ChatId, u: UserId, skip: Option<UserId>, connected: set<SocketId>, failing: set<SocketId>)
    requires Valid(reg) && c in reg && reg[c].order == [u] && u in reg[c].lists && Some(u) != skip
    ensures Broadcast(reg, c, skip, connected, failing) == DeliverTo(reg[c].lists[u], connected, failing)
  {
    var e := reg[c];
    assert e.order[1..] == [];
    assert DeliverUsers(e.order[1..], e.lists, skip, connected, failing) == [];
    var here := DeliverTo(e.lists[u], connected, failing);
    assert DeliverUsers(e.order, e.lists, skip, connected, failing) == here + [];
  }

  /** A socket registered only under the skipped user is never reached. */
  lemma BroadcastSkipsUser(reg: Registry, c: ChatId, u: UserId, x: SocketId, connected: set<SocketId>, failing: set<SocketId>)
    requires Valid(reg)
    requires forall v :: x in SocketsOf(reg, c, v) ==> v == u
    ensures x !in Broadcast(reg, c, Some(u), connected, failing)
  {
  }

  lemma EntryConnectThenRemove(e: ChatEntry, u: UserId, s: SocketId)
    requires ValidEntry(e) && NoEmptyList(e) && (u in e.lists ==> s !in e.lists[u])
    ensures EntryRemove(EntryConnect(e, u, s), u, s) == e
  {
    if u in e.lists {
      var xs := e.lists[u];
      var e1 := ChatEntry(e.order, e.lists[u := xs + [s]]);
      assert EntryConnect(e, u, s) == e1;
      RemoveFirstOfAppended(xs, s);
      assert |xs| > 0;
      assert EntryRemove(e1, u, s) == ChatEntry(e.order, e1.lists[u := xs]);
      assert e1.lists[u := xs] == e.lists;
    } else {
      var e1 := ChatEntry(e.order + [u], e.lists[u := [s]]);
      assert EntryConnect(e, u, s) == e1;
      assert RemoveFirst([s], s) == [];
      assert EntryRemove(e1, u, s) == ChatEntry(Without(e1.order, u), e1.lists - {u});
      WithoutAppendedNew(e.order, u);
      assert e1.lists - {u} == e.lists;
    }
  }

  /** On a pruned registry, connecting a new socket and disconnecting it restores the registry exactly. */
  lemma ConnectThenDisconnect(reg: Registry, c: ChatId, u: UserId, s: SocketId)
    requires Valid(reg) && Pruned(reg) && s !in SocketsOf(reg, c, u)
    ensures Disconnect(Connect(reg, c, u, s), c, u, s) == reg
  {
    var e := EntryOf(reg, c);
    assert NoEmptyList(e) && (c in reg <==> e.order != []);
    EntryConnectThenRemove(e, u, s);
    var e1 := EntryConnect(e, u, s);
    var mid := Connect(reg, c, u, s);
    assert mid == reg[c := e1];
    DisconnectRegistered(mid, c, u, s);
    if c in reg {
      RestoreKey(reg, c, e1);
    } else {
      DropNewKey(reg, c, e1);
    }
  }

  lemma RestoreKey<K, V>(m: map<K, V>, k: K, x: V)
    requires k in m
    ensures m[k := x][k := m[k]] == m
  {
  }

  lemma DropNewKey<K, V>(m: map<K, V>, k: K, x: V)
    requires k !in m
    ensures m[k := x] - {k} == m
  {
  }

  /** Disconnecting a registered socket replaces the chat's inner dictionary, or deletes the chat when it empties. */
  lemma DisconnectRegistered(reg: Registry, c: ChatId, u: UserId, s: SocketId)
    requires Valid(reg) && HasEntry(reg, c, u) && s in reg[c].lists[u]
    ensures var e2 := EntryRemove(reg[c], u, s);
      Disconnect(reg, c, u, s) == if e2.order == [] then reg - {c} else reg[c := e2]
  {
  }

  /**
   Disconnecting a registered socket keeps the registry pruned: a user whose
   last socket goes loses the entry, and a chat whose last user goes is
   deleted.
   */
  lemma DisconnectPrunes(reg: Registry, c: ChatId, u: UserId, s: SocketId)
    requires Valid(reg) && s in SocketsOf(reg, c, u)
    ensures var r := Disconnect(reg, c, u, s);
      && (Pruned(reg) ==> Pruned(r))
      && (HasEntry(r, c, u) <==> SocketsOf(r, c, u) != [])
      && (c in r <==> exists v :: HasEntry(r, c, v))
  {
    var e := EntryOf(reg, c);
    var e2 := EntryRemove(e, u, s);
    if e2.order != [] {
      assert e2.order[0] in e2.order && HasEntry(reg[c := e2], c, e2.order[0]);
    }
  }

  /** The swallowed error leaves an unpruned registry behind: an empty list for the user. */
  lemma DisconnectUnknownLeavesEmptyEntry(reg: Registry, c: ChatId, u: UserId, s: SocketId)
    requires Valid(reg) && !HasEntry(reg, c, u)
    ensures var r := Disconnect(reg, c, u, s);
      HasEntry(r, c, u) && SocketsOf(r, c, u) == [] && !Pruned(r)
  {
  }
}

=== FILE: text.dfy ===
/**
 String operations shared by the server (Python) and the client (JavaScript)
 models. Strings are sequences of Unicode scalar values, which is what a
 Python `str` is; JavaScript's UTF-16 view matters only for `length` and
 indexing, and is modelled where it is used.
 */
module Text {

  /** `p` occurs in `s` starting at index `i`. */
  predicate OccursAt(p: string, s: string, i: nat) {
    i + |p| <= |s| && s[i..i + |p|] == p
  }

  /** Substring test: Python's `p in s`, JavaScript's `s.includes(p)`. */
  function Contains(s: string, p: string): (r: bool)
    ensures r <==> exists i: nat :: OccursAt(p, s, i)
    decreases |s|
  {
    if p <= s then
      assert OccursAt(p, s, 0);
      true
    else if |s| == 0 then
      false
    else
      var r := Contains(s[1..], p);
      if r then
        var i: nat :| OccursAt(p, s[1..], i);
        assert OccursAt(p, s, i + 1);
        true
      else
        assert forall i: nat :: OccursAt(p, s, i) ==> i > 0 && OccursAt(p, s[1..], i - 1);
        false
  }

  /** A pattern holding a character that `s` lacks cannot occur in `s`. */
  lemma AbsentCharExcludes(s: string, p: string, c: char)
    requires c in p && c !in s
    ensures !Contains(s, p)
  {
    var k :| 0 <= k < |p| && p[k] == c;
    forall i: nat | i + |p| <= |s| ensures !OccursAt(p, s, i) {
      assert s[i..i + |p|][k] == s[i + k] != c;
    }
  }

  /** An occurrence in a part is an occurrence in the whole. */
  lemma ContainsInConcat(a: string, b: string, p: string)
    ensures Contains(a, p) ==> Contains(a + b, p)
    ensures Contains(b, p) ==> Contains(a + b, p)
  {
    if Contains(a, p) {
      var i: nat :| OccursAt(p, a, i);
      assert (a + b)[i..i + |p|] == a[i..i + |p|];
      assert OccursAt(p, a + b, i);
    }
    if Contains(b, p) {
      var i: nat :| OccursAt(p, b, i);
      assert (a + b)[|a| + i..|a| + i + |p|] == b[i..i + |p|];
      assert OccursAt(p, a + b, |a| + i);
    }
  }

  /** `s.endswith(p)` */
  predicate EndsWith(s: string, p: string) {
    |p| <= |s| && s[|s| - |p|..] == p
  }

  // ---------------------------------------------------------------------
  // Whitespace, strip and trim

  /** Python's `str.isspace` for one character. */
  predicate PyIsSpace(c: char) {
    var n := c as int;
    (9 <= n <= 13) || (28 <= n <= 32) || n == 0x85 || n == 0xA0 || n == 0x1680
    || (0x2000 <= n <= 0x200A) || n == 0x2028 || n == 0x2029 || n == 0x202F
    || n == 0x205F || n == 0x3000
  }

  /** The characters JavaScript's `String.prototype.trim` removes. */
  predicate JsIsSpace(c: char) {
    var n := c as int;
    (9 <= n <= 13) || n == 32 || n == 0xA0 || n == 0x1680
    || (0x2000 <= n <= 0x200A) || n == 0x2028 || n == 0x2029 || n == 0x202F
    || n == 0x205F || n == 0x3000 || n == 0xFEFF
  }

  /** Which language's notion of white space a trim uses. */
  datatype SpaceKind = Python | JavaScript

  predicate IsSpace(kind: SpaceKind, c: char) {
    match kind
    case Python => PyIsSpace(c)
    case JavaScript => JsIsSpace(c)
  }

  /** Every character of `s` is a space of the given kind. */
  predicate Blank(s: string, kind: SpaceKind) {
    forall i :: 0 <= i < |s| ==> IsSpace(kind, s[i])
  }

  /** `r` sits at offset `i` of `s` and every character of `s` outside it is a space. */
  predicate Framed(r: string, s: string, i: nat, kind: SpaceKind) {
    i + |r| <= |s| && s[i..i + |r|] == r
    && forall k :: 0 <= k < |s| && !(i <= k < i + |r|) ==> IsSpace(kind, s[k])
  }

  /** The end of the run of spaces that starts at `i`. */
  function LeadingSpacesEnd(s: string, kind: SpaceKind, i: nat): (n: nat)
    requires i <= |s|
    ensures i <= n <= |s|
    ensures forall k :: i <= k < n ==> IsSpace(kind, s[k])
    ensures n < |s| ==> !IsSpace(kind, s[n])
    decreases |s| - i
  {
    if i < |s| && IsSpace(kind, s[i]) then LeadingSpacesEnd(s, kind, i + 1) else i
  }

  /** The start of the run of spaces that ends at `j`, not going below `lo`. */
  function TrailingSpacesStart(s: string, kind: SpaceKind, lo: nat, j: nat): (n: nat)
    requires lo <= j <= |s|
    ensures lo <= n <= j
    ensures forall k :: n <= k < j ==> IsSpace(kind, s[k])
    ensures n > lo ==> !IsSpace(kind, s[n - 1])
    decreases j
  {
    if j > lo && IsSpace(kind, s[j - 1]) then TrailingSpacesStart(s, kind, lo, j - 1) else j
  }

  /** Remove leading and trailing spaces: `strip()` / `trim()`. */
  function Trim(s: string, kind: SpaceKind): (r: string)
    ensures exists i: nat :: Framed(r, s, i, kind)
    ensures |r| > 0 ==> !IsSpace(kind, r[0]) && !IsSpace(kind, r[|r| - 1])
    ensures r == "" <==> Blank(s, kind)
  {
    var lo := LeadingSpacesEnd(s, kind, 0);
    var hi := TrailingSpacesStart(s, kind, lo, |s|);
    var r := s[lo..hi];
    assert Framed(r, s, lo, kind);
    r
  }

  /** Python's `s.strip()`. */
  function PyStrip(s: string): string {
    Trim(s, Python)
  }

  /** JavaScript's `s.trim()`. */
  function JsTrim(s: string): string {
    Trim(s, JavaScript)
  }

  // ---------------------------------------------------------------------
  // Case mapping

  /**
   Python's `str.lower` restricted to the letters the application's
   languages use: ASCII, Latin-1 and the Vietnamese letters (Ă Đ Ĩ Ũ Ơ Ư and
   the precomposed block U+1EA0..U+1EF9). Other characters are unchanged.
   */
  function LowerChar(c: char): char {
    var n := c as int;
    if 'A' <= c <= 'Z' || (0xC0 <= n <= 0xDE && n != 0xD7) then (n + 32) as char
    else if n == 0x102 || n == 0x110 || n == 0x128 || n == 0x168 || n == 0x1A0 then (n + 1) as char
    else if n == 0x1AF then 0x1B0 as char
    else if 0x1EA0 <= n <= 0x1EF8 && n % 2 == 0 then (n + 1) as char
    else c
  }

  function Lower(s: string): (r: string)
    ensures |r| == |s|
    ensures forall i :: 0 <= i < |s| ==> r[i] == LowerChar(s[i])
  {
    seq(|s|, i requires 0 <= i < |s| => LowerChar(s[i]))
  }

  /** Lowering is idempotent: a lowered string has no capitals left. */
  lemma LowerIdempotent(s: string)
    ensures Lower(Lower(s)) == Lower(s)
  {
    forall i | 0 <= i < |s|
      ensures LowerChar(LowerChar(s[i])) == LowerChar(s[i])
    {
    }
  }

  // ---------------------------------------------------------------------
  // Split, join and replace

  /** Python's `s.split(sep)` / JavaScript's `s.split(sep)` for a non-empty separator. */
  function SplitOn(s: string, sep: string): (r: seq<string>)
    requires |sep| > 0
    ensures |r| >= 1
    decreases |s|
  {
    if sep <= s then [""] + SplitOn(s[|sep|..], sep)
    else if |s| == 0 then [""]
    else
      var rest := SplitOn(s[1..], sep);
      [[s[0]] + rest[0]] + rest[1..]
  }

  /** A string without the separator splits into itself. */
  lemma {:induction false} SplitWithoutSeparator(s: string, c: char)
    requires c !in s
    ensures SplitOn(s, [c]) == [s]
    decreases |s|
  {
    if |s| > 0 {
      assert !([c] <= s) by { assert s[0] != c; }
      assert c !in s[1..];
      SplitWithoutSeparator(s[1..], c);
      assert [s[0]] + s[1..] == s;
    }
  }

  /** The text before the first separator is the first part, and the rest is split on. */
  lemma {:induction false} SplitAtSeparator(a: string, b: string, c: char)
    requires c !in a
    ensures SplitOn(a + [c] + b, [c]) == [a] + SplitOn(b, [c])
    decreases |a|
  {
    var s := a + [c] + b;
    if |a| == 0 {
      assert s == [c] + b && [c] <= s;
      assert s[1..] == b;
    } else {
      assert !([c] <= s) by { assert s[0] == a[0] && a[0] != c; }
      assert s[1..] == a[1..] + [c] + b;
      assert c !in a[1..];
      SplitAtSeparator(a[1..], b, c);
      assert [s[0]] + a[1..] == a;
    }
  }

  /** `sep.join(parts)` */
  function Join(parts: seq<string>, sep: string): string
    requires |parts| >= 1
    decreases |parts|
  {
    if |parts| == 1 then parts[0] else parts[0] + sep + Join(parts[1..], sep)
  }

  lemma JoinConsHead(c: char, x: string, xs: seq<string>, sep: string)
    ensures Join([[c] + x] + xs, sep) == [c] + Join([x] + xs, sep)
  {
    if |xs| > 0 {
      assert ([[c] + x] + xs)[1..] == xs;
      assert ([x] + xs)[1..] == xs;
    }
  }

  /**
   Python's `s.replace(pat, rep)` for a non-empty `pat`: every
   non-overlapping occurrence, scanning left to right, is replaced.
   */
  function ReplaceAll(s: string, pat: string, rep: string): string
    requires |pat| > 0
    decreases |s|
  {
    if pat <= s then rep + ReplaceAll(s[|pat|..], pat, rep)
    else if |s| == 0 then ""
    else [s[0]] + ReplaceAll(s[1..], pat, rep)
  }

  /**
   Replacing is splitting on `pat` and joining the pieces with `rep`: the
   result is the text between the occurrences, with `rep` standing for each.
   */
  lemma {:induction false} ReplaceAllIsSplitJoin(s: string, pat: string, rep: string)
    requires |pat| > 0
    ensures ReplaceAll(s, pat, rep) == Join(SplitOn(s, pat), rep)
    decreases |s|
  {
    if pat <= s {
      ReplaceAllIsSplitJoin(s[|pat|..], pat, rep);
      SplitJoinAtMatch(s, pat, rep);
    } else if |s| > 0 {
      ReplaceAllIsSplitJoin(s[1..], pat, rep);
      SplitJoinAtChar(s, pat, rep);
    }
  }

  lemma SplitJoinAtMatch(s: string, pat: string, rep: string)
    requires |pat| > 0 && pat <= s
    ensures Join(SplitOn(s, pat), rep) == rep + Join(SplitOn(s[|pat|..], pat), rep)
  {
    var rest := SplitOn(s[|pat|..], pat);
    assert SplitOn(s, pat) == [""] + rest;
    assert ([""] + rest)[1..] == rest;
  }

  lemma SplitJoinAtChar(s: string, pat: string, rep: string)
    requires |pat| > 0 && !(pat <= s) && |s| > 0
    ensures Join(SplitOn(s, pat), rep) == [s[0]] + Join(SplitOn(s[1..], pat), rep)
  {
    var rest := SplitOn(s[1..], pat);
    assert SplitOn(s, pat) == [[s[0]] + rest[0]] + rest[1..];
    assert rest == [rest[0]] + rest[1..];
    JoinConsHead(s[0], rest[0], rest[1..], rep);
  }

  /** Replacing a pattern by itself changes nothing. */
  lemma {:induction false} ReplaceAllSelf(s: string, pat: string)
    requires |pat| > 0
    ensures ReplaceAll(s, pat, pat) == s
    decreases |s|
  {
    if pat <= s {
      ReplaceAllSelf(s[|pat|..], pat);
      assert s == s[..|pat|] + s[|pat|..];
    } else if |s| > 0 {
      ReplaceAllSelf(s[1..], pat);
      assert s == [s[0]] + s[1..];
    }
  }

  /** Splitting then joining with the separator gives the string back. */
  lemma SplitJoinRoundTrip(s: string, sep: string)
    requires |sep| > 0
    ensures Join(SplitOn(s, sep), sep) == s
  {
    ReplaceAllIsSplitJoin(s, sep, sep);
    ReplaceAllSelf(s, sep);
  }

  /** A pattern that does not occur leaves the string unchanged. */
  lemma {:induction false} ReplaceAllAbsent(s: string, pat: string, rep: string)
    requires |pat| > 0 && !Contains(s, pat)
    ensures ReplaceAll(s, pat, rep) == s
    decreases |s|
  {
    if |s| > 0 {
      assert !OccursAt(pat, s, 0);
      forall i: nat ensures !OccursAt(pat, s[1..], i) {
        assert !OccursAt(pat, s, i + 1);
        if i + |pat| <= |s| - 1 {
          assert s[1..][i..i + |pat|] == s[i + 1..i + 1 + |pat|];
        }
      }
      ReplaceAllAbsent(s[1..], pat, rep);
      assert s == [s[0]] + s[1..];
    }
  }

  /** First index at which `p` occurs in `s`: JavaScript's `indexOf`. */
  function IndexOf(s: string, p: string): (r: nat)
    ensures r <= |s|
    ensures Contains(s, p) ==> OccursAt(p, s, r) && forall j: nat :: j < r ==> !OccursAt(p, s, j)
    ensures !Contains(s, p) ==> r == |s|
  {
    FirstOccurrenceFound(s, p);
    IndexFrom(s, p, 0)
  }

  lemma FirstOccurrenceFound(s: string, p: string)
    ensures Contains(s, p) ==> OccursAt(p, s, IndexFrom(s, p, 0))
  {
    if Contains(s, p) {
      var i: nat :| OccursAt(p, s, i);
      assert 0 <= i;
    }
  }

  /** The first occurrence of `p` in `s` at or after `i`, or `|s|` when there is none. */
  function IndexFrom(s: string, p: string, i: nat): (r: nat)
    requires i <= |s|
    ensures i <= r <= |s|
    ensures forall j: nat :: i <= j < r ==> !OccursAt(p, s, j)
    ensures OccursAt(p, s, r) || (r == |s| && forall j: nat :: i <= j ==> !OccursAt(p, s, j))
    decreases |s| - i
  {
    if OccursAt(p, s, i) then i
    else if i == |s| then i
    else IndexFrom(s, p, i + 1)
  }

  /**
   ECMAScript GetSubstitution for a string pattern (no capture groups):
   `$$` is `$`, `$&` the match, `` $` `` the text before it, `$'` the text
   after it; every other `$` is literal.
   */
  function ExpandReplacement(rep: string, matched: string, before: string, after: string): string
    decreases |rep|
  {
    if |rep| >= 2 && rep[0] == '$' && rep[1] in "$&`'" then
      var piece := if rep[1] == '$' then "$" else if rep[1] == '&' then matched
                   else if rep[1] == '`' then before else after;
      piece + ExpandReplacement(rep[2..], matched, before, after)
    else if |rep| == 0 then ""
    else [rep[0]] + ExpandReplacement(rep[1..], matched, before, after)
  }

  /** A replacement without `$` is inserted literally. */
  lemma {:induction false} ExpandWithoutDollar(rep: string, matched: string, before: string, after: string)
    requires '$' !in rep
    ensures ExpandReplacement(rep, matched, before, after) == rep
    decreases |rep|
  {
    if |rep| > 0 {
      assert rep[0] != '$';
      assert '$' !in rep[1..] by {
        forall k | 0 <= k < |rep| - 1 ensures rep[1..][k] != '$' { assert rep[1..][k] == rep[k + 1]; }
      }
      ExpandWithoutDollar(rep[1..], matched, before, after);
    }
  }

  /** JavaScript's `s.replace(pattern, rep)` with a string pattern: only the first occurrence. */
  function ReplaceFirst(s: string, pattern: string, rep: string): (r: string)
    ensures !Contains(s, pattern) ==> r == s
    ensures Contains(s, pattern) ==>
      var i := IndexOf(s, pattern);
      r == s[..i] + ExpandReplacement(rep, pattern, s[..i], s[i + |pattern|..]) + s[i + |pattern|..]
  {
    if Contains(s, pattern) then
      var i := IndexOf(s, pattern);
      s[..i] + ExpandReplacement(rep, pattern, s[..i], s[i + |pattern|..]) + s[i + |pattern|..]
    else s
  }
}

=== FILE: translation.dfy ===
/**
 The interface's translation function `t` (`hooks/useTranslation.js`): a
 dotted key is looked up in the current language's table, the whole key is
 looked up again in the Vietnamese table as soon as one step of it is
 missing, anything that is not a string yields the key itself, and
 `{{name}}` placeholders are filled in, the first occurrence of each only.
 */
module Translation {
  import opened Wrappers
  import opened Text

  /** A value of a translation table: a string, a nested object, or anything else JSON holds. */
  datatype Value = Str(s: string) | Obj(fields: map<string, Value>) | Other

  /** The tables by language code. */
  type Tables = map<string, Value>

  /** The language every missing key falls back to. */
  const Fallback := "vi"

  /** `translations[language]`: undefined (`None`) for a language with no table. */
  function Root(tables: Tables, language: string): (r: Option<Value>)
    ensures r.Some? <==> language in tables
  {
    if language in tables then Some(tables[language]) else None
  }

  /** The UTF-16 code units of one character: a surrogate pair above the Basic Multilingual Plane. */
  function CharUnits(c: char): (u: seq<int>)
    ensures |u| == (if c as int > 0xFFFF then 2 else 1)
    ensures forall j :: 0 <= j < |u| ==> 0 <= u[j] <= 0xFFFF
  {
    if c as int <= 0xFFFF then [c as int]
    else
      var v := c as int - 0x10000;
      [0xD800 + v / 0x400, 0xDC00 + v % 0x400]
  }

  /** The code units JavaScript indexes a string by. */
  function CodeUnits(s: string): (u: seq<int>)
    ensures |s| <= |u| <= 2 * |s|
    ensures forall j :: 0 <= j < |u| ==> 0 <= u[j] <= 0xFFFF
    decreases |s|
  {
    if |s| == 0 then [] else CharUnits(s[0]) + CodeUnits(s[1..])
  }

  /** A string of Basic Multilingual Plane characters has one code unit per character. */
  lemma {:induction false} PlaneZeroUnits(s: string)
    requires forall j :: 0 <= j < |s| ==> s[j] as int <= 0xFFFF
    ensures |CodeUnits(s)| == |s|
    ensures forall j :: 0 <= j < |s| ==> CodeUnits(s)[j] == s[j] as int
    decreases |s|
  {
    if |s| > 0 {
      PlaneZeroUnits(s[1..]);
      assert CodeUnits(s) == [s[0] as int] + CodeUnits(s[1..]);
      forall j | 1 <= j < |s|
        ensures CodeUnits(s)[j] == s[j] as int
      {
        assert s[1..][j - 1] == s[j];
      }
    }
  }

  predicate IsDigit(c: char) { '0' <= c <= '9' }

  function DigitValue(c: char): nat
    requires IsDigit(c)
  {
    c as int - '0' as int
  }

  /** A key that names a string's index: decimal digits, with no leading zero except for "0" itself. */
  predicate IsIndexKey(k: string) {
    |k| > 0 && (forall j :: 0 <= j < |k| ==> IsDigit(k[j])) && (k[0] != '0' || |k| == 1)
  }

  /** The number a string of digits spells. */
  function DecimalValue(k: string): nat
    requires forall j :: 0 <= j < |k| ==> IsDigit(k[j])
    decreases |k|
  {
    if |k| == 0 then 0 else DecimalValue(k[..|k| - 1]) * 10 + DigitValue(k[|k| - 1])
  }

  /** `s[i]` for a code unit: a one-character string, or, for half of a surrogate pair, a value no Dafny string holds. */
  function UnitValue(u: int): (r: Value)
    requires 0 <= u <= 0xFFFF
    ensures r.Str? <==> !(0xD800 <= u <= 0xDFFF)
    ensures r.Str? ==> |r.s| == 1 && r.s[0] as int == u
  {
    if 0xD800 <= u <= 0xDFFF then Other else Str([u as char])
  }

  /**
   `value?.[k]`: undefined when the value is. An object gives its own field
   `k`; a string gives the code unit at an index key below its length, and
   a number for `length`; anything else has no property the model knows.
   */
  function Step(v: Option<Value>, k: string): (r: Option<Value>)
    ensures v.None? ==> r.None?
    ensures v.Some? && v.value.Obj? ==> (r.Some? <==> k in v.value.fields)
    ensures v.Some? && v.value.Obj? && r.Some? ==> r.value == v.value.fields[k]
    ensures v.Some? && v.value.Str? ==> (r.Some? <==> k == "length" || (IsIndexKey(k) && DecimalValue(k) < |CodeUnits(v.value.s)|))
    ensures v.Some? && v.value.Str? && k == "length" ==> r == Some(Other)
    ensures v.Some? && v.value.Str? && IsIndexKey(k) && DecimalValue(k) < |CodeUnits(v.value.s)|
      ==> r == Some(UnitValue(CodeUnits(v.value.s)[DecimalValue(k)]))
    ensures v.Some? && v.value.Other? ==> r.None?
  {
    match v
    case None => None
    case Some(Obj(fields)) => if k in fields then Some(fields[k]) else None
    case Some(Str(s)) =>
      if k == "length" then Some(Other)
      else if IsIndexKey(k) && DecimalValue(k) < |CodeUnits(s)| then Some(UnitValue(CodeUnits(s)[DecimalValue(k)]))
      else None
    case Some(Other) => None
  }

  /** Following `keys` from `v`, step by step. */
  function Path(v: Option<Value>, keys: seq<string>): Option<Value>
    decreases |keys|
  {
    if |keys| == 0 then v else Step(Path(v, keys[..|keys| - 1]), keys[|keys| - 1])
  }

  /** Once undefined, a path stays undefined. */
  lemma {:induction false} PathFromNothing(keys: seq<string>)
    ensures Path(None, keys) == None
    decreases |keys|
  {
    if |keys| > 0 {
      PathFromNothing(keys[..|keys| - 1]);
    }
  }

  /** Following a joined key is following its first part, then the rest. */
  lemma {:induction false} PathAppend(v: Option<Value>, a: seq<string>, b: seq<string>)
    ensures Path(v, a + b) == Path(Path(v, a), b)
    decreases |b|
  {
    if |b| == 0 {
      assert a + b == a;
    } else {
      assert (a + b)[..|a + b| - 1] == a + b[..|b| - 1];
      PathAppend(v, a, b[..|b| - 1]);
    }
  }

  /** A prefix that is undefined leaves the whole path undefined. */
  lemma PrefixMissing(v: Option<Value>, keys: seq<string>, i: nat)
    requires i <= |keys| && Path(v, keys[..i]) == None
    ensures Path(v, keys) == None
  {
    assert keys == keys[..i] + keys[i..];
    PathAppend(v, keys[..i], keys[i..]);
    PathFromNothing(keys[i..]);
  }

  /**
   What the lookup finds: the value at the key in the language's table, or,
   when that is undefined, the value at the key in the Vietnamese table.
   */
  function Lookup(tables: Tables, language: string, keys: seq<string>): (r: Option<Value>)
    ensures Path(Root(tables, language), keys).Some? ==> r == Path(Root(tables, language), keys)
    ensures Path(Root(tables, language), keys).None? ==> r == Path(Root(tables, Fallback), keys)
  {
    var own := Path(Root(tables, language), keys);
    if own.Some? then own else Path(Root(tables, Fallback), keys)
  }

  /** The fallback's inner loop: every key followed from `start`, undefined steps included. */
  method Walk(start: Option<Value>, keys: seq<string>) returns (v: Option<Value>)
    ensures v == Path(start, keys)
  {
    v := start;
    var j := 0;
    while j < |keys|
      invariant 0 <= j <= |keys|
      invariant v == Path(start, keys[..j])
    {
      assert keys[..j + 1][..j] == keys[..j];
      v := Step(v, keys[j]);
      j := j + 1;
    }
    assert keys[..j] == keys;
  }

  /**
   The lookup loop as written: step through the keys, and at the first
   undefined step walk the whole key again from the Vietnamese table and stop.
   */
  method Resolve(tables: Tables, language: string, key: string) returns (v: Option<Value>)
    ensures v == Lookup(tables, language, SplitOn(key, "."))
  {
    var keys := SplitOn(key, ".");
    v := Root(tables, language);
    var i := 0;
    var fellBack := false;
    while i < |keys| && !fellBack
      invariant 0 <= i <= |keys|
      invariant !fellBack ==> v == Path(Root(tables, language), keys[..i])
      invariant !fellBack && i > 0 ==> v.Some?
      invariant fellBack ==> Path(Root(tables, language), keys) == None && v == Path(Root(tables, Fallback), keys)
      decreases |keys| - i, if fellBack then 0 else 1
    {
      assert keys[..i + 1][..i] == keys[..i];
      v := Step(v, keys[i]);
      if v.None? {
        PrefixMissing(Root(tables, language), keys, i + 1);
        v := Walk(Root(tables, Fallback), keys);
        fellBack := true;
      } else {
        i := i + 1;
      }
    }
    assert !fellBack ==> keys[..i] == keys;
  }

  /**
   A key one step past a string found in the current language indexes that
   string: the character at that place, without asking the Vietnamese table.
   */
  lemma StringIndexIsFound(tables: Tables, language: string, keys: seq<string>, s: string, k: string)
    requires Path(Root(tables, language), keys) == Some(Str(s))
    requires forall j :: 0 <= j < |s| ==> s[j] as int <= 0xFFFF
    requires IsIndexKey(k) && DecimalValue(k) < |s|
    ensures Lookup(tables, language, keys + [k]) == Some(Str([s[DecimalValue(k)]]))
  {
    PlaneZeroUnits(s);
    assert (keys + [k])[..|keys|] == keys;
    var u := UnitValue(s[DecimalValue(k)] as int);
    assert u.s[0] == s[DecimalValue(k)];
  }

  /** `length` past a string found in the current language is a number: found, so "vi" is not asked. */
  lemma StringLengthIsFound(tables: Tables, language: string, keys: seq<string>, s: string)
    requires Path(Root(tables, language), keys) == Some(Str(s))
    ensures Lookup(tables, language, keys + ["length"]) == Some(Other)
  {
    assert (keys + ["length"])[..|keys|] == keys;
  }

  /** Tables with one English string `a: "Hi"`, and a Vietnamese section `a` holding a string `length`. */
  const HiTables: Tables := map["en" := Obj(map["a" := Str("Hi")]), "vi" := Obj(map["a" := Obj(map["length" := Str("hai")])])]

  /** A key of two dot-free parts splits into them. */
  lemma TwoParts(a: string, b: string)
    requires '.' !in a && '.' !in b
    ensures SplitOn(a + "." + b, ".") == [a, b]
  {
    SplitWithoutSeparator(b, '.');
    SplitAtSeparator(a, b, '.');
  }

  /** The example's index key splits at its dot. */
  lemma IndexKeyParts()
    ensures SplitOn("a.0", ".") == ["a", "0"]
  {
    TwoParts("a", "0");
    assert "a" + "." + "0" == "a.0";
  }

  /** The example's `length` key splits at its dot. */
  lemma LengthKeyParts()
    ensures SplitOn("a.length", ".") == ["a", "length"]
  {
    assert '.' !in "length" by {
      assert "length" == ['l', 'e', 'n', 'g', 't', 'h'];
    }
    TwoParts("a", "length");
    assert "a" + "." + "length" == "a.length";
  }

  /** `t("a.0")` in English is "H", the first character of the English string. */
  lemma IndexedStringExample()
    ensures Translate(HiTables, "en", "a.0", []) == "H"
  {
    IndexKeyParts();
    assert Path(Root(HiTables, "en"), ["a"]) == Some(Str("Hi"));
    assert DecimalValue("0") == 0 by { assert "0"[..0] == ""; }
    StringIndexIsFound(HiTables, "en", ["a"], "Hi", "0");
    assert ["a"] + ["0"] == ["a", "0"];
  }

  /** `t("a.length")` in English is the key, although the Vietnamese table holds a string there. */
  lemma StringLengthExample()
    ensures Translate(HiTables, "en", "a.length", []) == "a.length"
    ensures Path(Root(HiTables, Fallback), ["a", "length"]) == Some(Str("hai"))
  {
    LengthKeyParts();
    assert Path(Root(HiTables, "en"), ["a"]) == Some(Str("Hi"));
    StringLengthIsFound(HiTables, "en", ["a"], "Hi");
    assert ["a"] + ["length"] == ["a", "length"];
    assert Path(Root(HiTables, Fallback), ["a"]) == Some(Obj(map["length" := Str("hai")]));
  }

  /** The placeholder for a parameter. */
  function Placeholder(name: string): string {
    "{{" + name + "}}"
  }

  /** Each parameter, in key order, replaces the first occurrence of its placeholder. */
  function Interpolate(s: string, params: seq<(string, string)>): (r: string)
    ensures (forall i :: 0 <= i < |params| ==> !Contains(s, Placeholder(params[i].0))) ==> r == s
    decreases |params|
  {
    if |params| == 0 then s
    else Interpolate(ReplaceFirst(s, Placeholder(params[0].0), params[0].1), params[1..])
  }

  /** `t(key, params)`: the string found, filled in, or the key itself when no string is found. */
  function Translate(tables: Tables, language: string, key: string, params: seq<(string, string)>): (r: string)
    ensures var v := Lookup(tables, language, SplitOn(key, "."));
      v.Some? && v.value.Str? ==> r == Interpolate(v.value.s, params)
    ensures var v := Lookup(tables, language, SplitOn(key, "."));
      !(v.Some? && v.value.Str?) ==> r == key
  {
    var v := Lookup(tables, language, SplitOn(key, "."));
    if v.Some? && v.value.Str? then Interpolate(v.value.s, params) else key
  }

  /** A key found as a string in the current language is that language's string, untouched without parameters. */
  lemma OwnLanguageFirst(tables: Tables, language: string, key: string, s: string)
    requires Path(Root(tables, language), SplitOn(key, ".")) == Some(Str(s))
    ensures Translate(tables, language, key, []) == s
  {
  }

  /** A key missing in the current language, or in a language with no table, takes the Vietnamese string. */
  lemma MissingFallsBack(tables: Tables, language: string, key: string, s: string)
    requires Path(Root(tables, language), SplitOn(key, ".")).None?
    requires Path(Root(tables, Fallback), SplitOn(key, ".")) == Some(Str(s))
    ensures Translate(tables, language, key, []) == s
  {
  }

  /**
   A key that names a section, or something found in the current language
   that is no string, gives the key back: the Vietnamese table is not asked.
   */
  lemma NonStringGivesKey(tables: Tables, language: string, key: string, params: seq<(string, string)>)
    requires Path(Root(tables, language), SplitOn(key, ".")).Some?
    requires !Path(Root(tables, language), SplitOn(key, ".")).value.Str?
    ensures Translate(tables, language, key, params) == key
  {
  }

  /** A parameter whose placeholder does not occur changes nothing. */
  lemma {:induction false} AbsentPlaceholders(s: string, params: seq<(string, string)>)
    requires forall i :: 0 <= i < |params| ==> !Contains(s, Placeholder(params[i].0))
    ensures Interpolate(s, params) == s
    decreases |params|
  {
    if |params| > 0 {
      assert ReplaceFirst(s, Placeholder(params[0].0), params[0].1) == s;
      AbsentPlaceholders(s, params[1..]);
    }
  }

  /**
   One parameter fills only the first occurrence of its placeholder; the
   rest of the string, a later occurrence included, is left as it was.
   */
  lemma FirstOccurrenceOnly(before: string, name: string, after: string, value: string)
    requires !Contains(before, Placeholder(name)) && '$' !in value
    requires !Contains(before + Placeholder(name)[..|Placeholder(name)| - 1], Placeholder(name))
    ensures Interpolate(before + Placeholder(name) + after, [(name, value)]) == before + value + after
  {
    var p := Placeholder(name);
    var s := before + p + after;
    FirstIndex(before, p, after);
    var i := IndexOf(s, p);
    ExpandWithoutDollar(value, p, s[..i], s[i + |p|..]);
    assert s[..i] == before && s[i + |p|..] == after;
    assert Interpolate(s, [(name, value)]) == Interpolate(ReplaceFirst(s, p, value), []);
  }

  /** A pattern that neither lies in `before` nor straddles its end is first found right after it. */
  lemma FirstIndex(before: string, p: string, after: string)
    requires |p| > 0 && !Contains(before, p) && !Contains(before + p[..|p| - 1], p)
    ensures IndexOf(before + p + after, p) == |before|
  {
    var s := before + p + after;
    assert s[|before|..|before| + |p|] == p;
    assert OccursAt(p, s, |before|);
    var i := IndexOf(s, p);
    if i < |before| {
      NotBefore(before, p, after, i);
    }
  }

  /** No occurrence of the pattern starts inside `before`. */
  lemma NotBefore(before: string, p: string, after: string, j: nat)
    requires |p| > 0 && !Contains(before, p) && !Contains(before + p[..|p| - 1], p) && j < |before|
    ensures !OccursAt(p, before + p + after, j)
  {
    var s := before + p + after;
    var q := before + p[..|p| - 1];
    assert j + |p| <= |q|;
    assert q[j..j + |p|] == s[j..j + |p|];
    assert !OccursAt(p, q, j);
  }


}

=== FILE: violation.dfy ===
/**
 Moderation and escalation (`service/violation_handler.py`): the keyword
 check, the per-user strike counter with its fixed tier table, and the
 temporary ban flag, all kept in the fast store.
 */
module Violation {
  import opened Wrappers
  import opened Text
  import FS = FastStore

  type UserId = int

  /** The ledger's keys: `strike:{user_id}` and `chat_ban:{user_id}`. */
  datatype LedgerKey = StrikeKey(user: UserId) | BanKey(user: UserId)

  type Ledger = FS.Store<LedgerKey>

  /** Lifetime of the strike counter, refreshed on every violation (one day). */
  const StrikeTtl := 86400
  /** Ban length written again once a user reaches four strikes. */
  const LockBanSeconds := 86400
  /** Highest key of the tier table. */
  const MaxLevel := 4

  // The notices are written as short pieces so that facts about their
  // single characters stay cheap to check; each is one string.
  const WarningText := "Cảnh báo: Vui " + "lòng không sử " + "dụng ngôn từ " + "vi phạm."
  const FiveMinuteBanText := "Bạn bị cấm " + "chat 5 phút " + "(vi phạm lần 2)."
  const OneHourBanText := "Bạn bị cấm " + "chat 1 giờ " + "(vi phạm lần 3)."
  const LockText := "Tài khoản của " + "bạn đã bị khóa " + "do vi phạm " + "nhiều lần."
  const EmailSentText := "Email thông " + "báo đã được " + "gửi đến bạn."
  const EmailFailedPrefix := "Không thể gửi email thông báo: "

  // ---------------------------------------------------------------------
  // Keyword check

  /** Some keyword occurs in `text`. */
  function AnyOccurs(text: string, keywords: seq<string>): (r: bool)
    ensures r <==> exists i :: 0 <= i < |keywords| && Contains(text, keywords[i])
    decreases |keywords|
  {
    if |keywords| == 0 then false
    else if Contains(text, keywords[0]) then true
    else
      var rest := AnyOccurs(text, keywords[1..]);
      assert forall i :: 1 <= i < |keywords| ==> keywords[i] == keywords[1..][i - 1];
      rest
  }

  /**
   `contains_violation`: some keyword is a raw substring of the lowercased
   message. There is no word-boundary test and the keywords themselves are
   not lowercased here (the admin router stores them lowercased).
   */
  function ContainsViolation(message: string, keywords: seq<string>): (r: bool)
    ensures r <==> exists i :: 0 <= i < |keywords| && Contains(Lower(message), keywords[i])
  {
    AnyOccurs(Lower(message), keywords)
  }

  /** No keywords flag nothing; an empty keyword flags everything. */
  lemma KeywordEdgeCases(message: string, keywords: seq<string>)
    ensures !ContainsViolation(message, [])
    ensures "" in keywords ==> ContainsViolation(message, keywords)
  {
    if "" in keywords {
      var i :| 0 <= i < |keywords| && keywords[i] == "";
      assert OccursAt("", Lower(message), 0);
    }
  }

  /** Matching is by raw substring: "ass" flags "class". */
  lemma NoWordBoundary()
    ensures ContainsViolation("class", ["ass"])
  {
    assert "ass" <= Lower("class")[2..];
    assert OccursAt("ass", Lower("class"), 2);
  }

  /** The message is lowered but the keyword is not: "ASS" in a message matches "ass", a keyword "ASS" matches nothing. */
  lemma OnlyMessageIsLowered()
    ensures ContainsViolation("ASS", ["ass"])
    ensures !ContainsViolation("ass", ["ASS"])
  {
    assert Lower("ASS") == "ass";
    assert OccursAt("ass", Lower("ASS"), 0);
    assert Lower("ass") == "ass";
    AbsentCharExcludes(Lower("ass"), "ASS", 'A');
  }

  // ---------------------------------------------------------------------
  // Tier table

  datatype LevelInfo = LevelInfo(message: string, banTime: nat)

  /** `VIOLATION_LEVELS[level]`; `None` where the dictionary has no key. */
  function Levels(level: int): Option<LevelInfo> {
    if level == 1 then Some(LevelInfo(WarningText, 0))
    else if level == 2 then Some(LevelInfo(FiveMinuteBanText, 300))
    else if level == 3 then Some(LevelInfo(OneHourBanText, 3600))
    else if level == 4 then Some(LevelInfo(LockText, 86400))
    else None
  }

  /** `min(current_strikes, max(VIOLATION_LEVELS.keys()))` */
  function Tier(strikes: int): (r: int)
    ensures r <= strikes && r <= MaxLevel
    ensures strikes >= 1 ==> 1 <= r <= MaxLevel && Levels(r).Some?
    ensures strikes >= MaxLevel ==> r == MaxLevel
    ensures strikes <= MaxLevel ==> r == strikes
  {
    if strikes < MaxLevel then strikes else MaxLevel
  }

  /** Ban length for a strike count: 1 -> 0, 2 -> 300, 3 -> 3600, 4 or more -> 86400 seconds. */
  function BanSeconds(strikes: int): (r: nat)
    requires strikes >= 1
    ensures strikes == 1 ==> r == 0
    ensures strikes == 2 ==> r == 300
    ensures strikes == 3 ==> r == 3600
    ensures strikes >= 4 ==> r == 86400
    ensures r > 0 <==> strikes >= 2
  {
    Levels(Tier(strikes)).value.banTime
  }

  // ---------------------------------------------------------------------
  // Ledger

  /** The strike count as the fast store reports it (absent counts as zero). */
  function Strikes(l: Ledger, u: UserId, now: int): int {
    FS.Get(l, StrikeKey(u), now).GetOr(0)
  }

  /** The ban flag is present. */
  predicate IsBanned(l: Ledger, u: UserId, now: int) {
    FS.Exists(l, BanKey(u), now)
  }

  /** A `violation_logs` row. */
  datatype LogRow = LogRow(user: UserId, message: string, level: int)

  /**
   The effects of one `process_violation` call: the new ledger, the count
   INCR returned, the log row written, the plain-text notices sent to the
   violator, and whether the call ends by raising.
   */
  datatype Outcome = Outcome(ledger: Ledger, strikes: int, log: Option<LogRow>, notices: seq<string>, raised: bool)

  /**
   `process_violation`. `durableOk` says whether the two durable-store
   writes complete (when they do not, the call raises right after the
   counter update); `emailError` is the lock email's failure, if any.
   */
  function ProcessViolation(l: Ledger, u: UserId, message: string, now: int,
                            durableOk: bool, emailError: Option<string>): (o: Outcome)
    ensures o.strikes == Strikes(l, u, now) + 1
    ensures StrikeKey(u) in o.ledger && o.ledger[StrikeKey(u)] == FS.Entry(o.strikes, Some(now + StrikeTtl))
    ensures o.log.Some? <==> durableOk
    ensures durableOk ==> o.log == Some(LogRow(u, message, o.strikes))
    ensures !durableOk ==> o.notices == [] && o.ledger - {StrikeKey(u)} == l - {StrikeKey(u)}
    ensures durableOk && o.strikes >= 1 ==>
      && |o.notices| >= 1
      && o.notices[0] == Levels(Tier(o.strikes)).value.message
      && (BanSeconds(o.strikes) > 0 ==> BanKey(u) in o.ledger && o.ledger[BanKey(u)] == FS.Entry(1, Some(now + BanSeconds(o.strikes))))
      && (BanSeconds(o.strikes) == 0 ==> o.ledger - {StrikeKey(u)} == l - {StrikeKey(u)})
    ensures durableOk && o.strikes >= MaxLevel ==>
      && |o.notices| == 3 && o.notices[1] == LockText
      && o.notices[2] == (if emailError.None? then EmailSentText else EmailFailedPrefix + emailError.value)
    ensures durableOk && 1 <= o.strikes < MaxLevel ==> |o.notices| == 1
    ensures o.raised <==> !durableOk || o.strikes < 1 || (o.strikes >= MaxLevel && emailError.Some?)
    ensures o.ledger - {StrikeKey(u), BanKey(u)} == l - {StrikeKey(u), BanKey(u)}
  {
    var incremented := FS.Incr(l, StrikeKey(u), now);
    var strikes := incremented.1;
    var l2 := FS.Expire(incremented.0, StrikeKey(u), now, StrikeTtl);
    if !durableOk then
      Outcome(l2, strikes, None, [], true)
    else
      var log := Some(LogRow(u, message, strikes));
      var level := Tier(strikes);
      if Levels(level).None? then
        Outcome(l2, strikes, log, [], true)
      else
        var info := Levels(level).value;
        var l3 := if info.banTime > 0 then FS.SetEx(l2, BanKey(u), 1, now, info.banTime) else l2;
        if strikes < MaxLevel then
          Outcome(l3, strikes, log, [info.message], false)
        else
          var l4 := FS.SetEx(l3, BanKey(u), 1, now, LockBanSeconds);
          match emailError
          case None => Outcome(l4, strikes, log, [info.message, LockText, EmailSentText], false)
          case Some(e) => Outcome(l4, strikes, log, [info.message, LockText, EmailFailedPrefix + e], true)
  }

  // ---------------------------------------------------------------------
  // The strike record

  /** The fields the `ViolationStrikeCreate` schema declares without a default. */
  const StrikeCreateRequired: set<string> := {"user_id", "strike_count"}

  /** The keyword arguments `process_violation` builds the strike record with. */
  const StrikeCreateArgs: set<string> := {"user_id"}

  /** Building a `ViolationStrikeCreate` validates iff every required field is passed. */
  predicate StrikeCreateBuilds(args: set<string>) {
    StrikeCreateRequired <= args
  }

  /**
   Whether the durable writes complete: the strike record is built before
   either write starts, so they complete only when it validates and the
   store then accepts both writes (`storeOk`).
   */
  function DurableWrites(args: set<string>, storeOk: bool): (ok: bool)
    ensures ok <==> "user_id" in args && "strike_count" in args && storeOk
  {
    StrikeCreateBuilds(args) && storeOk
  }

  /**
   As written, the strike record is built without its required count, so
   every call raises right after the counter update: the count still goes
   up, but nothing is logged, no notice is sent and no ban flag is written.
   */
  lemma EveryViolationRaisesAsWritten(l: Ledger, u: UserId, message: string, now: int,
                                      storeOk: bool, emailError: Option<string>, t: int)
    ensures !DurableWrites(StrikeCreateArgs, storeOk)
    ensures var o := ProcessViolation(l, u, message, now, DurableWrites(StrikeCreateArgs, storeOk), emailError);
      && o.raised && o.notices == [] && o.log.None?
      && o.strikes == Strikes(l, u, now) + 1
      && (IsBanned(o.ledger, u, t) <==> IsBanned(l, u, t))
  {
    assert "strike_count" !in StrikeCreateArgs;
    var o := ProcessViolation(l, u, message, now, false, emailError);
    assert BanKey(u) in o.ledger - {StrikeKey(u)} <==> BanKey(u) in l - {StrikeKey(u)};
    if BanKey(u) in l {
      assert (o.ledger - {StrikeKey(u)})[BanKey(u)] == (l - {StrikeKey(u)})[BanKey(u)];
    }
  }

  /**
   With its count passed, the record builds, and when the store accepts the
   writes the tier table is reached: a second strike bans for five minutes.
   */
  lemma SecondStrikeBansOnceRecordBuilds(l: Ledger, u: UserId, message: string, now: int,
                                         emailError: Option<string>, t: int)
    requires Strikes(l, u, now) == 1 && now <= t
    ensures DurableWrites(StrikeCreateArgs + {"strike_count"}, true)
    ensures var o := ProcessViolation(l, u, message, now, DurableWrites(StrikeCreateArgs + {"strike_count"}, true), emailError);
      && o.strikes == 2 && !o.raised && o.notices == [FiveMinuteBanText]
      && (IsBanned(o.ledger, u, t) <==> t < now + 300)
  {
    assert StrikeCreateRequired <= StrikeCreateArgs + {"strike_count"};
    SecondStrikeBansFiveMinutes(l, u, message, now, emailError, t);
  }

  /**
   `sync_strike_from_db`: the persisted count is copied into the fast store,
   with a one-day lifetime, only when the counter is absent there.
   */
  function SyncStrikeFromDb(l: Ledger, u: UserId, persisted: Option<int>, now: int): (r: Ledger)
    ensures FS.Exists(l, StrikeKey(u), now) || persisted.None? ==> r == l
    ensures !FS.Exists(l, StrikeKey(u), now) && persisted.Some? ==>
      && StrikeKey(u) in r && r[StrikeKey(u)] == FS.Entry(persisted.value, Some(now + StrikeTtl))
      && Strikes(r, u, now) == persisted.value
    ensures r - {StrikeKey(u)} == l - {StrikeKey(u)}
  {
    if FS.Exists(l, StrikeKey(u), now) then l
    else match persisted
      case None => l
      case Some(count) => FS.SetEx(l, StrikeKey(u), count, now, StrikeTtl)
  }

  // ---------------------------------------------------------------------
  // Properties over several calls

  /** One violation call at a given time, with the fate of its side effects. */
  datatype Call = Call(at: int, message: string, durableOk: bool, emailError: Option<string>)

  /** The ledger after a sequence of `process_violation` calls by one user. */
  function ProcessAll(l: Ledger, u: UserId, calls: seq<Call>): Ledger
    decreases |calls|
  {
    if |calls| == 0 then l
    else
      var c := calls[0];
      ProcessAll(ProcessViolation(l, u, c.message, c.at, c.durableOk, c.emailError).ledger, u, calls[1..])
  }

  /** Consecutive calls come less than a day apart, in time order. */
  predicate WithinStrikeWindow(calls: seq<Call>) {
    forall i :: 0 < i < |calls| ==> calls[i - 1].at <= calls[i].at < calls[i - 1].at + StrikeTtl
  }

  /**
   Within the counter's lifetime every call adds exactly one strike, whatever
   happens to the durable writes or the email: the count read just after the
   last call is the starting count plus the number of calls.
   */
  lemma {:induction false} StrikesCountCalls(l: Ledger, u: UserId, calls: seq<Call>)
    requires |calls| > 0 && WithinStrikeWindow(calls)
    ensures Strikes(ProcessAll(l, u, calls), u, calls[|calls| - 1].at) == Strikes(l, u, calls[0].at) + |calls|
    decreases |calls|
  {
    var c := calls[0];
    var o := ProcessViolation(l, u, c.message, c.at, c.durableOk, c.emailError);
    if |calls| == 1 {
      assert ProcessAll(o.ledger, u, calls[1..]) == o.ledger;
    } else {
      var rest := calls[1..];
      assert WithinStrikeWindow(rest) by {
        forall i | 0 < i < |rest| ensures rest[i - 1].at <= rest[i].at < rest[i - 1].at + StrikeTtl {
          assert rest[i - 1] == calls[i] && rest[i] == calls[i + 1];
        }
      }
      assert calls[1].at < c.at + StrikeTtl;
      assert Strikes(o.ledger, u, rest[0].at) == o.strikes;
      StrikesCountCalls(o.ledger, u, rest);
      assert rest[|rest| - 1] == calls[|calls| - 1];
    }
  }

  /**
   A second strike bans for exactly five minutes, while the strike itself
   stays on record for a day: the ban can lapse with the count unchanged.
   */
  lemma SecondStrikeBansFiveMinutes(l: Ledger, u: UserId, message: string, now: int, emailError: Option<string>, t: int)
    requires Strikes(l, u, now) == 1 && now <= t
    ensures var o := ProcessViolation(l, u, message, now, true, emailError);
      && o.strikes == 2 && !o.raised && o.notices == [FiveMinuteBanText]
      && (IsBanned(o.ledger, u, t) <==> t < now + 300)
      && (t < now + StrikeTtl ==> Strikes(o.ledger, u, t) == 2)
  {
  }

  /** A first strike only warns: no ban flag is written. */
  lemma FirstStrikeOnlyWarns(l: Ledger, u: UserId, message: string, now: int, emailError: Option<string>)
    requires !FS.Exists(l, StrikeKey(u), now)
    ensures var o := ProcessViolation(l, u, message, now, true, emailError);
      && o.strikes == 1 && o.notices == [WarningText] && !o.raised
      && (IsBanned(o.ledger, u, now) <==> IsBanned(l, u, now))
  {
  }
}

=== FILE: wire.dfy ===
/**
 What the chat service's socket handlers put on the wire, shared by the
 mounted endpoint (`routers/chat.py`) and the helper module
 (`sockets/ws_helpers.py`). Payload timestamps are kept only where a
 property mentions them.
 */
module Wire {
  import F = Flush
  import opened Wrappers
  import opened Text

  /** The notice a banned sender gets instead of an answer. */
  const BanNoticeText := "Bạn đang bị cấm chat tạm thời do vi phạm nội dung."

  /** The titles a fresh chat carries. */
  const DefaultTitles: seq<string> := ["New Chat", "Cuộc trò chuyện mới"]

  /** One entry of the conversation context sent to the model. */
  datatype Turn = Turn(role: string, content: string)

  datatype Msg =
    | SystemNotice(content: string)        // {"role": "system", "content": ...}
    | PlainText(text: string)              // a bare text frame (violation notices)
    | UserEcho(content: string, at: int)   // {"role": "user", "content": ...}
    | Typing(userId: int)                  // {"event": "TYPING", "user_id": ...}
    | Assistant(content: string, at: int)  // {"role": "assistant", "content": ...}
    | Done                                 // {"event": "DONE"}
    | TitleUpdated(title: string)          // {"role": "system", "event": "TITLE_UPDATED", "title": ...}

  /** A send on the originating socket, or a broadcast to the chat that skips the sender's user. */
  datatype Send = ToSender(msg: Msg) | ToOthers(msg: Msg)

  /** Each violation notice as a text frame to the sender. */
  function TextFrames(texts: seq<string>): (r: seq<Send>)
    ensures |r| == |texts|
    ensures forall i :: 0 <= i < |texts| ==> r[i] == ToSender(PlainText(texts[i]))
  {
    seq(|texts|, i requires 0 <= i < |texts| => ToSender(PlainText(texts[i])))
  }

  /** Assistant frames sent to the sender only. */
  function SenderFrames(frames: seq<F.Frame>): (r: seq<Send>)
    ensures |r| == |frames|
    ensures forall i :: 0 <= i < |frames| ==> r[i] == ToSender(Assistant(frames[i].content, frames[i].at))
  {
    seq(|frames|, i requires 0 <= i < |frames| => ToSender(Assistant(frames[i].content, frames[i].at)))
  }

  /** Assistant frames each sent to the sender and then broadcast to the others. */
  function SharedFrames(frames: seq<F.Frame>): (r: seq<Send>)
    ensures |r| == 2 * |frames|
    ensures forall i :: 0 <= i < |frames| ==>
      r[2 * i] == ToSender(Assistant(frames[i].content, frames[i].at))
      && r[2 * i + 1] == ToOthers(Assistant(frames[i].content, frames[i].at))
  {
    if |frames| == 0 then []
    else
      var m := Assistant(frames[0].content, frames[0].at);
      var rest := SharedFrames(frames[1..]);
      [ToSender(m), ToOthers(m)] + rest
  }

  /**
   The model provider's answer to one request: either it cannot be opened,
   or it was opened at `openedAt` and yields `chunks`, after which it either
   ends (at `endAt`) or raises (`broken`).
   */
  datatype Provider =
    | ProviderDown
    | Provider(openedAt: int, chunks: seq<F.Chunk>, broken: bool, endAt: int)

  /** A streamed answer: what was sent and, when the stream completed, the reply. */
  datatype Answered = Answered(sends: seq<Send>, reply: Option<string>)

  /** Only the sender is written to. */
  predicate NoBroadcast(sends: seq<Send>) {
    forall i :: 0 <= i < |sends| ==> sends[i].ToSender?
  }

  /** The assistant text in `sends` that reaches the sender (`bySender`) or the other users, in order. */
  function Heard(sends: seq<Send>, bySender: bool): string {
    if |sends| == 0 then ""
    else (if sends[0].ToSender? == bySender && sends[0].msg.Assistant? then sends[0].msg.content else "") + Heard(sends[1..], bySender)
  }

  /** What that side has read is the reply less a whitespace tail. */
  ghost predicate HeardUpToBlankTail(sends: seq<Send>, bySender: bool, reply: string) {
    Heard(sends, bySender) <= reply && Blank(reply[|Heard(sends, bySender)|..], Python)
  }

  lemma {:induction false} HeardAppend(a: seq<Send>, b: seq<Send>, bySender: bool)
    ensures Heard(a + b, bySender) == Heard(a, bySender) + Heard(b, bySender)
    decreases |a|
  {
    if |a| > 0 {
      assert (a + b)[1..] == a[1..] + b;
      HeardAppend(a[1..], b, bySender);
    } else {
      assert a + b == b;
    }
  }

  /** Sends that carry no assistant text add nothing to what either side reads. */
  lemma {:induction false} HeardNothing(sends: seq<Send>, bySender: bool)
    requires forall i :: 0 <= i < |sends| ==> !sends[i].msg.Assistant?
    ensures Heard(sends, bySender) == ""
    decreases |sends|
  {
    if |sends| > 0 {
      HeardNothing(sends[1..], bySender);
    }
  }

  /** The sender of sender-only frames reads the frames' contents; the others read nothing. */
  lemma {:induction false} SenderFramesSpell(frames: seq<F.Frame>)
    ensures Heard(SenderFrames(frames), true) == F.Contents(frames)
    decreases |frames|
  {
    if |frames| > 0 {
      var init := frames[..|frames| - 1];
      var last := [ToSender(Assistant(frames[|frames| - 1].content, frames[|frames| - 1].at))];
      SenderFramesSpell(init);
      HeardAppend(SenderFrames(init), last, true);
      assert SenderFrames(frames) == SenderFrames(init) + last;
    }
  }

  lemma {:induction false} SharedFramesAppend(frames: seq<F.Frame>, x: F.Frame)
    ensures SharedFrames(frames + [x]) == SharedFrames(frames) + [ToSender(Assistant(x.content, x.at)), ToOthers(Assistant(x.content, x.at))]
    decreases |frames|
  {
    if |frames| > 0 {
      assert (frames + [x])[1..] == frames[1..] + [x];
      SharedFramesAppend(frames[1..], x);
    } else {
      assert frames + [x] == [x];
    }
  }

  /** With shared frames, the sender and every other user read the same text: the frames' contents. */
  lemma {:induction false} SharedFramesSpell(frames: seq<F.Frame>, bySender: bool)
    ensures Heard(SharedFrames(frames), bySender) == F.Contents(frames)
    decreases |frames|
  {
    if |frames| > 0 {
      var init := frames[..|frames| - 1];
      var x := frames[|frames| - 1];
      SharedFramesSpell(init, bySender);
      assert init + [x] == frames;
      SharedFramesAppend(init, x);
      var pair := [ToSender(Assistant(x.content, x.at)), ToOthers(Assistant(x.content, x.at))];
      HeardAppend(SharedFrames(init), pair, bySender);
      HeardPair(x, bySender);
      assert F.Contents(frames) == F.Contents(init) + x.content;
    }
  }

  /** One shared frame is read by both sides. */
  lemma HeardPair(x: F.Frame, bySender: bool)
    ensures Heard([ToSender(Assistant(x.content, x.at)), ToOthers(Assistant(x.content, x.at))], bySender) == x.content
  {
    var pair := [ToSender(Assistant(x.content, x.at)), ToOthers(Assistant(x.content, x.at))];
    assert pair[1..] == [ToOthers(Assistant(x.content, x.at))];
    assert pair[1..][1..] == [];
    if bySender {
      assert Heard(pair[1..], bySender) == "";
    } else {
      assert Heard(pair[1..], bySender) == x.content;
    }
  }
}

=== FILE: wrappers.dfy ===
/** Optional values, used wherever the source has `None`, `null` or `undefined`. */
module Wrappers {

  datatype Option<+T> = None | Some(value: T) {

    /** The wrapped value, or `default` when there is none. */
    function GetOr(default: T): T {
      match this
      case Some(v) => v
      case None => default
    }
  }
}

=== FILE: ws_helpers.dfy ===
/**
 The helper iteration of the chat socket handlers (`sockets/ws_helpers.py`):
 `handle_typing`, `stream_ai_response` and `handle_send_message`. Unlike
 the mounted endpoint, every flushed frame is also broadcast, a violation
 does not stop the message, failed saves are rolled back and skipped, and
 titles go through a cache and are only ever set to a usable title.
 */
module WsHelpers {
  import opened Wrappers
  import opened Text
  import V = Violation
  import CS = ChatStore
  import F = Flush
  import opened Wire

  /** The notice sent when the provider fails mid-stream. */
  const StreamErrorText := "Error streaming AI response."

  /**
   What the helpers read and write: the database, the strike and ban keys,
   the title cache (`chat_title:{chat_id}`, by session) and the supply of
   fresh message ids.
   */
  datatype World = World(db: CS.Db, ledger: V.Ledger, titles: map<CS.SessionId, string>, nextId: int)

  ghost predicate FreshIds(w: World) {
    forall m :: m in w.db.messages ==> m < w.nextId
  }

  /** `handle_typing`: a TYPING event to every other user of the chat, none to the typist. */
  function HandleTyping(userId: int): (r: seq<Send>)
    ensures |r| == 1 && r[0].ToOthers? && r[0].msg == Typing(userId)
  {
    [ToOthers(Typing(userId))]
  }

  /**
   `stream_ai_response`, from the moment it is entered (`startedAt`, taken
   before the provider is asked). Each flush goes to the sender and is
   broadcast to the others; on completion the non-blank tail goes both ways
   and DONE only to the sender. A provider that cannot be opened raises
   with nothing sent; one that fails mid-stream gets the error notice and
   raises, with no tail and no DONE.
   */
  method StreamReply(startedAt: int, p: Provider) returns (r: Answered)
    ensures r.reply.None? <==> p.ProviderDown? || p.broken
    ensures p.ProviderDown? ==> r.sends == []
    ensures p.Provider? && p.broken ==>
      r.sends == SharedFrames(F.Run(F.HelperPolicy, F.Initial(startedAt), p.chunks).sent)
                 + [ToSender(SystemNotice(StreamErrorText))]
    ensures r.reply.Some? ==>
      && r.reply.value == F.Texts(p.chunks)
      && |r.sends| >= 1 && r.sends[|r.sends| - 1] == ToSender(Done)
      && HeardUpToBlankTail(r.sends, true, r.reply.value)
      && Heard(r.sends, false) == Heard(r.sends, true)
  {
    match p
    case ProviderDown =>
      r := Answered([], None);
    case Provider(_, chunks, broken, endAt) =>
      if broken {
        r := Answered(SharedFrames(F.Run(F.HelperPolicy, F.Initial(startedAt), chunks).sent)
                      + [ToSender(SystemNotice(StreamErrorText))], None);
      } else {
        var f := F.Streamed(F.HelperPolicy, startedAt, chunks, endAt);
        BothSidesReadReply(f);
        r := Answered(SharedFrames(f.frames) + [ToSender(Done)], Some(f.reply));
      }
  }

  /** With shared frames, the sender and the others both read the reply up to its unsent blank tail. */
  lemma BothSidesReadReply(f: F.Finished)
    requires F.Contents(f.frames) + f.unsent == f.reply && Blank(f.unsent, Python)
    ensures var sends := SharedFrames(f.frames) + [ToSender(Done)];
      && HeardUpToBlankTail(sends, true, f.reply)
      && Heard(sends, false) == Heard(sends, true)
  {
    var sends := SharedFrames(f.frames) + [ToSender(Done)];
    SharedFramesSpell(f.frames, true);
    SharedFramesSpell(f.frames, false);
    HeardAppend(SharedFrames(f.frames), [ToSender(Done)], true);
    HeardAppend(SharedFrames(f.frames), [ToSender(Done)], false);
    HeardNothing([ToSender(Done)], true);
    HeardNothing([ToSender(Done)], false);
    assert Heard(sends, true) + f.unsent == f.reply;
    assert f.reply[|Heard(sends, true)|..] == f.unsent;
  }

  /** A title worth storing and announcing: non-empty and not a default. */
  predicate Usable(title: string) {
    title != "" && title !in DefaultTitles
  }

  /** The session's title, stripped, is empty or a default. */
  predicate NeedsTitle(sessionTitle: Option<string>) {
    PyStrip(sessionTitle.GetOr("")) in [""] + DefaultTitles
  }

  datatype Titled = Titled(db: CS.Db, titles: map<CS.SessionId, string>, sends: seq<Send>)

  /**
   The title step of `handle_send_message`. Only a chat whose title needs
   one is considered; a non-empty cached title is preferred to the
   generator's answer, which is cached only when usable; the database and
   the sender hear of the title only when it is usable.
   */
  function TitleStep(db: CS.Db, titles: map<CS.SessionId, string>, chatId: CS.SessionId,
                     sessionTitle: Option<string>, generated: string): (r: Titled)
    ensures !NeedsTitle(sessionTitle) ==> r == Titled(db, titles, [])
    ensures forall i :: 0 <= i < |r.sends| ==>
      r.sends[i].ToSender? && r.sends[i].msg.TitleUpdated? && Usable(r.sends[i].msg.title)
    ensures NeedsTitle(sessionTitle) && chatId in titles && titles[chatId] != "" ==>
      && r.titles == titles
      && r.sends == (if Usable(titles[chatId]) then [ToSender(TitleUpdated(titles[chatId]))] else [])
    ensures NeedsTitle(sessionTitle) && !(chatId in titles && titles[chatId] != "") ==>
      && r.titles == (if Usable(generated) then titles[chatId := generated] else titles)
      && r.sends == (if Usable(generated) then [ToSender(TitleUpdated(generated))] else [])
    ensures r.db.messages == db.messages && r.db.sessions.Keys == db.sessions.Keys
    ensures r.sends == [] ==> r.db == db
    ensures |r.sends| == 1 && chatId in db.sessions ==> r.db.sessions[chatId].title == r.sends[0].msg.title
  {
    if !NeedsTitle(sessionTitle) then Titled(db, titles, [])
    else
      var cached := chatId in titles && titles[chatId] != "";
      var title := if cached then titles[chatId] else generated;
      var titles1 := if !cached && Usable(generated) then titles[chatId := generated] else titles;
      if Usable(title) then
        Titled(CS.UpdateChatSession(db, chatId, Some(title)).0, titles1, [ToSender(TitleUpdated(title))])
      else Titled(db, titles1, [])
  }

  /** One session of the connection's user. */
  datatype Conn = Conn(chatId: CS.SessionId, userId: int)

  /**
   What `handle_send_message` depends on beyond the world: the clock at
   entry, the banned keywords, the violation's durable writes and email,
   when streaming starts, the provider, when the reply is saved, and what
   the title generator returns.
   */
  datatype Env = Env(now: int, keywords: seq<string>, durableOk: bool, emailError: Option<string>,
                     streamAt: int, provider: Provider, savedAt: int, generated: string)

  /** The state after one message, and whether the handler raised. */
  datatype Outcome = Outcome(world: World, context: seq<Turn>, sends: seq<Send>, raised: bool)

  /** The violation's effects, when the message trips a keyword. */
  function Moderation(w: World, c: Conn, content: string, env: Env): V.Outcome {
    V.ProcessViolation(w.ledger, c.userId, content, env.now, env.durableOk, env.emailError)
  }

  /** The user message as stored, under the handler's entry time. */
  function UserMessage(c: Conn, content: string, env: Env): CS.Message {
    CS.Message(c.chatId, "user", content, env.now)
  }

  /**
   After the echo: stream the answer, then save the reply under `savedAt`
   (a failed save is rolled back and skipped, and the reply then stays out
   of the context) and run the title step. A failed stream ends the
   handler with nothing more saved.
   */
  method Reply(w: World, c: Conn, asked: seq<Turn>, sessionTitle: Option<string>, replyId: CS.MessageId, env: Env)
    returns (o: Outcome)
    requires replyId !in w.db.messages
    ensures o.world.ledger == w.ledger && o.world.nextId == w.nextId && !o.raised
    ensures o.world.db.messages.Keys <= w.db.messages.Keys + {replyId}
    ensures |o.context| >= |asked| && o.context[..|asked|] == asked
    ensures env.provider.ProviderDown? || env.provider.broken ==> o.world == w && o.context == asked
    ensures env.provider.Provider? && !env.provider.broken && c.chatId in w.db.sessions ==>
      && o.world.db.messages == w.db.messages[replyId := CS.Message(c.chatId, "assistant", F.Texts(env.provider.chunks), env.savedAt)]
      && o.context == asked + [Turn("assistant", F.Texts(env.provider.chunks))]
    ensures c.chatId !in w.db.sessions ==> o.world.db == w.db
  {
    var a := StreamReply(env.streamAt, env.provider);
    if a.reply.None? {
      assert asked[..|asked|] == asked;
      return Outcome(w, asked, a.sends, false);
    }
    var kept := CS.AddMessageToChat(w.db, replyId, c.chatId, "assistant", a.reply.value, Some(env.savedAt), env.now);
    var db2 := if kept.Ok? then kept.db else w.db;
    var answered := if kept.Ok? then asked + [Turn("assistant", a.reply.value)] else asked;
    assert answered[..|asked|] == asked;
    var t := TitleStep(db2, w.titles, c.chatId, sessionTitle, env.generated);
    o := Outcome(w.(db := t.db, titles := t.titles), answered, a.sends + t.sends, false);
  }

  /**
   Everything after the gates, once any violation has been handled without
   raising: the save of the user message (a failed save is rolled back and
   skipped), the echo to the sender and the others, and the reply.
   */
  method Deliver(w: World, c: Conn, context: seq<Turn>, sessionTitle: Option<string>, content: string, env: Env)
    returns (o: Outcome)
    requires FreshIds(w)
    ensures FreshIds(o.world) && !o.raised
    ensures o.world.ledger == w.ledger
    ensures |o.sends| >= 2
    ensures o.sends[0] == ToSender(UserEcho(content, env.now)) && o.sends[1] == ToOthers(UserEcho(content, env.now))
    ensures |o.context| >= |context| + 1 && o.context[..|context| + 1] == context + [Turn("user", content)]
    ensures c.chatId !in w.db.sessions ==> o.world.db == w.db
    ensures c.chatId in w.db.sessions ==>
      && w.nextId in o.world.db.messages && o.world.db.messages[w.nextId] == UserMessage(c, content, env)
      && (env.provider.ProviderDown? || env.provider.broken ==>
            o.world.db.messages == w.db.messages[w.nextId := UserMessage(c, content, env)])
      && (env.provider.Provider? && !env.provider.broken ==>
            o.world.db.messages == w.db.messages[w.nextId := UserMessage(c, content, env)]
              [w.nextId + 1 := CS.Message(c.chatId, "assistant", F.Texts(env.provider.chunks), env.savedAt)])
  {
    var saved := CS.AddMessageToChat(w.db, w.nextId, c.chatId, "user", content, Some(env.now), env.now);
    var db1 := if saved.Ok? then saved.db else w.db;
    var echo := [ToSender(UserEcho(content, env.now)), ToOthers(UserEcho(content, env.now))];
    var asked := context + [Turn("user", content)];
    var r := Reply(w.(db := db1, nextId := w.nextId + 2), c, asked, sessionTitle, w.nextId + 1, env);
    assert r.context[..|context| + 1] == asked by {
      assert r.context[..|asked|] == asked;
    }
    o := r.(sends := echo + r.sends);
  }

  /**
   `handle_send_message`. A banned sender gets the ban notice and nothing
   else happens. A violating message runs `process_violation`, whose
   notices reach the sender; if that raises, the handler raises with it,
   and otherwise the message carries on exactly like a clean one: it is
   saved, echoed, broadcast and answered.
   */
  method HandleSendMessage(w: World, c: Conn, context: seq<Turn>, sessionTitle: Option<string>,
                           content: string, env: Env) returns (o: Outcome)
    requires FreshIds(w)
    ensures FreshIds(o.world)
    ensures V.IsBanned(w.ledger, c.userId, env.now) ==>
      o == Outcome(w, context, [ToSender(SystemNotice(BanNoticeText))], false)
    ensures !V.IsBanned(w.ledger, c.userId, env.now) && V.ContainsViolation(content, env.keywords) ==>
      && o.world.ledger == Moderation(w, c, content, env).ledger
      && TextFrames(Moderation(w, c, content, env).notices) <= o.sends
      && o.raised == Moderation(w, c, content, env).raised
    ensures o.raised ==> o.world == w.(ledger := o.world.ledger) && o.context == context
    ensures !V.IsBanned(w.ledger, c.userId, env.now) && !V.ContainsViolation(content, env.keywords) ==>
      o.world.ledger == w.ledger && !o.raised
    ensures !V.IsBanned(w.ledger, c.userId, env.now) && !o.raised ==>
      && var n := if V.ContainsViolation(content, env.keywords) then |Moderation(w, c, content, env).notices| else 0;
      && |o.sends| >= n + 2
      && o.sends[n] == ToSender(UserEcho(content, env.now))
      && o.sends[n + 1] == ToOthers(UserEcho(content, env.now))
      && |o.context| >= |context| + 1
      && o.context[..|context| + 1] == context + [Turn("user", content)]
      && (c.chatId in w.db.sessions ==>
            w.nextId in o.world.db.messages && o.world.db.messages[w.nextId] == UserMessage(c, content, env))
  {
    if V.IsBanned(w.ledger, c.userId, env.now) {
      return Outcome(w, context, [ToSender(SystemNotice(BanNoticeText))], false);
    }
    var notices: seq<Send> := [];
    var w1 := w;
    if V.ContainsViolation(content, env.keywords) {
      var pv := Moderation(w, c, content, env);
      notices := TextFrames(pv.notices);
      w1 := w.(ledger := pv.ledger);
      if pv.raised {
        return Outcome(w1, context, notices, true);
      }
    }
    var d := Deliver(w1, c, context, sessionTitle, content, env);
    o := d.(sends := notices + d.sends);
  }

  /**
   At most one title is announced, and it is usable (never empty, never a
   default), it is the title cached for the chat afterwards, and it is the
   title stored on the session.
   */
  lemma AnnouncedTitlesAreUsable(db: CS.Db, titles: map<CS.SessionId, string>, chatId: CS.SessionId,
                                 sessionTitle: Option<string>, generated: string)
    ensures var r := TitleStep(db, titles, chatId, sessionTitle, generated);
      |r.sends| <= 1
    ensures var r := TitleStep(db, titles, chatId, sessionTitle, generated);
      forall i :: 0 <= i < |r.sends| ==>
        && Usable(r.sends[i].msg.title)
        && chatId in r.titles && r.titles[chatId] == r.sends[i].msg.title
        && (chatId in db.sessions ==> r.db.sessions[chatId].title == r.sends[i].msg.title)
  {
  }

  /** A cached title wins: the generator's answer does not matter. */
  lemma CachedTitleWins(db: CS.Db, titles: map<CS.SessionId, string>, chatId: CS.SessionId,
                        sessionTitle: Option<string>, a: string, b: string)
    requires chatId in titles && titles[chatId] != ""
    ensures TitleStep(db, titles, chatId, sessionTitle, a) == TitleStep(db, titles, chatId, sessionTitle, b)
  {
  }

  /** A title of blanks counts as missing: it is replaced by a usable generated title. */
  lemma BlankTitleIsReplaced(db: CS.Db, chatId: CS.SessionId, generated: string)
    requires chatId in db.sessions && Usable(generated)
    ensures var r := TitleStep(db, map[], chatId, Some("  "), generated);
      && r.sends == [ToSender(TitleUpdated(generated))]
      && r.titles == map[chatId := generated]
      && r.db.sessions[chatId].title == generated
  {
    assert PyStrip("  ") == "" by {
      assert Blank("  ", Python);
    }
  }
}
